=== FILE: README.md ===
# react-jsx-wrapper: a Dafny model of the wrap/unwrap core

The extension adds "Wrap with …" and "Remove element" code actions for
JSX in a VS Code editor. It works lexically, on the text of the document
and the selection, with regular expressions and string searches, not with
a parser. This project models that text logic as pure Dafny functions
over `string` (`seq<char>`) and proves what each step computes:

- **Text** (`text.dfy`): the JavaScript string operations the code relies
  on, with their JavaScript semantics. These are `trim` (the full `\s`
  whitespace set), `trimStart`, `indexOf` with a clamped start and `-1`,
  `lastIndexOf`, `substring` with clamping and argument swap, and
  `split`/`join` on one character.
- **Tags** (`tags.dfy`): the tag-name pattern `[a-zA-Z_$][\w.$]*`, its
  greedy capture, and the closing tag `</name>`.
- **Classifier** (`classifier.dfy`): `parseJSXElement` and
  `isCompleteJSXElement`.
- **Locator** (`locator.dfy`): `findJSXElementRange`. It has the
  backward search for `<`, the name check, the self-closing shortcut and
  the forward depth scan. The scan is proved against a declarative
  account of nesting depth: counts of genuine `<tag` openings and
  `</tag>` closings.
- **Reindent** (`reindent.dfy`): `getIndentation`, `getTabSize`, and
  `wrapContent` with its line re-indentation.
- **Unwrap** (`unwrap.dfy`): the edit `createUnwrapAction` makes. This
  covers extracting the children, the two edge regular expressions, the
  minimum indentation and the dedent.
- **Actions** (`actions.dfy`): the code-action provider. It covers target
  range selection, the framework default tables, wrappers from the
  configuration, removal behaviour lookup, the offered unwrap entries, the
  menu order, the wrap texts and the `addImport` dispatch.
- **Imports** (`imports.dfy`): `addNamedImport`, `addDefaultImport` and
  `findImportInsertPosition`. It also covers the regex escape of the
  module name, and the merge of the name into an existing import list,
  sorted.

The edge regular expressions are followed as the code writes them.
`/^\s*\n/` removes everything up to the last line feed of the leading
whitespace run, because the greedy `\s*` backtracks only as far as it
must. `/\n\s*$/` removes from the first line feed of the trailing
whitespace run. So more than one blank line can go at each edge, not
exactly one.

## Model

| member | source | states |
|---|---|---|
| Text.Trim | src/extension.ts:142 | `trim` removes exactly the leading and trailing whitespace runs; the result is empty exactly when the text is all whitespace |
| Text.IndexOfSpec | src/extension.ts:168 | `indexOf` returns the first occurrence at or after the clamped start, or -1 when there is none |
| Text.LastIndexOf | src/extension.ts:169 | `lastIndexOf` returns an occurrence with none after it, or -1 |
| Text.LastIndexOfSuffix | src/extension.ts:163-169 | once the text ends with the closing tag, `lastIndexOf` finds that final occurrence |
| Text.JoinSplit | src/extension.ts:550-558 | joining the pieces of a split on a character gives back the text |
| Text.SplitJoin | src/extension.ts:550-558 | splitting a join of separator-free pieces gives back the pieces |
| Tags.MatchOpenTag | src/extension.ts:155 | the capture exists exactly when `<` and a name-start character open the text, and the captured name cannot be extended |
| Tags.OpenTagUnique | src/extension.ts:155 | a name the text opens with, unextendable, is the one the capture returns |
| Classifier.SelfClosingTagMeansRegex | src/extension.ts:145 | the index test of the self-closing pattern agrees with the regular expression read literally: `<`, a tag name, no `>`, then `/>` |
| Classifier.Parse | src/extension.ts:139-177 | no result exactly when the trimmed text is neither self-closing nor a container ending in its own closing tag; a result is a complete element; self-closing means no children |
| Classifier.ContainerInfo | src/extension.ts:160-176 | for a container, children are reported exactly when a non-whitespace character lies between the first `>` and the closing tag, with `substring`'s swap when the first `>` comes later |
| Classifier.ChildrenTest | src/extension.ts:170-174 | the trimmed substring is non-empty exactly when the range it covers holds a non-whitespace character |
| Classifier.ParseContainer | src/extension.ts:155-176 | text that opens with a name and ends with that name's closing tag is classified as that container, never as self-closing |
| Classifier.ContainerChildren | src/extension.ts:167-174 | when the first `>` precedes the closing tag, children are reported exactly when the text between them is not all whitespace |
| Classifier.IsCompleteShape | src/extension.ts:396-414 | `isCompleteJSXElement` holds exactly when the trimmed text is a loose self-closing tag (`<`, no `>`, then `/>` at the end) or opens with a name and ends with that name's closing tag |
| Classifier.CompleteButNotParsed | src/extension.ts:396-402 | the completeness test is looser than the classifier: `< a/>` counts as complete, yet the classifier rejects it |
| Classifier.BracedHasChildren | src/extension.ts:167-175 | the children test with the opening tag's end taken at its first `>` outside braces: children exactly when something other than whitespace lies between that end and the closing tag |
| Locator.BackToLt | src/extension.ts:312-319 | the backward loop stops on a `<` with no `<` between it and the cursor, or at offset 0 |
| Locator.NearestUnique | src/extension.ts:312-319 | the nearest `<` at or before the cursor is unique |
| Locator.SelfClosingEndsAtFirstGt | src/extension.ts:338 | a match of `^<[^>]+\/>` ends at the first `>` after the `<`, preceded by `/` |
| Locator.SelfClosingEnd | src/extension.ts:338-345 | returns the end of the self-closing match at the `<`, or reports that no such match exists |
| Locator.SkipPastGt | src/extension.ts:352-356 | the forward start lies one past the first `>` after the tag name, or past the end when there is none |
| Locator.ScanRound | src/extension.ts:358-391 | one round either stops within the text or continues strictly further on with depth at least 1 |
| Locator.Scan | src/extension.ts:358-393 | a found end lies within the text, past the search start |
| Locator.ScanMeetsOutcome | src/extension.ts:347-393 | the depth scan returns the closing tag at which the count of genuine openings minus closings first brings depth to zero, and nothing exactly when no closing tag does |
| Locator.ContainerSpan | src/extension.ts:347-393 | a container's span starts at its `<` and ends where the declarative depth account says |
| Locator.Located | src/extension.ts:337-393 | a self-closing tag at the `<` is returned whole; otherwise the container the depth account describes |
| Locator.FindElementRange | src/extension.ts:304-394 | a result starts at the nearest `<` before the cursor whose name starts before the cursor; no `<` or no name start means no result; otherwise the self-closing or depth outcome holds |
| Reindent.GetIndentation | src/extension.ts:569-572 | the longest all-whitespace prefix of the line |
| Reindent.IndentUnit | src/extension.ts:574-582 | `tabSize` spaces when spaces are inserted, one tab otherwise |
| Reindent.ReindentLines | src/extension.ts:550-557 | both branches of the line callback agree: an empty line stays empty, any other loses its leading whitespace and gains the child indent |
| Reindent.Attrs | src/extension.ts:560 | a leading space and the attributes when present and non-empty; the empty text when absent or empty |
| Reindent.WrapContent | src/extension.ts:542-567 | the wrapped text starts with the indent, the opening tag and a line feed, ends with a line feed, the indent and the closing tag, and is as long as those parts plus the re-indented selection |
| Reindent.WrapMiddle | src/extension.ts:550-566 | between the opening-tag line and the closing-tag line the wrapped text holds exactly the re-indented selection |
| Reindent.ReindentContentLines | src/extension.ts:550-558 | the re-indented content has one line per selection line, each re-indented |
| Reindent.WrapLines | src/extension.ts:542-567 | the wrapped text's lines are the opening tag line, the selection's lines re-indented, and the closing tag line; `selfClosing` changes nothing |
| Reindent.ReindentContentBlank | src/extension.ts:550-558 | the re-indented content is blank exactly when the selection is |
| Reindent.WrapTrim | src/extension.ts:563-566 | trimming the wrapped text removes exactly the leading indentation |
| Reindent.WrapThenParse | src/extension.ts:542-567 | the classifier reads a wrapped selection back as a container named after the wrapper |
| Reindent.WrapChildren | src/extension.ts:542-567 | the classifier reports children for a wrapped selection exactly when the selection is not blank, if the attributes hold no `>` |
| Reindent.BracedEndOfElement | src/extension.ts:168 | with the first `>` outside braces as the end of the opening tag, that end falls right after the opening tag the wrapper wrote, whatever `>` its braced attributes hold |
| Reindent.BracedChildrenOfElement | src/extension.ts:167-169 | with that end, the text the children test reads is exactly a line feed, the re-indented selection, a line feed and the indent |
| Reindent.BracedWrapChildren | src/extension.ts:542-567 | with that end, children are reported for a wrapped selection exactly when the selection is not blank, for any attributes that keep their `>` inside braces |
| Reindent.ArrowAttributesShielded | src/extension.ts:446-475 | the arrow-function defaults `onPress={() => {}}` and `onClick={() => {}}` keep their `>` inside balanced braces |
| Reindent.QuotedAttributesShielded | src/extension.ts:461-474 | the quoted defaults `className=""` and `onclick=""` hold no brace and no `>` |
| Unwrap.StripLeadingBlankLines | src/extension.ts:212 | `^\s*\n` removes the longest all-whitespace prefix ending in a line feed, and changes nothing when there is none |
| Unwrap.StripTrailingBlankLines | src/extension.ts:212 | `\n\s*$` removes from the leftmost line feed whose remainder is all whitespace, and changes nothing when there is none |
| Unwrap.LeadingRunNoNewline | src/extension.ts:212 | after the leading strip, the leading whitespace run holds no line feed |
| Unwrap.TrailingRunNoNewline | src/extension.ts:212 | after the trailing strip, the trailing whitespace run holds no line feed |
| Unwrap.LeadingStripKeepsBlankness | src/extension.ts:212 | the leading strip keeps a text blank exactly when it was blank |
| Unwrap.TrailingStripKeepsBlankness | src/extension.ts:212 | the trailing strip keeps a text blank exactly when it was blank |
| Unwrap.StripEdges | src/extension.ts:209-212 | after both strips neither edge's whitespace run holds a line feed, and blankness is unchanged |
| Unwrap.BlankIsTrimEmpty | src/extension.ts:224 | a line is skipped by the minimum search exactly when `trim` leaves nothing of it |
| Unwrap.MinIndent | src/extension.ts:221-228 | the minimum leading whitespace over non-blank lines, attained by one of them; none exactly when every line is blank |
| Unwrap.MinStepKeeps | src/extension.ts:223-227 | one loop step keeps the minimum invariant over the lines seen so far |
| Unwrap.Dedent | src/extension.ts:231-238 | blank lines become empty; a non-blank line loses exactly the minimum indentation, which is whitespace and not all of it, and gains the base indent |
| Unwrap.DedentKeepsOneEdge | src/extension.ts:231-238 | when some line is non-blank, some output line has a non-whitespace character right after the base indent |
| Unwrap.DedentLinesRoundTrip | src/extension.ts:231-239 | splitting the joined dedented lines gives back those lines |
| Unwrap.UnwrapChildren | src/extension.ts:219-239 | the replacement has one line per child line, each dedented, when the base indent is a single line |
| Unwrap.UnwrapEdit | src/extension.ts:194-241 | no edit exactly when the selection does not classify; a delete exactly when children are removed or the element is self-closing; otherwise the dedented children |
| Unwrap.RawChildrenBlank | src/extension.ts:206-209 | the raw children are blank exactly when the classifier reports no children |
| Unwrap.BlankLines | src/extension.ts:219-228 | a text is blank exactly when every line of it is |
| Unwrap.DedentBlankIff | src/extension.ts:231-239 | the dedented lines hold a non-empty line exactly when the text is not blank |
| Unwrap.UnwrapKeepsChildren | src/extension.ts:206-239 | "keep children" writes a non-empty line exactly when the classifier reports children |
| Unwrap.EarlyGtMisread | src/extension.ts:168-175 | when the wrapper's opening tag holds a `>` before its end, the read-back stops there: a non-blank character after it makes the classifier report children, and the children substring taken at line 209 starts with the rest of the opening tag |
| Unwrap.ArrowAttributeMisread | src/extension.ts:206-209 | wrapping any selection, even a blank one, with the `Pressable` default reads back as having children, and the children substring taken at line 209 starts with ` {}}>` |
| Unwrap.EarlyGtKeepText | src/extension.ts:206-238 | for a blank selection wrapped by a tag whose only line holds an early `>`, "keep children" replaces the element with the start line's indentation followed by the rest of the opening tag after that `>`, leading blanks dropped |
| Unwrap.ArrowKeepChildrenText | src/extension.ts:206-238 | for a blank selection wrapped with the `Pressable` default, "keep children" replaces the element with exactly the start line's indentation followed by `{}}>` |
| Actions.FrameworkDefaults | src/extension.ts:430-478 | every framework, including an unknown one, yields a non-empty table |
| Actions.DefaultsWellFormed | src/extension.ts:430-478 | each default table has valid, distinct tag names, no `selfClosing`, and only React Native's `Text` has its own removal behaviour (remove with children) |
| Actions.ReactNativeWellFormed | src/extension.ts:432-457 | the React Native table is well formed and `Text` is its second entry |
| Actions.HtmlWellFormed | src/extension.ts:459-468 | the HTML table is well formed with no removal behaviour |
| Actions.ReactWellFormed | src/extension.ts:470-476 | the React table is well formed with no removal behaviour |
| Actions.DefaultsShielded | src/extension.ts:430-478 | every built-in wrapper's attributes keep their `>` inside balanced braces |
| Actions.DefaultWrapChildren | src/extension.ts:430-478 | with the opening tag's end found outside braces, wrapping with any built-in wrapper reads back as having children exactly when the selection is not blank |
| Actions.WrappersFromConfig | src/extension.ts:416-428 | custom wrappers, when any, replace the defaults entirely; otherwise the framework table; never empty |
| Actions.FindWrapper | src/extension.ts:130 | the first wrapper with the name, or none exactly when no wrapper has it |
| Actions.ElementRemovalBehavior | src/extension.ts:124-137 | the first wrapper with the tag name decides when it sets a behaviour; otherwise the default |
| Actions.FirstMatchUnique | src/extension.ts:130 | the first wrapper with a given name is unique |
| Actions.DefaultRemoval | src/extension.ts:124-137 | with the default tables, only `Text` under React Native is removed with its children; every other tag gets the configured default |
| Actions.OfferedUnwraps | src/extension.ts:110-118 | keep-children is offered unless the behaviour is remove-with-children, remove-with-children unless it is remove-without-children, keep-children first |
| Actions.ChooseTarget | src/extension.ts:53-74 | an empty selection yields exactly the element the locator finds at the cursor under smart detection, and nothing otherwise; a non-empty selection is kept when detection is off or it is complete, and otherwise is replaced by the located element at its start when there is one |
| Actions.UnwrapActions | src/extension.ts:101-119 | the tail of the menu holds only unwrap entries, at most one of each kind, with "keep children" before "remove with children" |
| Actions.UnwrapOffered | src/extension.ts:101-119 | an unwrap entry is present exactly when the target classifies and its removal behaviour offers that entry |
| Actions.Menu | src/extension.ts:86-119 | the menu lists every wrapper in order, then the custom entry, then the unwrap entries; with only unwrap entries at the end, each position's kind is fixed by its index |
| Actions.ParsedNameNonEmpty | src/extension.ts:103 | a classified element always has a non-empty tag name, so the `tagName` guard never fails |
| Actions.ProvideActions | src/extension.ts:41-122 | a menu exists exactly when there is a target and the language or the JSX heuristic accepts its text; it lists every wrapper in order, the custom entry, then exactly the unwrap entries offered for the target's text |
| Actions.WrapText | src/extension.ts:504-521 | the wrap action writes the start line's indentation, the opening tag and a line feed first, and a line feed, that indentation and the closing tag last; what it writes classifies as the wrapper's element, not self-closing |
| Actions.WrapTextMiddle | src/extension.ts:505-521 | between the two tag lines the wrap action writes the selection re-indented to the start line's indentation plus one indentation unit |
| Actions.WrapTextLines | src/extension.ts:505-521 | split into lines, the wrap action's text is the opening-tag line, every selection line re-indented one indentation unit deeper than the start line (empty lines stay empty), and the closing-tag line |
| Actions.WrapThenUnwrapOffered | src/extension.ts:504-521 | what a wrap action writes classifies as the wrapper's element, so at least one unwrap entry is offered on it |
| Actions.WrapperImportEdit | src/extension.ts:584-599 | with `named` set, exactly the named-import edit for the wrapper; with only `default` set, exactly the default-import edit; nothing without an import setting; inserts go after the last import line |
| Actions.ReactNativeImportsNamed | src/extension.ts:432-457 | every React Native default is a named import from `react-native`, so wrapping inserts one when no import from that module exists |
| Actions.CustomSnippet | src/extension.ts:267-284 | the custom-element snippet is the wrap text with the placeholder `${1:element}` as the name and no attributes |
| Imports.EscapeRegex | src/extension.ts:609 | the escape keeps every ordinary character of the module name and never shortens it |
| Imports.EscapeRoundTrip | src/extension.ts:609 | the escaped name is a pattern of literal characters only, and unescaping it gives back the module name |
| Imports.ImportNames | src/extension.ts:629-632 | the listed names are trimmed, non-empty and comma-free |
| Imports.CleanNames | src/extension.ts:631-632 | trimming and dropping empty pieces yields valid names, never more than the pieces |
| Imports.ImportNamesMember | src/extension.ts:630-632 | a name is listed exactly when it is non-empty and is the trim of some comma-separated piece |
| Imports.CleanNamesMember | src/extension.ts:631-632 | of comma-free pieces, a name is kept exactly when it is non-empty and is the trim of some piece |
| Imports.ImportListRoundTrip | src/extension.ts:629-639 | reading back a written import list gives the same names |
| Imports.LexLeTotal | src/extension.ts:636 | the sort order is total |
| Imports.LexLeTrans | src/extension.ts:636 | the sort order is transitive |
| Imports.LexLeAntisym | src/extension.ts:636 | the sort order is antisymmetric |
| Imports.Insert | src/extension.ts:636 | inserting into a sorted list keeps it sorted and adds exactly the name |
| Imports.Sort | src/extension.ts:636 | the result is sorted and a permutation of the input |
| Imports.MergeNamedImport | src/extension.ts:629-639 | no merge exactly when the name is already listed; otherwise the old names plus the new one, sorted |
| Imports.MergedNamesValid | src/extension.ts:629-639 | every merged name is a valid import name |
| Imports.NamedImportEdit | src/extension.ts:601-664 | nothing when already imported; a rewrite exactly when an import from the module exists without the name; an insert after the last import line exactly when none exists, and it writes the one-name import statement and a line feed |
| Imports.InsertedImportReadsBack | src/extension.ts:651-662 | the inserted statement's list reads back as exactly the one imported name |
| Imports.NamedImportReadsBack | src/extension.ts:634-639 | the rewritten statement's list reads back as the old names plus the new one, sorted |
| Imports.DefaultImportEdit | src/extension.ts:666-692 | nothing exactly when already imported; otherwise an insert after the last import line |
| Imports.DefaultImportRecognised | src/extension.ts:676-691 | the statement a default import inserts is matched by the "already imported" pattern `import\s+NAME\s+from\s+['"]MODULE['"]` wherever it lands in the text, so a second wrap adds no second import |
| Imports.LastImportBefore | src/extension.ts:700-707 | the last import line before an index, or -1 when there is none |
| Imports.ImportInsertLine | src/extension.ts:694-716 | the line after the last line whose trimmed text starts with `import `, or line 0 exactly when there is none |

## Findings

| source | as written | input that shows it | evidently intended | confidence | as-written member | corrected member |
|---|---|---|---|---|---|---|
| src/extension.ts:168 | the opening tag ends one past the first `>` of the trimmed text, `indexOf(">") + 1`; the unwrap edit repeats this at line 207 | the text the `Pressable` default writes around a blank selection: its opening tag is `<Pressable onPress={() => {}}>`, and the first `>` is the one in `=>`. The classifier then reports children, and "keep children" replaces the element with the start line's indentation followed by `{}}>` | the opening tag ends one past its first `>` outside attribute braces, so the shipped defaults read back as they were written | high; not executed | Unwrap.EarlyGtMisread, Unwrap.ArrowAttributeMisread, Unwrap.EarlyGtKeepText, Unwrap.ArrowKeepChildrenText | Classifier.BracedHasChildren, Reindent.BracedWrapChildren, Actions.DefaultWrapChildren |

The same `>` is hit by the `TouchableOpacity` default and by React's
`button` default (`onClick={() => {}}`). `Classifier.Parse` and
`Unwrap.UnwrapEdit` keep modelling the code as written. The corrected end
of the opening tag is `Classifier.BracedOpenTagEnd`: one past the first
`>` at brace depth zero. With it, `Actions.DefaultWrapChildren` proves that
every built-in wrapper reads back with children exactly when the
selection is not blank. The corrected half covers the children test of
line 168 only: the model has no corrected version of the text that
"keep children" writes (lines 206-238), whose misreading is stated by
`Unwrap.EarlyGtKeepText` and `Unwrap.ArrowKeepChildrenText`.

## Left out

- VS Code plumbing is left out: the `CodeAction` objects, their titles and kinds, `WorkspaceEdit`, commands, snippet insertion and the "Format Document" command. The model returns the text and edits those objects would carry.
- Configuration reads are left out. `smartDetection`, `defaultRemovalBehavior`, `wrappers`, `framework`, `insertSpaces` and `tabSize` are parameters.
- `offsetAt`, `positionAt` and `lineAt` are left out. Positions are offsets into the text, and the start line's text is a parameter.
- The language-id check and `looksLikeJSX` are left out. Both are parameters of `Actions.ProvideActions` (`isJsxFile`, `looksLikeJsx`), because the heuristic's regular expression is not modelled.
- The "already imported" and "existing import" regular expressions in `addNamedImport` and `addDefaultImport` are not run by the edits. Their outcomes are parameters: a flag, and the list text inside the braces. The default import's pattern is stated as `Imports.DefaultImportAt`, with the name and the module read literally. The source puts the component name into the pattern unescaped, so for a name made of word characters and dots only one direction holds: a statement matching `Imports.DefaultImportAt` is matched by the regular expression, and that is the direction `Imports.DefaultImportRecognised` needs. The converse fails, because a `.` in the name matches any character there. Names holding other special characters, such as `$` (an anchor), are not modelled. The model also omits the rewrite's start and end positions, which come from `indexOf` of the full match.
- `isPreferred` on the wrap actions is left out, because it does not change any text.
- `activate`/`deactivate` and command registration are left out.
- The sort order is left out as JavaScript defines it. `Array.prototype.sort` compares UTF-16 code units, and the model compares characters (`LexLe`). The two differ only for characters outside the Basic Multilingual Plane.
- Whitespace is left out as full Unicode: `\s` and `trim` use the fixed ECMAScript whitespace and line-terminator set (`Text.IsWs`).
- Imports.EscapeRegex: the contract does not say the escape is faithful as a regular expression. It states the inverse instead, in `Imports.EscapeRoundTrip`.
- Reindent.IndentUnit: `tabSize` is taken as a non-negative integer; negative and fractional values (a `RangeError` or a truncated count in `" ".repeat`) are not modelled.
- Reindent.WrapChildren: stated only for attributes without `>`. For attributes with a `>` the code as written misreads the wrap (see "## Findings"), and `Reindent.BracedWrapChildren` states the corrected reading.

=== FILE: actions.dfy ===
/** What the code-action provider offers for a selection: the range it
    works on, the wrapper list the configuration yields, each wrapper's
    removal behaviour, and the resulting list of actions in menu order. */
module Actions {
  import opened Optional
  import opened Text
  import opened Tags
  import opened Classifier
  import opened Locator
  import opened Reindent
  import opened Imports

  // ---------------------------------------------------------------------
  // Configuration values
  // ---------------------------------------------------------------------

  /** The `removalBehavior` setting. */
  datatype RemovalBehavior = RemoveWithChildren | RemoveWithoutChildren | Both

  /** A wrapper's `import` entry. */
  datatype ImportSpec = ImportSpec(moduleName: string, named: Option<bool>, isDefault: Option<bool>)

  /** `WrapperConfig`, with each optional field an `Option`. */
  datatype WrapperConfig = WrapperConfig(
    name: string,
    importSpec: Option<ImportSpec>,
    attributes: Option<string>,
    selfClosing: Option<bool>,
    removalBehavior: Option<RemovalBehavior>)

  /** A wrapper with only a name and, possibly, attributes. */
  function Plain(name: string, attributes: Option<string>): WrapperConfig {
    WrapperConfig(name, None, attributes, None, None)
  }

  /** A React Native component imported by name from `react-native`. */
  function Native(name: string, attributes: Option<string>, removal: Option<RemovalBehavior>): WrapperConfig {
    WrapperConfig(name, Some(ImportSpec("react-native", Some(true), None)), attributes, None, removal)
  }

  /** The React Native table. */
  function ReactNativeDefaults(): seq<WrapperConfig> {
    [ Native("View", None, None),
      Native("Text", None, Some(RemoveWithChildren)),
      Native("Pressable", Some("onPress={() => {}}"), None),
      Native("TouchableOpacity", Some("onPress={() => {}}"), None),
      Native("ScrollView", None, None) ]
  }

  /** The plain HTML table. */
  function HtmlDefaults(): seq<WrapperConfig> {
    [ Plain("div", Some("className=\"\"")),
      Plain("span", Some("className=\"\"")),
      Plain("button", Some("onclick=\"\"")),
      Plain("center", None),
      Plain("b", None),
      Plain("hr", None),
      Plain("br", None) ]
  }

  /** The React table. */
  function ReactDefaults(): seq<WrapperConfig> {
    [ Plain("div", Some("className=\"\"")),
      Plain("span", Some("className=\"\"")),
      Plain("button", Some("onClick={() => {}}")) ]
  }

  /** `getFrameworkDefaults`: any framework other than `react-native` and
      `html` gets the React table. */
  function FrameworkDefaults(framework: string): (r: seq<WrapperConfig>)
    ensures |r| > 0
  {
    if framework == "react-native" then ReactNativeDefaults()
    else if framework == "html" then HtmlDefaults()
    else ReactDefaults()
  }

  /** Every wrapper has a valid tag name and is not self-closing, no two
      share a name, and only the one at `special` (if any) carries its own
      removal behaviour, which drops the children. */
  predicate WellFormedTable(r: seq<WrapperConfig>, special: int) {
    && (forall i :: 0 <= i < |r| ==> IsTagName(r[i].name) && r[i].selfClosing.None?)
    && (forall i, j :: 0 <= i < j < |r| ==> r[i].name != r[j].name)
    && (forall i :: 0 <= i < |r| && r[i].removalBehavior.Some? ==>
          i == special && r[i].removalBehavior == Some(RemoveWithChildren))
  }

  /** The built-in tables are well formed; React Native's `Text`, second in
      its table, is the only wrapper with its own removal behaviour. */
  lemma DefaultsWellFormed(framework: string)
    ensures WellFormedTable(FrameworkDefaults(framework), if framework == "react-native" then 1 else -1)
  {
    if framework == "react-native" {
      ReactNativeWellFormed();
    } else if framework == "html" {
      HtmlWellFormed();
    } else {
      ReactWellFormed();
    }
  }

  lemma ReactNativeWellFormed()
    ensures WellFormedTable(ReactNativeDefaults(), 1) && ReactNativeDefaults()[1].name == "Text"
  {
    TableWellFormed(ReactNativeDefaults(), ["View", "Text", "Pressable", "TouchableOpacity", "ScrollView"], 1);
  }

  lemma HtmlWellFormed()
    ensures WellFormedTable(HtmlDefaults(), -1)
  {
    TableWellFormed(HtmlDefaults(), ["div", "span", "button", "center", "b", "hr", "br"], -1);
  }

  lemma ReactWellFormed()
    ensures WellFormedTable(ReactDefaults(), -1)
  {
    TableWellFormed(ReactDefaults(), ["div", "span", "button"], -1);
  }

  /** A table is well formed once its names, listed separately, are valid
      and distinct and its removal settings are as stated. */
  lemma TableWellFormed(r: seq<WrapperConfig>, names: seq<string>, special: int)
    requires |names| == |r| && forall i :: 0 <= i < |r| ==> r[i].name == names[i]
    requires forall i :: 0 <= i < |names| ==> IsTagName(names[i])
    requires forall i, j :: 0 <= i < j < |names| ==> names[i] != names[j]
    requires forall i :: 0 <= i < |r| ==> r[i].selfClosing.None?
    requires forall i :: 0 <= i < |r| && r[i].removalBehavior.Some? ==>
               i == special && r[i].removalBehavior == Some(RemoveWithChildren)
    ensures WellFormedTable(r, special)
  {
  }

  /** The wrapper's attributes, when present, keep every `>` inside
      balanced braces. */
  predicate ShieldedAttributes(w: WrapperConfig) {
    w.attributes.Some? && w.attributes.value != "" ==> Shielded(w.attributes.value)
  }

  /** Every built-in wrapper's attributes keep their `>` inside braces:
      `onPress={() => {}}` and `onClick={() => {}}` hold one there, the
      quoted defaults hold none. */
  lemma DefaultsShielded(framework: string)
    ensures forall i :: 0 <= i < |FrameworkDefaults(framework)| ==>
              ShieldedAttributes(FrameworkDefaults(framework)[i])
  {
    if framework == "react-native" {
      ReactNativeShielded();
    } else if framework == "html" {
      HtmlShielded();
    } else {
      ReactShielded();
    }
  }

  lemma ReactNativeShielded()
    ensures forall i :: 0 <= i < |ReactNativeDefaults()| ==> ShieldedAttributes(ReactNativeDefaults()[i])
  {
    var r := ReactNativeDefaults();
    forall i | 0 <= i < |r| ensures ShieldedAttributes(r[i]) {
      if i == 2 || i == 3 {
        assert r[i].attributes == Some("onPress={() => {}}");
        ArrowAttributesShielded();
      } else {
        assert r[i].attributes.None?;
      }
    }
  }

  lemma HtmlShielded()
    ensures forall i :: 0 <= i < |HtmlDefaults()| ==> ShieldedAttributes(HtmlDefaults()[i])
  {
    var r := HtmlDefaults();
    forall i | 0 <= i < |r| ensures ShieldedAttributes(r[i]) {
      if i == 0 || i == 1 {
        assert r[i].attributes == Some("className=\"\"");
        QuotedAttributesShielded();
      } else if i == 2 {
        assert r[i].attributes == Some("onclick=\"\"");
        QuotedAttributesShielded();
      } else {
        assert r[i].attributes.None?;
      }
    }
  }

  lemma ReactShielded()
    ensures forall i :: 0 <= i < |ReactDefaults()| ==> ShieldedAttributes(ReactDefaults()[i])
  {
    var r := ReactDefaults();
    forall i | 0 <= i < |r| ensures ShieldedAttributes(r[i]) {
      if i == 2 {
        assert r[i].attributes == Some("onClick={() => {}}");
        ArrowAttributesShielded();
      } else {
        assert r[i].attributes == Some("className=\"\"");
        QuotedAttributesShielded();
      }
    }
  }

  /** With the end of the opening tag found outside attribute braces, the
      classifier reports children for the wrap of any built-in wrapper
      exactly when the selection is not blank. */
  lemma DefaultWrapChildren(framework: string, i: nat, content: string, indent: string,
                            childIndent: string)
    requires i < |FrameworkDefaults(framework)|
    requires AllWs(indent) && AllWs(childIndent)
    ensures var w := FrameworkDefaults(framework)[i];
            var t := Trim(WrapContent(content, w.name, indent, childIndent, w.attributes, w.selfClosing));
            EndsWith(t, CloseTag(w.name)) && (BracedHasChildren(t, w.name) <==> !AllWs(content))
  {
    var w := FrameworkDefaults(framework)[i];
    DefaultsShielded(framework);
    DefaultsWellFormed(framework);
    BracedWrapChildren(content, w.name, indent, childIndent, w.attributes, w.selfClosing);
  }

  /** `getWrappersFromConfig`: a non-empty custom list is used as it is,
      otherwise the framework's table; either way the list is not empty. */
  function WrappersFromConfig(custom: seq<WrapperConfig>, framework: string): (r: seq<WrapperConfig>)
    ensures |r| > 0
    ensures |custom| > 0 ==> r == custom
    ensures |custom| == 0 ==> r == FrameworkDefaults(framework)
  {
    if |custom| > 0 then custom else FrameworkDefaults(framework)
  }

  // ---------------------------------------------------------------------
  // Removal behaviour
  // ---------------------------------------------------------------------

  /** `wrappers.find(w => w.name === tagName)`, as the index of the first
      wrapper with that name. */
  function FindWrapper(wrappers: seq<WrapperConfig>, tagName: string): (r: Option<nat>)
    ensures r.None? <==> forall i :: 0 <= i < |wrappers| ==> wrappers[i].name != tagName
    ensures r.Some? ==> r.value < |wrappers| && wrappers[r.value].name == tagName
    ensures r.Some? ==> forall j :: 0 <= j < r.value ==> wrappers[j].name != tagName
    decreases |wrappers|
  {
    if |wrappers| == 0 then None
    else if wrappers[0].name == tagName then Some(0)
    else
      var rest := FindWrapper(wrappers[1..], tagName);
      assert forall i :: 1 <= i < |wrappers| ==> wrappers[i] == wrappers[1..][i - 1];
      match rest
      case None => None
      case Some(i) => Some(i + 1)
  }

  /** `elementRemovalBehavior`: only the first wrapper named `tagName`
      decides, with its own setting when it has one; without such a wrapper,
      or when it leaves the setting out, the default applies. */
  function ElementRemovalBehavior(tagName: string, wrappers: seq<WrapperConfig>,
                                  defaultBehavior: RemovalBehavior): (r: RemovalBehavior)
    ensures (forall i :: 0 <= i < |wrappers| ==> wrappers[i].name != tagName) ==> r == defaultBehavior
    ensures forall i :: 0 <= i < |wrappers| && wrappers[i].name == tagName
                        && (forall j :: 0 <= j < i ==> wrappers[j].name != tagName)
                        ==> r == wrappers[i].removalBehavior.GetOr(defaultBehavior)
  {
    var found := FindWrapper(wrappers, tagName);
    forall i | 0 <= i < |wrappers| && wrappers[i].name == tagName
               && (forall j :: 0 <= j < i ==> wrappers[j].name != tagName)
      ensures found == Some(i)
    {
      FirstMatchUnique(wrappers, tagName, found.value, i);
    }
    match found
    case Some(i) => wrappers[i].removalBehavior.GetOr(defaultBehavior)
    case None => defaultBehavior
  }

  /** Two indices that are each the first with a name are the same. */
  lemma FirstMatchUnique(wrappers: seq<WrapperConfig>, tagName: string, a: nat, b: nat)
    requires a < |wrappers| && wrappers[a].name == tagName
    requires forall j :: 0 <= j < a ==> wrappers[j].name != tagName
    requires b < |wrappers| && wrappers[b].name == tagName
    requires forall j :: 0 <= j < b ==> wrappers[j].name != tagName
    ensures a == b
  {
  }

  /** With the built-in tables, React Native's `Text` is the only wrapper
      whose unwrap drops its children; every other name gets the default. */
  lemma DefaultRemoval(framework: string, tagName: string, defaultBehavior: RemovalBehavior)
    ensures ElementRemovalBehavior(tagName, FrameworkDefaults(framework), defaultBehavior)
            == if framework == "react-native" && tagName == "Text" then RemoveWithChildren
               else defaultBehavior
  {
    var ws := FrameworkDefaults(framework);
    DefaultsWellFormed(framework);
    var found := FindWrapper(ws, tagName);
    if framework == "react-native" && tagName == "Text" {
      ReactNativeWellFormed();
      assert ws[0].name != tagName && ws[1].name == tagName;
      assert found == Some(1);
    }
  }

  /** The unwrap variants offered for a behaviour, as `removeChildren`
      flags in menu order: keeping the children comes first. */
  function OfferedUnwraps(b: RemovalBehavior): (r: seq<bool>)
    ensures true in r <==> b != RemoveWithoutChildren
    ensures false in r <==> b != RemoveWithChildren
    ensures forall i, j :: 0 <= i < j < |r| ==> !r[i] && r[j]
  {
    match b
    case RemoveWithChildren => [true]
    case RemoveWithoutChildren => [false]
    case Both => [false, true]
  }

  // ---------------------------------------------------------------------
  // The target range and the action list
  // ---------------------------------------------------------------------

  /** The range the actions work on. With smart detection an empty
      selection becomes the element around the cursor (or nothing), and a
      selection that is not a complete element is widened to one when the
      locator finds it. Without smart detection an empty selection gets no
      actions. */
  function ChooseTarget(text: string, selection: Span, smartDetection: bool): (r: Option<Span>)
    requires selection.start <= selection.end <= |text|
    ensures r.Some? ==> r.value.start < r.value.end <= |text|
    ensures r.Some? && r != Some(selection) ==> NearestLt(text, selection.start, r.value.start)
    ensures selection.start == selection.end ==>
              (r.Some? <==> smartDetection && FindElementRange(text, selection.start).Some?)
    ensures selection.start < selection.end ==> r.Some?
    ensures !smartDetection && selection.start < selection.end ==> r == Some(selection)
    ensures selection.start < selection.end && IsComplete(text[selection.start..selection.end]) ==>
              r == Some(selection)
    ensures selection.start == selection.end ==>
              r == (if smartDetection then FindElementRange(text, selection.start) else None)
    ensures smartDetection && selection.start < selection.end
            && !IsComplete(text[selection.start..selection.end]) ==>
              r == (if FindElementRange(text, selection.start).Some? then FindElementRange(text, selection.start)
                    else Some(selection))
  {
    var empty := selection.start == selection.end;
    if smartDetection && empty then
      FindElementRange(text, selection.start)
    else if smartDetection && !empty then
      if !IsComplete(text[selection.start..selection.end]) then
        match FindElementRange(text, selection.start)
        case Some(expanded) => Some(expanded)
        case None => Some(selection)
      else Some(selection)
    else if empty then None
    else Some(selection)
  }

  /** One entry of the light-bulb menu. */
  datatype Action = WrapWith(wrapper: WrapperConfig) | WrapWithCustom | Unwrap(removeChildren: bool)

  /** The unwrap entries for a selection's text: none unless it classifies
      as an element with a tag name, otherwise one per offered variant. */
  function UnwrapActions(selectedText: string, wrappers: seq<WrapperConfig>,
                         defaultBehavior: RemovalBehavior): (r: seq<Action>)
    ensures forall i :: 0 <= i < |r| ==> r[i].Unwrap?
    ensures forall i, j :: 0 <= i < j < |r| ==> r[i] == Unwrap(false) && r[j] == Unwrap(true)
  {
    match Parse(selectedText)
    case None => []
    case Some(info) =>
      if info.tagName == "" then []
      else
        var offered := OfferedUnwraps(ElementRemovalBehavior(info.tagName, wrappers, defaultBehavior));
        var r := seq(|offered|, i requires 0 <= i < |offered| => Unwrap(offered[i]));
        assert forall i :: 0 <= i < |r| ==> r[i] == Unwrap(offered[i]);
        r
  }

  /** The menu: one entry per wrapper in order, the custom-element entry,
      then the unwrap entries. */
  function Menu(wrappers: seq<WrapperConfig>, unwraps: seq<Action>): (r: seq<Action>)
    ensures |r| == |wrappers| + 1 + |unwraps|
    ensures forall i :: 0 <= i < |wrappers| ==> r[i] == WrapWith(wrappers[i])
    ensures r[|wrappers|] == WrapWithCustom
    ensures r[|wrappers| + 1..] == unwraps
    ensures (forall i :: 0 <= i < |unwraps| ==> unwraps[i].Unwrap?) ==>
              forall i :: 0 <= i < |r| ==>
                && (r[i].WrapWith? <==> i < |wrappers|)
                && (r[i] == WrapWithCustom <==> i == |wrappers|)
                && (r[i].Unwrap? <==> i > |wrappers|)
  {
    seq(|wrappers|, i requires 0 <= i < |wrappers| => WrapWith(wrappers[i])) + [WrapWithCustom] + unwraps
  }

  /** `provideCodeActions`. `isJsxFile` says whether the document's language
      is JavaScript or TypeScript React; `looksLikeJsx` stands for the
      source's text heuristic, applied to the target's text. There is a
      menu exactly when there is a target and the language or the
      heuristic accepts its text; it lists every wrapper, the
      custom-element entry, and only unwrap entries after those. */
  function ProvideActions(text: string, selection: Span, smartDetection: bool,
                          defaultBehavior: RemovalBehavior, wrappers: seq<WrapperConfig>,
                          isJsxFile: bool, looksLikeJsx: string -> bool): (r: Option<seq<Action>>)
    requires selection.start <= selection.end <= |text|
    ensures var t := ChooseTarget(text, selection, smartDetection);
            r.Some? <==> t.Some? && (isJsxFile || looksLikeJsx(text[t.value.start..t.value.end]))
    ensures r.Some? ==>
              && |r.value| > |wrappers|
              && (forall i :: 0 <= i < |wrappers| ==> r.value[i] == WrapWith(wrappers[i]))
              && r.value[|wrappers|] == WrapWithCustom
              && (forall i :: |wrappers| < i < |r.value| ==> r.value[i].Unwrap?)
    ensures r.Some? ==>
              var t := ChooseTarget(text, selection, smartDetection).value;
              r.value[|wrappers| + 1..] == UnwrapActions(text[t.start..t.end], wrappers, defaultBehavior)
  {
    match ChooseTarget(text, selection, smartDetection)
    case None => None
    case Some(target) =>
      var selectedText := text[target.start..target.end];
      if !isJsxFile && !looksLikeJsx(selectedText) then None
      else
        var unwraps := UnwrapActions(selectedText, wrappers, defaultBehavior);
        var menu := Menu(wrappers, unwraps);
        assert forall i :: |wrappers| < i < |menu| ==> menu[i] == unwraps[i - |wrappers| - 1];
        Some(menu)
  }

  /** A classified element always has a tag name, so the `tagName` test
      never hides the unwrap entries. */
  lemma ParsedNameNonEmpty(s: string)
    requires Parse(s).Some?
    ensures Parse(s).value.tagName != ""
  {
  }

  /** The unwrap entries are offered exactly for selections that classify
      as an element, one per variant its removal behaviour allows. */
  lemma UnwrapOffered(selectedText: string, wrappers: seq<WrapperConfig>,
                      defaultBehavior: RemovalBehavior, removeChildren: bool)
    ensures Unwrap(removeChildren) in UnwrapActions(selectedText, wrappers, defaultBehavior) <==>
              && Parse(selectedText).Some?
              && removeChildren in OfferedUnwraps(ElementRemovalBehavior(Parse(selectedText).value.tagName,
                                                                         wrappers, defaultBehavior))
  {
    var acts := UnwrapActions(selectedText, wrappers, defaultBehavior);
    if Parse(selectedText).Some? {
      var info := Parse(selectedText).value;
      var offered := OfferedUnwraps(ElementRemovalBehavior(info.tagName, wrappers, defaultBehavior));
      if removeChildren in offered {
        var i :| 0 <= i < |offered| && offered[i] == removeChildren;
        assert acts[i] == Unwrap(removeChildren);
      }
    }
  }

  // ---------------------------------------------------------------------
  // The wrap actions' text
  // ---------------------------------------------------------------------

  /** The replacement a "Wrap with" entry writes: the selection wrapped in
      the wrapper's element, indented like the line the selection starts
      on, children one indentation unit deeper. */
  function WrapText(wrapper: WrapperConfig, selectedText: string, startLine: string,
                    insertSpaces: bool, tabSize: nat): (r: string)
    ensures StartsWith(r, GetIndentation(startLine) + OpenTagText(wrapper.name, wrapper.attributes) + "\n")
    ensures EndsWith(r, "\n" + GetIndentation(startLine) + CloseTag(wrapper.name))
    ensures IsTagName(wrapper.name) ==>
              Parse(r).Some? && Parse(r).value.tagName == wrapper.name && !Parse(r).value.isSelfClosing
  {
    var indent := GetIndentation(startLine);
    var childIndent := indent + IndentUnit(insertSpaces, tabSize);
    var r := WrapContent(selectedText, wrapper.name, indent, childIndent, wrapper.attributes, wrapper.selfClosing);
    assert IsTagName(wrapper.name) ==>
             Parse(r).Some? && Parse(r).value.tagName == wrapper.name && !Parse(r).value.isSelfClosing by {
      if IsTagName(wrapper.name) {
        WrapThenParse(selectedText, wrapper.name, indent, childIndent, wrapper.attributes, wrapper.selfClosing);
      }
    }
    r
  }

  /** Between its two tag lines, a wrap action writes the selection
      re-indented one indentation unit deeper than the line it starts on. */
  lemma WrapTextMiddle(wrapper: WrapperConfig, selectedText: string, startLine: string,
                       insertSpaces: bool, tabSize: nat)
    ensures var r := WrapText(wrapper, selectedText, startLine, insertSpaces, tabSize);
            var a := |GetIndentation(startLine)| + |OpenTagText(wrapper.name, wrapper.attributes)| + 1;
            var e := |r| - |GetIndentation(startLine)| - |CloseTag(wrapper.name)| - 1;
            a <= e && r[a..e] == ReindentContent(selectedText, GetIndentation(startLine) + IndentUnit(insertSpaces, tabSize))
  {
    WrapMiddle(selectedText, wrapper.name, GetIndentation(startLine),
               GetIndentation(startLine) + IndentUnit(insertSpaces, tabSize), wrapper.attributes, wrapper.selfClosing);
  }

  /** Line by line, a wrap action writes the opening-tag line, each
      selection line re-indented one indentation unit deeper than the start
      line (empty lines stay empty), and the closing-tag line. */
  lemma WrapTextLines(wrapper: WrapperConfig, selectedText: string, startLine: string,
                      insertSpaces: bool, tabSize: nat)
    requires '\n' !in startLine && '\n' !in wrapper.name
    requires wrapper.attributes.Some? ==> '\n' !in wrapper.attributes.value
    ensures var indent := GetIndentation(startLine);
            Split(WrapText(wrapper, selectedText, startLine, insertSpaces, tabSize), '\n')
            == [indent + OpenTagText(wrapper.name, wrapper.attributes)]
               + ReindentLines(Split(selectedText, '\n'), indent + IndentUnit(insertSpaces, tabSize))
               + [indent + CloseTag(wrapper.name)]
  {
    IndentNoNewline(startLine, insertSpaces, tabSize);
    WrapLines(selectedText, wrapper.name, GetIndentation(startLine),
              GetIndentation(startLine) + IndentUnit(insertSpaces, tabSize), wrapper.attributes, wrapper.selfClosing);
  }

  /** Neither the indentation of a line without line feeds nor an
      indentation unit holds a line feed. */
  lemma IndentNoNewline(line: string, insertSpaces: bool, tabSize: nat)
    requires '\n' !in line
    ensures '\n' !in GetIndentation(line) && '\n' !in GetIndentation(line) + IndentUnit(insertSpaces, tabSize)
  {
  }

  /** `addImport` for a wrapper's import setting: a named import when
      `named` is set, a default import when only `default` is, and nothing
      when the wrapper has no import setting or neither flag. The outcomes
      of the "already imported" and "existing import" searches are inputs,
      as for `NamedImportEdit` and `DefaultImportEdit`. */
  function WrapperImportEdit(wrapper: WrapperConfig, text: string, namedImported: bool,
                             existingGroup: Option<string>, defaultImported: bool): (r: ImportEdit)
    ensures r != NoEdit ==>
              wrapper.importSpec.Some?
              && (wrapper.importSpec.value.named == Some(true) || wrapper.importSpec.value.isDefault == Some(true))
    ensures r.ReplaceImport? ==> wrapper.importSpec.value.named == Some(true) && existingGroup.Some?
    ensures r.InsertAt? ==> r.line == ImportInsertLine(text)
    ensures wrapper.importSpec.Some? && wrapper.importSpec.value.named == Some(true) ==>
              (r.InsertAt? <==> !namedImported && existingGroup.None?)
    ensures wrapper.importSpec.Some? && wrapper.importSpec.value.named != Some(true)
            && wrapper.importSpec.value.isDefault == Some(true) ==>
              (r == NoEdit <==> defaultImported)
    ensures wrapper.importSpec.Some? && wrapper.importSpec.value.named == Some(true) ==>
              r == NamedImportEdit(text, namedImported, existingGroup, wrapper.name,
                                   wrapper.importSpec.value.moduleName)
    ensures wrapper.importSpec.Some? && wrapper.importSpec.value.named != Some(true)
            && wrapper.importSpec.value.isDefault == Some(true) ==>
              r == DefaultImportEdit(text, defaultImported, wrapper.name, wrapper.importSpec.value.moduleName)
  {
    match wrapper.importSpec
    case None => NoEdit
    case Some(spec) =>
      if spec.named == Some(true) then
        NamedImportEdit(text, namedImported, existingGroup, wrapper.name, spec.moduleName)
      else if spec.isDefault == Some(true) then
        DefaultImportEdit(text, defaultImported, wrapper.name, spec.moduleName)
      else NoEdit
  }

  /** Every React Native default wrapper is imported by name from
      `react-native`, so wrapping with one adds or merges a named import
      unless the name is already imported. */
  lemma ReactNativeImportsNamed(i: nat, text: string, existingGroup: Option<string>, defaultImported: bool)
    requires i < |ReactNativeDefaults()|
    ensures var w := ReactNativeDefaults()[i];
            var r := WrapperImportEdit(w, text, false, existingGroup, defaultImported);
            && w.importSpec == Some(ImportSpec("react-native", Some(true), None))
            && (existingGroup.None? ==> r.InsertAt? && r.line == ImportInsertLine(text))
  {
  }

  /** What a wrap action writes reads back as an element named after the
      wrapper, so the unwrap entries are offered on it. */
  lemma WrapThenUnwrapOffered(wrapper: WrapperConfig, selectedText: string, startLine: string,
                              insertSpaces: bool, tabSize: nat,
                              wrappers: seq<WrapperConfig>, defaultBehavior: RemovalBehavior)
    requires IsTagName(wrapper.name)
    ensures var w := WrapText(wrapper, selectedText, startLine, insertSpaces, tabSize);
            && Parse(w).Some? && Parse(w).value.tagName == wrapper.name
            && |UnwrapActions(w, wrappers, defaultBehavior)| >= 1
  {
    var w := WrapText(wrapper, selectedText, startLine, insertSpaces, tabSize);
    ParsedNameNonEmpty(w);
  }

  /** The snippet of "Wrap with element...": the wrap text with the snippet
      placeholder `${1:element}` as the element name and no attributes. */
  function CustomSnippet(selectedText: string, indent: string, childIndent: string): (r: string)
    ensures r == WrapContent(selectedText, "${1:element}", indent, childIndent, None, None)
  {
    var reindented := ReindentContent(selectedText, childIndent);
    PlaceholderTags();
    WrapShape(selectedText, "${1:element}", indent, childIndent, None, None);
    (indent + "<${1:element}>") + "\n" + reindented + "\n" + (indent + "</${1:element}>")
  }

  /** The tags the custom snippet writes are those of the placeholder name. */
  lemma PlaceholderTags()
    ensures OpenTagText("${1:element}", None) == "<${1:element}>"
    ensures CloseTag("${1:element}") == "</${1:element}>"
  {
    assert Attrs(None) == "";
  }
}

=== FILE: classifier.dfy ===
/** Lexical classification of a selected fragment as one complete element:
    `parseJSXElement` and the weaker `isCompleteJSXElement`. */
module Classifier {
  import opened Optional
  import opened Text
  import opened Tags

  /** What the classifier reports about a fragment. */
  datatype ElementInfo = ElementInfo(tagName: string, hasChildren: bool, isSelfClosing: bool)

  predicate NoGt(s: string) {
    '>' !in s
  }

  /** `t` matches `/^<([a-zA-Z_$][\w.$]*)[^>]*\/>$/`. */
  predicate SelfClosingTag(t: string) {
    && |t| >= 4 && t[0] == '<' && IsNameStart(t[1])
    && t[|t| - 2..] == "/>" && NoGt(t[2..|t| - 2])
  }

  /** The same pattern read as the regular expression says it: a `<`, a tag
      name, a run without `>`, and `/>` closing the text. */
  ghost predicate SelfClosingRegex(t: string) {
    exists name, mid :: IsTagName(name) && NoGt(mid) && t == "<" + name + mid + "/>"
  }

  /** `t` matches the looser `/^<[^>]+\/>$/`. */
  predicate LooseSelfClosingTag(t: string) {
    |t| >= 4 && t[0] == '<' && t[|t| - 2..] == "/>" && NoGt(t[1..|t| - 2])
  }

  /** `t` opens with a tag name and ends with that name's closing tag. */
  predicate ContainerShape(t: string) {
    MatchOpenTag(t).Some? && EndsWith(t, CloseTag(MatchOpenTag(t).value))
  }

  /** `isCompleteJSXElement`. */
  predicate IsComplete(s: string) {
    var t := Trim(s);
    LooseSelfClosingTag(t) || ContainerShape(t)
  }

  /** `isCompleteJSXElement` accepts exactly the loose self-closing tags and
      the texts that open with some tag name and end with that name's
      closing tag. */
  lemma IsCompleteShape(s: string)
    ensures IsComplete(s) <==>
              || LooseSelfClosingTag(Trim(s))
              || exists name :: OpensWith(Trim(s), name) && EndsWith(Trim(s), CloseTag(name))
  {
    var t := Trim(s);
    if ContainerShape(t) {
      var name := MatchOpenTag(t).value;
      assert OpensWith(t, name) && EndsWith(t, CloseTag(name));
    }
    if exists name :: OpensWith(t, name) && EndsWith(t, CloseTag(name)) {
      var name :| OpensWith(t, name) && EndsWith(t, CloseTag(name));
      OpenTagUnique(t, name);
    }
  }

  /** The completeness test is looser than the classifier: `< a/>` is
      complete, because `[^>]+` admits the space, but it opens with no tag
      name, so the classifier rejects it. */
  lemma CompleteButNotParsed()
    ensures IsComplete("< a/>") && Parse("< a/>").None?
  {
    var s := "< a/>";
    assert s[0] == '<' && !IsWs(s[0]) && s[|s| - 1] == '>' && !IsWs(s[|s| - 1]);
    TrimPadded("", s, "");
    assert "" + s + "" == s;
    assert LooseSelfClosingTag(s) by {
      assert s[|s| - 2..] == "/>";
      assert s[1..|s| - 2] == " a";
    }
    assert !IsNameStart(s[1]);
  }

  /** The regular expression and its index form agree. */
  lemma SelfClosingTagMeansRegex(t: string)
    ensures SelfClosingTag(t) <==> SelfClosingRegex(t)
  {
    if SelfClosingTag(t) {
      var name, mid := t[1..2], t[2..|t| - 2];
      assert t == "<" + name + mid + "/>";
    }
    if SelfClosingRegex(t) {
      var name, mid :| IsTagName(name) && NoGt(mid) && t == "<" + name + mid + "/>";
      assert t[2..|t| - 2] == name[1..] + mid;
      forall k | 0 <= k < |name| - 1 ensures name[1..][k] != '>' {
        assert IsNameChar(name[k + 1]);
      }
    }
  }

  /** Index of the end of the opening tag, as `indexOf(">") + 1` computes it. */
  function OpenTagEnd(t: string): int {
    IndexOf(t, ">", 0) + 1
  }

  /** `parseJSXElement`. The classification is made on the trimmed fragment;
      the children test reads the text between the first `>` and the last
      closing tag, with `substring`'s argument swap. */
  function Parse(s: string): (r: Option<ElementInfo>)
    ensures r.Some? ==> IsComplete(s)
    ensures r.Some? ==> OpensWith(Trim(s), r.value.tagName)
    ensures r.Some? ==> (r.value.isSelfClosing <==> SelfClosingTag(Trim(s)))
    ensures r.Some? && r.value.isSelfClosing ==> !r.value.hasChildren
    ensures r.Some? && !r.value.isSelfClosing ==>
      var t := Trim(s);
      var a := OpenTagEnd(t);
      var b := |t| - |CloseTag(r.value.tagName)|;
      && EndsWith(t, CloseTag(r.value.tagName))
      && 1 <= a <= |t|
      && (r.value.hasChildren <==>
            var lo := if a <= b then a else b;
            var hi := if a <= b then b else a;
            exists k :: lo <= k < hi && !IsWs(t[k]))
    ensures r.None? <==> !SelfClosingTag(Trim(s)) && !ContainerShape(Trim(s))
  {
    var t := Trim(s);
    if SelfClosingTag(t) then
      var name := MatchOpenTag(t).value;
      Some(ElementInfo(name, false, true))
    else
      match MatchOpenTag(t)
      case None => None
      case Some(name) =>
        if !EndsWith(t, CloseTag(name)) then None
        else Some(ContainerInfo(t, name))
  }

  /** The container branch of `parseJSXElement` on the trimmed text `t`,
      once `t` is known to end with `name`'s closing tag. */
  function ContainerInfo(t: string, name: string): (r: ElementInfo)
    requires EndsWith(t, CloseTag(name))
    ensures r.tagName == name && !r.isSelfClosing
    ensures 1 <= OpenTagEnd(t) <= |t|
    ensures var a := OpenTagEnd(t);
            var b := |t| - |CloseTag(name)|;
            var lo := if a <= b then a else b;
            var hi := if a <= b then b else a;
            r.hasChildren <==> exists k :: lo <= k < hi && !IsWs(t[k])
  {
    var closeTag := CloseTag(name);
    var openTagEnd := OpenTagEnd(t);
    var closeTagStart := LastIndexOf(t, closeTag);
    assert Occurs(t, closeTag, |t| - |closeTag|);
    assert closeTagStart == |t| - |closeTag|;
    assert t[|t| - 1] == '>';
    assert Occurs(t, ">", |t| - 1);
    IndexOfSpec(t, ">", 0);
    var content := Trim(Substring(t, openTagEnd, closeTagStart));
    ChildrenTest(t, openTagEnd, closeTagStart);
    ElementInfo(name, |content| > 0, false)
  }

  /** The trimmed substring is non-empty exactly when the range it covers
      holds a non-whitespace character. */
  lemma ChildrenTest(t: string, a: int, b: int)
    requires 0 <= a <= |t| && 0 <= b <= |t|
    ensures var lo := if a <= b then a else b;
            var hi := if a <= b then b else a;
            |Trim(Substring(t, a, b))| > 0 <==> exists k :: lo <= k < hi && !IsWs(t[k])
  {
    var lo := if a <= b then a else b;
    var hi := if a <= b then b else a;
    assert Substring(t, a, b) == t[lo..hi];
    AllWsSlice(t, lo, hi);
  }

  /** A fragment whose trimmed text opens with `name` and ends with
      `</name>` is read as a container element named `name`: the closing
      tag cannot also end in `/>`. */
  lemma ParseContainer(s: string, name: string)
    requires OpensWith(Trim(s), name) && EndsWith(Trim(s), CloseTag(name))
    ensures Parse(s).Some? && Parse(s).value.tagName == name && !Parse(s).value.isSelfClosing
  {
    var t := Trim(s);
    OpenTagUnique(t, name);
    assert t[|t| - 2] == CloseTag(name)[|CloseTag(name)| - 2] == name[|name| - 1];
    OpenTagUnique(t, Parse(s).value.tagName);
  }

  /** When the first `>` comes no later than the closing tag, the children
      test reads exactly the text between them. */
  lemma ContainerChildren(s: string)
    ensures var t := Trim(s);
            Parse(s).Some? && !Parse(s).value.isSelfClosing
            && OpenTagEnd(t) <= |t| - |CloseTag(Parse(s).value.tagName)| ==>
              (Parse(s).value.hasChildren <==>
                 exists k :: OpenTagEnd(t) <= k < |t| - |CloseTag(Parse(s).value.tagName)| && !IsWs(t[k]))
  {
  }

  // ---------------------------------------------------------------------
  // The end of the opening tag when attributes hold `>`
  // ---------------------------------------------------------------------

  /** The brace depth after one character: `{` opens an attribute
      expression and `}` closes one (an unmatched `}` is ignored). */
  function BraceStep(d: nat, c: char): nat {
    if c == '{' then d + 1 else if c == '}' && d > 0 then d - 1 else d
  }

  /** Index of the first `>` of `s` met outside braces, the scan starting at
      depth `d`; -1 when there is none. */
  function TopGt(s: string, d: nat): (r: int)
    ensures -1 <= r < |s|
    ensures r >= 0 ==> s[r] == '>'
    decreases |s|
  {
    if s == [] then -1
    else if s[0] == '>' && d == 0 then 0
    else
      var k := TopGt(s[1..], BraceStep(d, s[0]));
      if k == -1 then -1 else k + 1
  }

  /** The brace depth after scanning `s` from depth `d`. */
  function DepthAfter(s: string, d: nat): nat
    decreases |s|
  {
    if s == [] then d else DepthAfter(s[1..], BraceStep(d, s[0]))
  }

  /** Attribute text whose every `>` sits inside balanced braces, as in
      `onPress={() => {}}`. */
  predicate Shielded(a: string) {
    TopGt(a, 0) == -1 && DepthAfter(a, 0) == 0
  }

  /** The end of the opening tag as evidently intended: one past its first
      `>` outside attribute braces (the text's `indexOf(">") + 1` takes the
      first `>` wherever it is). */
  function BracedOpenTagEnd(t: string): int {
    TopGt(t, 0) + 1
  }

  /** The children test of `parseJSXElement` with the corrected end of the
      opening tag: something other than whitespace lies between that end
      and the closing tag. */
  function BracedHasChildren(t: string, name: string): (r: bool)
    requires EndsWith(t, CloseTag(name))
    ensures var a := BracedOpenTagEnd(t);
            var b := |t| - |CloseTag(name)|;
            a <= b ==> (r <==> exists k :: a <= k < b && !IsWs(t[k]))
  {
    var a := BracedOpenTagEnd(t);
    var b := |t| - |CloseTag(name)|;
    assert 0 <= a <= |t| && 0 <= b <= |t|;
    ChildrenTest(t, a, b);
    |Trim(Substring(t, a, b))| > 0
  }

  /** Scanning a concatenation: when the first part holds no `>` outside
      braces, the search carries on into the second part at the depth the
      first part leaves. */
  lemma {:induction false} TopGtConcat(a: string, b: string, d: nat)
    requires TopGt(a, d) == -1
    ensures var k := TopGt(b, DepthAfter(a, d));
            TopGt(a + b, d) == if k == -1 then -1 else |a| + k
    ensures DepthAfter(a + b, d) == DepthAfter(b, DepthAfter(a, d))
    decreases |a|
  {
    if a == [] {
      assert a + b == b;
    } else {
      assert (a + b)[0] == a[0];
      assert (a + b)[1..] == a[1..] + b;
      TopGtConcat(a[1..], b, BraceStep(d, a[0]));
    }
  }

  /** Text without braces changes no depth, and holds no `>` outside braces
      when it has none or the scan is inside braces. */
  lemma {:induction false} BraceFree(s: string, d: nat)
    requires forall k :: 0 <= k < |s| ==> s[k] != '{' && s[k] != '}' && (d == 0 ==> s[k] != '>')
    ensures TopGt(s, d) == -1 && DepthAfter(s, d) == d
    decreases |s|
  {
    if s != [] {
      assert forall k :: 0 <= k < |s| - 1 ==> s[1..][k] == s[k + 1];
      BraceFree(s[1..], d);
    }
  }
}

=== FILE: imports.dfy ===
/** The import text a wrap action adds for a wrapper with an `import`
    entry: escaping the module name for a regular expression, merging a
    name into an existing named-import list, and the line a new import
    goes on. */
module Imports {
  import opened Optional
  import opened Text

  // ---------------------------------------------------------------------
  // Escaping the module name
  // ---------------------------------------------------------------------

  /** The characters of `[.*+?^${}()|[\]\\]`, which the escape prefixes
      with a backslash. */
  predicate IsRegexSpecial(c: char) {
    c in ".*+?^${}()|[]\\"
  }

  /** `moduleName.replace(/[.*+?^${}()|[\]\\]/g, "\\$&")`. */
  function EscapeRegex(s: string): (r: string)
    ensures |r| >= |s|
    ensures forall i :: 0 <= i < |s| && !IsRegexSpecial(s[i]) ==> s[i] in r
  {
    if s == [] then []
    else
      var head := if IsRegexSpecial(s[0]) then ['\\', s[0]] else [s[0]];
      var rest := EscapeRegex(s[1..]);
      assert forall i :: 1 <= i < |s| ==> s[i] == s[1..][i - 1];
      assert forall c :: c in rest ==> c in head + rest;
      head + rest
  }

  /** A pattern that matches only its own literal text: every special
      character comes right after a backslash, and a backslash only ever
      escapes a special character. */
  predicate LiteralPattern(r: string)
    decreases |r|
  {
    if r == [] then true
    else if r[0] == '\\' then |r| >= 2 && IsRegexSpecial(r[1]) && LiteralPattern(r[2..])
    else !IsRegexSpecial(r[0]) && LiteralPattern(r[1..])
  }

  /** The text a literal pattern matches: each escape stands for the
      character it escapes. */
  function Unescape(r: string): string
    requires LiteralPattern(r)
    decreases |r|
  {
    if r == [] then []
    else if r[0] == '\\' then [r[1]] + Unescape(r[2..])
    else [r[0]] + Unescape(r[1..])
  }

  /** The escaped module name is a literal pattern, and it matches exactly
      the module name. */
  lemma {:induction false} EscapeRoundTrip(s: string)
    ensures LiteralPattern(EscapeRegex(s))
    ensures Unescape(EscapeRegex(s)) == s
    decreases |s|
  {
    if s != [] {
      EscapeRoundTrip(s[1..]);
      var r := EscapeRegex(s);
      var rest := EscapeRegex(s[1..]);
      if IsRegexSpecial(s[0]) {
        assert r == ['\\', s[0]] + rest;
        assert r[2..] == rest;
      } else {
        assert r == [s[0]] + rest;
        assert r[1..] == rest;
      }
    }
  }

  // ---------------------------------------------------------------------
  // Named-import lists
  // ---------------------------------------------------------------------

  /** The list the source reads out of `import { ... }`: the pieces between
      commas, trimmed, without the empty ones. */
  function ImportNames(group: string): (names: seq<string>)
    ensures forall i :: 0 <= i < |names| ==> IsImportName(names[i])
  {
    CleanNames(Split(group, ','))
  }

  /** A name is read out of a list exactly when it is the trimmed form of
      one of the list's comma-separated pieces and is not empty. */
  lemma ImportNamesMember(group: string, x: string)
    ensures x in ImportNames(group) <==>
              x != "" && exists i :: 0 <= i < |Split(group, ',')| && Trim(Split(group, ',')[i]) == x
  {
    var parts := Split(group, ',');
    assert ImportNames(group) == CleanNames(parts);
    CleanNamesMember(parts, x);
    if x in ImportNames(group) {
      var i :| 0 <= i < |parts| && Trim(parts[i]) == x;
      assert Trim(Split(group, ',')[i]) == x;
    }
  }

  /** `.map((s) => s.trim()).filter(Boolean)` over the comma pieces. */
  function CleanNames(parts: seq<string>): (names: seq<string>)
    requires forall i :: 0 <= i < |parts| ==> ',' !in parts[i]
    ensures forall i :: 0 <= i < |names| ==> IsImportName(names[i])
    ensures |names| <= |parts|
  {
    if parts == [] then []
    else
      var t := Trim(parts[0]);
      assert ',' !in t by {
        assert forall k :: 0 <= k < |t| ==> t[k] in parts[0];
      }
      (if t == "" then [] else [t]) + CleanNames(parts[1..])
  }

  /** `CleanNames` keeps exactly the non-empty trimmed pieces. */
  lemma {:induction false} CleanNamesMember(parts: seq<string>, x: string)
    requires forall i :: 0 <= i < |parts| ==> ',' !in parts[i]
    ensures x in CleanNames(parts) <==> x != "" && exists i :: 0 <= i < |parts| && Trim(parts[i]) == x
    decreases |parts|
  {
    if parts != [] {
      var rest := parts[1..];
      CleanNamesMember(rest, x);
      if exists i :: 0 <= i < |parts| && Trim(parts[i]) == x {
        var i :| 0 <= i < |parts| && Trim(parts[i]) == x;
        if i > 0 {
          assert Trim(rest[i - 1]) == x;
        }
      }
      if exists i :: 0 <= i < |rest| && Trim(rest[i]) == x {
        var i :| 0 <= i < |rest| && Trim(rest[i]) == x;
        assert Trim(parts[i + 1]) == x;
      }
    }
  }

  /** A name as it stands in an import list: not empty, no comma, no
      whitespace at either end. */
  predicate IsImportName(n: string) {
    n != "" && ',' !in n && !IsWs(n[0]) && !IsWs(n[|n| - 1])
  }

  /** The list text the merge writes between the braces. */
  function ImportListText(names: seq<string>): string {
    " " + Join(names, ", ") + " "
  }

  /** Reading back a written list gives the same names. */
  lemma {:induction false} ImportListRoundTrip(names: seq<string>)
    requires forall i :: 0 <= i < |names| ==> IsImportName(names[i])
    ensures ImportNames(ImportListText(names)) == names
    decreases |names|
  {
    if |names| == 0 {
      ImportListEmpty();
    } else if |names| == 1 {
      ImportListSingle(names[0]);
      assert names == [names[0]];
    } else {
      var n := names[0];
      var rest := names[1..];
      ImportListStep(n, rest);
      ImportListRoundTrip(rest);
      assert names == [n] + rest;
    }
  }

  /** An empty list is written as two spaces and reads back empty. */
  lemma ImportListEmpty()
    ensures ImportNames(ImportListText([])) == []
  {
    assert ImportListText([]) == "  ";
    SplitFree("  ", ',');
    assert AllWs("  ");
  }

  /** A single name is written between two spaces and reads back alone. */
  lemma ImportListSingle(n: string)
    requires IsImportName(n)
    ensures ImportNames(ImportListText([n])) == [n]
  {
    assert ImportListText([n]) == " " + n + " ";
    SplitFree(" " + n + " ", ',');
    TrimPadded(" ", n, " ");
  }

  /** Peeling the first name off a written list of two or more. */
  lemma ImportListStep(n: string, rest: seq<string>)
    requires IsImportName(n) && |rest| >= 1
    requires forall i :: 0 <= i < |rest| ==> IsImportName(rest[i])
    ensures ImportNames(ImportListText([n] + rest)) == [n] + ImportNames(ImportListText(rest))
  {
    var tail := ImportListText(rest);
    JoinCons(n, rest, ", ");
    assert ImportListText([n] + rest) == (" " + n) + [','] + tail;
    SplitCons(" " + n, tail, ',');
    TrimPadded(" ", n, "");
    assert " " + n + "" == " " + n;
    var parts := Split(ImportListText([n] + rest), ',');
    assert parts == [" " + n] + Split(tail, ',');
    assert parts[1..] == Split(tail, ',');
  }

  /** `a <= b` in JavaScript's default sort order: a prefix comes first,
      otherwise the first differing character decides. */
  predicate LexLe(a: string, b: string)
    decreases |a|
  {
    if a == [] then true
    else if b == [] then false
    else if a[0] != b[0] then a[0] < b[0]
    else LexLe(a[1..], b[1..])
  }

  /** Any two strings are ordered one way or the other. */
  lemma {:induction false} LexLeTotal(a: string, b: string)
    ensures LexLe(a, b) || LexLe(b, a)
    decreases |a|
  {
    if a != [] && b != [] && a[0] == b[0] {
      LexLeTotal(a[1..], b[1..]);
    }
  }

  /** The order is transitive. */
  lemma {:induction false} LexLeTrans(a: string, b: string, c: string)
    requires LexLe(a, b) && LexLe(b, c)
    ensures LexLe(a, c)
    decreases |a|
  {
    if a != [] && b != [] && c != [] && a[0] == b[0] && b[0] == c[0] {
      LexLeTrans(a[1..], b[1..], c[1..]);
    }
  }

  /** The order is antisymmetric, so sorting has one answer. */
  lemma {:induction false} LexLeAntisym(a: string, b: string)
    requires LexLe(a, b) && LexLe(b, a)
    ensures a == b
    decreases |a|
  {
    if a != [] && b != [] {
      LexLeAntisym(a[1..], b[1..]);
      assert a == [a[0]] + a[1..] && b == [b[0]] + b[1..];
    }
  }

  /** Each name is no greater than the next. */
  predicate Sorted(s: seq<string>) {
    forall i :: 0 <= i < |s| - 1 ==> LexLe(s[i], s[i + 1])
  }

  /** Insertion of `x` before the first name it does not exceed. */
  function Insert(x: string, s: seq<string>): (r: seq<string>)
    requires Sorted(s)
    ensures Sorted(r)
    ensures multiset(r) == multiset(s) + multiset{x}
    ensures |r| == |s| + 1 && (r[0] == x || (|s| > 0 && r[0] == s[0]))
    decreases |s|
  {
    if s == [] then [x]
    else if LexLe(x, s[0]) then [x] + s
    else
      LexLeTotal(x, s[0]);
      var rest := Insert(x, s[1..]);
      assert s == [s[0]] + s[1..];
      [s[0]] + rest
  }

  /** `Array.prototype.sort` with the default order, as insertion sort:
      the result is sorted and holds the same names. */
  function Sort(s: seq<string>): (r: seq<string>)
    ensures Sorted(r)
    ensures multiset(r) == multiset(s)
    decreases |s|
  {
    if s == [] then []
    else
      assert s == [s[0]] + s[1..];
      Insert(s[0], Sort(s[1..]))
  }

  /** The import merge for a list already in the file: nothing when the
      name is there, otherwise the list with the name added, sorted. */
  function MergeNamedImport(group: string, componentName: string): (r: Option<seq<string>>)
    ensures r.None? <==> componentName in ImportNames(group)
    ensures r.Some? ==> Sorted(r.value)
    ensures r.Some? ==> multiset(r.value) == multiset(ImportNames(group)) + multiset{componentName}
  {
    var names := ImportNames(group);
    if componentName in names then None
    else Some(Sort(names + [componentName]))
  }

  /** The statement that replaces the existing import. */
  function NamedImportText(names: seq<string>, moduleName: string): string {
    "import {" + ImportListText(names) + "} from '" + moduleName + "'"
  }

  // ---------------------------------------------------------------------
  // Where a new import goes
  // ---------------------------------------------------------------------

  /** A line whose trimmed text starts with `import `. */
  predicate IsImportLine(line: string) {
    StartsWith(Trim(line), "import ")
  }

  /** The last import line before index `n`, or -1. */
  function LastImportBefore(lines: seq<string>, n: nat): (r: int)
    requires n <= |lines|
    ensures -1 <= r < n
    ensures r >= 0 ==> IsImportLine(lines[r])
    ensures forall i :: r < i < n ==> !IsImportLine(lines[i])
  {
    if n == 0 then -1
    else if IsImportLine(lines[n - 1]) then n - 1
    else LastImportBefore(lines, n - 1)
  }

  /** `findImportInsertPosition`, as a line number (the column is always
      0): the line after the last import line, or the first line when
      there is none. */
  function ImportInsertLine(text: string): (line: nat)
    ensures var lines := Split(text, '\n');
            && line <= |lines|
            && (line == 0 <==> forall i :: 0 <= i < |lines| ==> !IsImportLine(lines[i]))
            && (line > 0 ==> IsImportLine(lines[line - 1]))
            && (forall i :: line <= i < |lines| ==> !IsImportLine(lines[i]))
  {
    var lines := Split(text, '\n');
    LastImportBefore(lines, |lines|) + 1
  }

  /** What adding an import does to the document. */
  datatype ImportEdit = NoEdit | ReplaceImport(statement: string) | InsertAt(line: nat, statement: string)

  /** `addNamedImport`, given the outcome of the two regular-expression
      searches: whether the name is already imported, and the list text of
      an existing import from the same module, if any. */
  function NamedImportEdit(text: string, alreadyImported: bool, existingGroup: Option<string>,
                           componentName: string, moduleName: string): (r: ImportEdit)
    ensures alreadyImported ==> r == NoEdit
    ensures r.InsertAt? <==> !alreadyImported && existingGroup.None?
    ensures r.InsertAt? ==> r.line == ImportInsertLine(text)
    ensures r.ReplaceImport? <==>
              !alreadyImported && existingGroup.Some? && componentName !in ImportNames(existingGroup.value)
    ensures r.InsertAt? ==> r.statement == NamedImportText([componentName], moduleName) + ";\n"
  {
    if alreadyImported then NoEdit
    else match existingGroup
      case Some(group) =>
        (match MergeNamedImport(group, componentName)
         case None => NoEdit
         case Some(names) => ReplaceImport(NamedImportText(names, moduleName)))
      case None =>
        var statement := "import { " + componentName + " } from '" + moduleName + "';\n";
        assert statement == NamedImportText([componentName], moduleName) + ";\n" by {
          assert Join([componentName], ", ") == componentName;
          assert ImportListText([componentName]) == " " + componentName + " ";
        }
        InsertAt(ImportInsertLine(text), statement)
  }

  /** A fresh named import lists exactly the new name between its braces. */
  lemma InsertedImportReadsBack(text: string, componentName: string, moduleName: string)
    requires IsImportName(componentName)
    ensures var r := NamedImportEdit(text, false, None, componentName, moduleName);
            && r.InsertAt?
            && |r.statement| >= 19 + |moduleName|
            && var st := r.statement[..|r.statement| - 2];
               ImportNames(st[8..|st| - 9 - |moduleName|]) == [componentName]
  {
    var st := NamedImportText([componentName], moduleName);
    StatementList([componentName], moduleName);
    ImportListSingle(componentName);
    assert (st + ";\n")[..|st|] == st;
  }

  /** The list between the braces of a rewritten import reads back as the
      old names plus the new one, sorted. */
  lemma NamedImportReadsBack(text: string, group: string, componentName: string, moduleName: string)
    requires IsImportName(componentName) && componentName !in ImportNames(group)
    ensures var r := NamedImportEdit(text, false, Some(group), componentName, moduleName);
            && r.ReplaceImport?
            && |r.statement| >= 17 + |moduleName|
            && var merged := ImportNames(r.statement[8..|r.statement| - 9 - |moduleName|]);
               Sorted(merged) && multiset(merged) == multiset(ImportNames(group)) + multiset{componentName}
  {
    var names := MergeNamedImport(group, componentName).value;
    assert NamedImportEdit(text, false, Some(group), componentName, moduleName)
           == ReplaceImport(NamedImportText(names, moduleName));
    StatementList(names, moduleName);
    MergedNamesValid(group, componentName);
    ImportListRoundTrip(names);
  }

  /** Where the list sits in the rewritten statement. */
  lemma StatementList(names: seq<string>, moduleName: string)
    ensures var st := NamedImportText(names, moduleName);
            |st| >= 17 + |moduleName| && st[8..|st| - 9 - |moduleName|] == ImportListText(names)
  {
    var st := NamedImportText(names, moduleName);
    var list := ImportListText(names);
    assert st == "import {" + list + "} from '" + moduleName + "'";
  }

  /** Every name of a merged list is a proper import name when the added
      one is. */
  lemma MergedNamesValid(group: string, componentName: string)
    requires IsImportName(componentName) && componentName !in ImportNames(group)
    ensures var names := MergeNamedImport(group, componentName).value;
            forall i :: 0 <= i < |names| ==> IsImportName(names[i])
  {
    var before := ImportNames(group) + [componentName];
    var names := MergeNamedImport(group, componentName).value;
    forall i | 0 <= i < |names| ensures IsImportName(names[i]) {
      assert names[i] in multiset(names);
      assert names[i] in multiset(before);
      assert names[i] in before;
    }
  }

  /** `addDefaultImport`, given whether the name is already imported. */
  function DefaultImportEdit(text: string, alreadyImported: bool,
                             componentName: string, moduleName: string): (r: ImportEdit)
    ensures alreadyImported <==> r == NoEdit
    ensures r != NoEdit ==> r.InsertAt? && r.line == ImportInsertLine(text)
  {
    if alreadyImported then NoEdit
    else InsertAt(ImportInsertLine(text), "import " + componentName + " from '" + moduleName + "';\n")
  }

  // ---------------------------------------------------------------------
  // Recognising a default import
  // ---------------------------------------------------------------------

  predicate IsQuote(c: char) {
    c == '\'' || c == '"'
  }

  /** `lit` occurs in `s` at `x`. */
  predicate LitAt(s: string, x: nat, lit: string) {
    x + |lit| <= |s| && s[x..x + |lit|] == lit
  }

  /** `s[x..y]` is a non-empty whitespace run, a match of `\s+`. */
  predicate WsRun(s: string, x: nat, y: nat) {
    x < y <= |s| && AllWs(s[x..y])
  }

  /** `s[x]` is a match of `['"]`. */
  predicate QuoteAt(s: string, x: nat) {
    x < |s| && IsQuote(s[x])
  }

  /** A match of `import\s+NAME\s+from\s+['"]MODULE['"]` starting at `p`
      of `s`, whose three whitespace runs end at `a`, `b` and `c`. The name
      and the module are read literally: the escaped module matches exactly
      the module name (`EscapeRoundTrip`). The name goes into the pattern
      unescaped: for a name made of word characters and dots its literal text
      is one of its matches, and the only one when it holds no dot. JavaScript's `\s` is the
      whitespace set of `AllWs`. */
  predicate DefaultImportShape(s: string, p: nat, a: nat, b: nat, c: nat, name: string, moduleName: string) {
    && LitAt(s, p, "import") && WsRun(s, p + 6, a)
    && LitAt(s, a, name) && WsRun(s, a + |name|, b)
    && LitAt(s, b, "from") && WsRun(s, b + 4, c)
    && QuoteAt(s, c) && LitAt(s, c + 1, moduleName) && QuoteAt(s, c + 1 + |moduleName|)
  }

  /** The "already imported" test of `addDefaultImport` succeeds at `p`. */
  predicate DefaultImportAt(s: string, p: nat, name: string, moduleName: string) {
    exists a: nat, b: nat, c: nat | a <= |s| && b <= |s| && c <= |s| :: DefaultImportShape(s, p, a, b, c, name, moduleName)
  }

  /** The statement `addDefaultImport` inserts is recognised by its own
      "already imported" test wherever it lands in a text, so a second wrap
      with the same wrapper adds no second default import. */
  lemma DefaultImportRecognised(text: string, pre: string, post: string,
                                componentName: string, moduleName: string)
    ensures var r := DefaultImportEdit(text, false, componentName, moduleName);
            && r.InsertAt? && r.line == ImportInsertLine(text)
            && DefaultImportAt(pre + r.statement + post, |pre|, componentName, moduleName)
  {
    var st := "import " + componentName + " from '" + moduleName + "';\n";
    var n := |componentName|;
    var k := |pre|;
    StatementShape(componentName, moduleName);
    assert (pre + st + post)[k..k + |st|] == st;
    ShapeShift(pre + st + post, k, st, 0, 7, 8 + n, 13 + n, componentName, moduleName);
    assert DefaultImportShape(pre + st + post, k, k + 7, k + 8 + n, k + 13 + n, componentName, moduleName);
  }

  /** The inserted statement has the shape at its start. */
  lemma StatementShape(componentName: string, moduleName: string)
    ensures var n := |componentName|;
            DefaultImportShape("import " + componentName + " from '" + moduleName + "';\n",
                               0, 7, 8 + n, 13 + n, componentName, moduleName)
  {
    var n := |componentName|;
    var m := |moduleName|;
    var st := "import " + componentName + " from '" + moduleName + "';\n";
    assert |st| == n + m + 17;
    assert st[..6] == "import";
    assert st[6..7] == " ";
    assert st[7..7 + n] == componentName;
    assert st[7 + n..8 + n] == " ";
    assert st[8 + n..12 + n] == "from";
    assert st[12 + n..13 + n] == " ";
    assert st[13 + n] == '\'';
    assert st[14 + n..14 + n + m] == moduleName;
    assert st[14 + n + m] == '\'';
  }

  /** The shape survives putting the statement inside a longer text. */
  lemma ShapeShift(u: string, k: nat, st: string, p: nat, a: nat, b: nat, c: nat,
                   name: string, moduleName: string)
    requires k + |st| <= |u| && u[k..k + |st|] == st
    requires DefaultImportShape(st, p, a, b, c, name, moduleName)
    ensures DefaultImportShape(u, k + p, k + a, k + b, k + c, name, moduleName)
  {
    var m := |moduleName|;
    LitShift(u, k, st, p, "import");
    WsShift(u, k, st, p + 6, a);
    LitShift(u, k, st, a, name);
    WsShift(u, k, st, a + |name|, b);
    LitShift(u, k, st, b, "from");
    WsShift(u, k, st, b + 4, c);
    QuoteShift(u, k, st, c);
    LitShift(u, k, st, c + 1, moduleName);
    QuoteShift(u, k, st, c + 1 + m);
  }

  /** Each piece of the shape moves with the statement. */
  lemma LitShift(u: string, k: nat, st: string, x: nat, lit: string)
    requires k + |st| <= |u| && u[k..k + |st|] == st
    requires LitAt(st, x, lit)
    ensures LitAt(u, k + x, lit)
  {
    SliceInside(u, k, st, x, x + |lit|);
  }

  lemma WsShift(u: string, k: nat, st: string, x: nat, y: nat)
    requires k + |st| <= |u| && u[k..k + |st|] == st
    requires WsRun(st, x, y)
    ensures WsRun(u, k + x, k + y)
  {
    SliceInside(u, k, st, x, y);
  }

  lemma QuoteShift(u: string, k: nat, st: string, x: nat)
    requires k + |st| <= |u| && u[k..k + |st|] == st
    requires QuoteAt(st, x)
    ensures QuoteAt(u, k + x)
  {
  }

  /** A slice of a text held at offset `k` reads the same in the whole. */
  lemma SliceInside(u: string, k: nat, st: string, x: nat, y: nat)
    requires k + |st| <= |u| && u[k..k + |st|] == st
    requires x <= y <= |st|
    ensures u[k + x..k + y] == st[x..y]
    ensures x < y ==> u[k + x] == st[x]
  {
    assert forall i :: 0 <= i < y - x ==> u[k + x..k + y][i] == st[x..y][i];
    if x < y {
      assert u[k..k + |st|][x] == st[x];
    }
  }
}

=== FILE: locator.dfy ===
/** `findJSXElementRange`: from a cursor offset, find the span of the element
    the cursor sits in, by scanning back to the nearest `<` and, for a
    container element, forward with a nesting depth counter. */
module Locator {
  import opened Optional
  import opened Text
  import opened Tags

  /** A half-open `[start, end)` range of document offsets. */
  datatype Span = Span(start: nat, end: nat)

  /** A character that may follow a tag name in a genuine opening tag. */
  predicate IsBoundary(c: char) {
    c == ' ' || c == '>' || c == '\n' || c == '\r'
  }

  /** `p` is the nearest `<` at or before `offset`. */
  predicate NearestLt(text: string, offset: nat, p: nat) {
    && p <= offset && p < |text| && text[p] == '<'
    && forall k :: p < k <= offset && k < |text| ==> text[k] != '<'
  }

  /** The backward loop: step left from `i` until a `<` or offset 0. The
      character at `i` itself is looked at first; an index past the end
      reads as "not `<`". */
  function BackToLt(text: string, i: nat): (p: nat)
    requires i <= |text|
    ensures p <= i
    ensures forall k :: p < k <= i && k < |text| ==> text[k] != '<'
    ensures p > 0 ==> p < |text| && text[p] == '<'
  {
    if i > 0 && !(i < |text| && text[i] == '<') then BackToLt(text, i - 1) else i
  }

  /** `text.substring(p)` matches `/^<[^>]+\/>/` with a match `e - p` long. */
  predicate SelfClosingAt(text: string, p: nat, e: nat) {
    && p + 4 <= e <= |text| && text[p] == '<'
    && text[e - 2..e] == "/>" && '>' !in text[p + 1..e - 2]
  }

  /** A self-closing match ends just past the first `>` after `p`. */
  lemma SelfClosingEndsAtFirstGt(text: string, p: nat, e: nat)
    requires SelfClosingAt(text, p, e)
    ensures text[e - 1] == '>' && text[e - 2] == '/'
    ensures forall j :: p <= j < e - 1 ==> text[j] != '>'
  {
    assert text[e - 1] == text[e - 2..e][1];
    assert text[e - 2] == text[e - 2..e][0];
    forall j | p < j < e - 2 ensures text[j] != '>' {
      assert text[j] == text[p + 1..e - 2][j - p - 1];
    }
  }

  /** End of the self-closing tag that starts at `p`, or -1 when there is none:
      one past the first `>` after `p`, when a `/` precedes that `>`. */
  function SelfClosingEnd(text: string, p: nat): (e: int)
    requires p < |text| && text[p] == '<'
    ensures e != -1 ==> e > p && SelfClosingAt(text, p, e)
    ensures e != -1 ==> text[e - 1] == '>' && text[e - 2] == '/' && '>' !in text[p..e - 1]
    ensures e == -1 ==> forall e' :: !SelfClosingAt(text, p, e')
  {
    var g := IndexOf(text, ">", p);
    IndexOfSpec(text, ">", p);
    if g != -1 && g >= p + 3 && text[g - 1] == '/' then
      assert text[g] == text[g..g + 1][0] == '>';
      assert text[g - 1..g + 1] == "/>";
      assert forall j :: p <= j < g ==> text[j] != '>' by {
        forall j | p <= j < g ensures text[j] != '>' {
          OccursChar(text, '>', j);
        }
      }
      assert '>' !in text[p + 1..g - 1];
      assert '>' !in text[p..g];
      g + 1
    else
      forall e': nat ensures !SelfClosingAt(text, p, e') {
        if SelfClosingAt(text, p, e') {
          SelfClosingEndsAtFirstGt(text, p, e');
          OccursChar(text, '>', e' - 1);
          forall j | p <= j < e' - 1 ensures !Occurs(text, ">", j) {
            OccursChar(text, '>', j);
          }
        }
      }
      -1
  }

  /** The forward loop's start: one past the first `>` at or after `i`
      (one past the end of the text when there is none). */
  function SkipPastGt(text: string, i: nat): (r: nat)
    requires i <= |text|
    ensures i < r <= |text| + 1
    ensures forall k :: i <= k < r - 1 ==> text[k] != '>'
    ensures r - 1 < |text| ==> text[r - 1] == '>'
    decreases |text| - i
  {
    if i < |text| && text[i] != '>' then SkipPastGt(text, i + 1) else i + 1
  }

  // ---------------------------------------------------------------------------
  // The depth scan and its declarative counterpart.

  function OpenPattern(tag: string): string {
    "<" + tag
  }

  /** A genuine nested opening of `tag` at `p`: `<tag` followed by a
      boundary character. */
  predicate OpenAt(text: string, tag: string, p: int) {
    && Occurs(text, OpenPattern(tag), p)
    && p + |tag| + 1 < |text| && IsBoundary(text[p + |tag| + 1])
  }

  /** A closing tag `</tag>` at `p`. */
  predicate CloseAt(text: string, tag: string, p: int) {
    Occurs(text, CloseTag(tag), p)
  }

  /** A closing tag at `c`, as the scan's outcome quantifies over it. (The
      same fact as `CloseAt`, under its own name so that counting positions
      does not keep re-instantiating the outcome's quantifiers.) */
  predicate ClosingSite(text: string, tag: string, c: int) {
    CloseAt(text, tag, c)
  }

  /** Genuine openings (`opening`) or closings (`!opening`) of `tag` that
      start in `[lo, hi)`. */
  function Count(text: string, tag: string, opening: bool, lo: int, hi: int): nat
    decreases hi - lo
  {
    if lo >= hi then 0
    else
      var here := if opening then OpenAt(text, tag, lo) else CloseAt(text, tag, lo);
      (if here then 1 else 0) + Count(text, tag, opening, lo + 1, hi)
  }

  /** The nesting depth in force when the scan, started at `from` with depth
      `depth`, reaches position `c`. */
  function Level(text: string, tag: string, from: int, depth: int, c: int): int {
    depth + Count(text, tag, true, from, c) - Count(text, tag, false, from, c)
  }

  /** What the depth scan promises: on success, the closing tag that brings
      the depth to zero, with every earlier closing tag leaving it above
      zero; on failure, no closing tag ever brings it to zero. */
  ghost predicate ScanOutcome(text: string, tag: string, from: int, depth: int, r: Option<nat>) {
    match r
    case Some(e) =>
      var c := e - |CloseTag(tag)|;
      && from <= c && ClosingSite(text, tag, c) && Level(text, tag, from, depth, c) == 1
      && forall c' :: from <= c' < c && ClosingSite(text, tag, c') ==> Level(text, tag, from, depth, c') > 1
    case None =>
      forall c :: from <= c && ClosingSite(text, tag, c) ==> Level(text, tag, from, depth, c) > 1
  }

  /** What one round of the forward loop decides: stop with a result, or go
      on from a later position with a new depth. */
  datatype Round = Stop(result: Option<nat>) | Continue(next: nat, depth: nat)

  /** One round of the forward loop, at a position inside the text. It finds
      the next `<tag` and the next `</tag>`. An earlier `<tag` raises the
      depth only when a boundary character follows it, and the search moves
      past it either way; otherwise the closing tag lowers the depth, and the
      one that reaches zero ends the element. */
  function ScanRound(text: string, tag: string, pos: nat, depth: nat): (rd: Round)
    requires IsTagName(tag)
    requires depth >= 1
    requires pos < |text|
    ensures rd.Continue? ==> pos < rd.next <= |text| && rd.depth >= 1
    ensures rd.Stop? && rd.result.Some? ==> pos + |CloseTag(tag)| <= rd.result.value <= |text|
  {
    var nextOpen := IndexOf(text, OpenPattern(tag), pos);
    var nextClose := IndexOf(text, CloseTag(tag), pos);
    if nextClose == -1 then Stop(None)
    else if nextOpen != -1 && nextOpen < nextClose then
      Continue(nextOpen + |tag| + 1, DepthAfterOpen(text, tag, nextOpen, depth))
    else
      var e := nextClose + |CloseTag(tag)|;
      if depth == 1 then Stop(Some(e)) else Continue(e, depth - 1)
  }

  /** The depth after stepping over the `<tag` at `o`. */
  function DepthAfterOpen(text: string, tag: string, o: int, depth: int): (d: int)
    ensures d == depth || d == depth + 1
  {
    var after := o + |tag| + 1;
    if 0 <= after < |text| && IsBoundary(text[after]) then depth + 1 else depth
  }

  /** The forward loop: rounds from `pos` until one stops or the text runs out. */
  function Scan(text: string, tag: string, pos: nat, depth: nat): (r: Option<nat>)
    requires IsTagName(tag)
    requires depth >= 1
    ensures r.Some? ==> pos + |CloseTag(tag)| <= r.value <= |text|
    decreases |text| - pos
  {
    if pos >= |text| then None
    else
      match ScanRound(text, tag, pos, depth)
      case Stop(r) => r
      case Continue(next, depth') => Scan(text, tag, next, depth')
  }

  lemma {:induction false} CountSplit(text: string, tag: string, opening: bool, lo: int, mid: int, hi: int)
    requires lo <= mid <= hi
    ensures Count(text, tag, opening, lo, hi) == Count(text, tag, opening, lo, mid) + Count(text, tag, opening, mid, hi)
    decreases mid - lo
  {
    if lo < mid {
      CountSplit(text, tag, opening, lo + 1, mid, hi);
    }
  }

  /** No opening or closing tag starts where there is no `<`. */
  lemma {:induction false} CountNone(text: string, tag: string, opening: bool, lo: int, hi: int)
    requires forall q :: lo <= q < hi ==> !OpenAt(text, tag, q) && !CloseAt(text, tag, q)
    ensures Count(text, tag, opening, lo, hi) == 0
    decreases hi - lo
  {
    if lo < hi {
      CountNone(text, tag, opening, lo + 1, hi);
    }
  }

  /** Both patterns begin with `<`. */
  lemma NeedsLt(text: string, tag: string, q: int)
    requires OpenAt(text, tag, q) || CloseAt(text, tag, q) || Occurs(text, OpenPattern(tag), q)
    ensures text[q] == '<'
  {
    if CloseAt(text, tag, q) {
      assert text[q] == text[q..q + |CloseTag(tag)|][0];
    } else {
      assert text[q] == text[q..q + |OpenPattern(tag)|][0];
    }
  }

  /** Inside `<tag` or `</tag>`, after the leading `<`, there is no `<`. */
  lemma NoLtInside(text: string, pat: string, tag: string, p: int, q: int)
    requires IsTagName(tag)
    requires pat == OpenPattern(tag) || pat == CloseTag(tag)
    requires Occurs(text, pat, p)
    requires p < q < p + |pat|
    ensures text[q] != '<'
  {
    assert text[q] == text[p..p + |pat|][q - p] == pat[q - p];
    if pat == OpenPattern(tag) {
      assert pat[q - p] == tag[q - p - 1];
    } else if q - p >= 2 && q - p < |pat| - 1 {
      assert pat[q - p] == tag[q - p - 2];
    }
  }

  /** A closing tag is never a genuine opening: its second character is `/`. */
  lemma CloseIsNotOpen(text: string, tag: string, c: int)
    requires IsTagName(tag)
    requires CloseAt(text, tag, c)
    ensures !Occurs(text, OpenPattern(tag), c)
  {
    assert text[c + 1] == text[c..c + |CloseTag(tag)|][1] == '/';
  }

  /** No opening or closing tag starts strictly inside an occurrence of
      either pattern. */
  lemma CountInside(text: string, tag: string, pat: string, p: nat, opening: bool)
    requires IsTagName(tag)
    requires pat == OpenPattern(tag) || pat == CloseTag(tag)
    requires Occurs(text, pat, p)
    ensures Count(text, tag, opening, p + 1, p + |pat|) == 0
  {
    forall q | p + 1 <= q < p + |pat|
      ensures !OpenAt(text, tag, q) && !CloseAt(text, tag, q)
    {
      NoLtInside(text, pat, tag, p, q);
      if OpenAt(text, tag, q) || CloseAt(text, tag, q) { NeedsLt(text, tag, q); }
    }
    CountNone(text, tag, opening, p + 1, p + |pat|);
  }

  /** Before the first occurrences the scan found, nothing is counted. */
  lemma CountBefore(text: string, tag: string, pos: nat, x: int, opening: bool)
    requires forall j :: pos <= j < x ==> !Occurs(text, OpenPattern(tag), j)
    requires forall j :: pos <= j < x ==> !CloseAt(text, tag, j)
    ensures Count(text, tag, opening, pos, x) == 0
  {
    CountNone(text, tag, opening, pos, x);
  }

  /** The scan steps over an earlier `<tag` at `o`: only that position can
      count as an opening in `[pos, after)`, and no closing lies there. */
  lemma OpenStep(text: string, tag: string, pos: nat, o: nat, c: nat)
    requires IsTagName(tag)
    requires pos <= o < c
    requires Occurs(text, OpenPattern(tag), o) && CloseAt(text, tag, c)
    requires forall j :: pos <= j < o ==> !Occurs(text, OpenPattern(tag), j)
    requires forall j :: pos <= j < c ==> !CloseAt(text, tag, j)
    ensures o + |tag| + 1 <= c
    ensures Count(text, tag, true, pos, o + |tag| + 1) == (if OpenAt(text, tag, o) then 1 else 0)
    ensures Count(text, tag, false, pos, o + |tag| + 1) == 0
  {
    var after := o + |tag| + 1;
    NeedsLt(text, tag, c);
    if c < after {
      NoLtInside(text, OpenPattern(tag), tag, o, c);
    }
    CountSplit(text, tag, true, pos, o, after);
    CountSplit(text, tag, false, pos, o, after);
    CountBefore(text, tag, pos, o, true);
    CountBefore(text, tag, pos, o, false);
    CountInside(text, tag, OpenPattern(tag), o, true);
    CountInside(text, tag, OpenPattern(tag), o, false);
  }

  /** The scan consumes the closing tag at `c`: in `[pos, c + |</tag>|)` it is
      the only closing and there is no opening. */
  lemma CloseStep(text: string, tag: string, pos: nat, c: nat)
    requires IsTagName(tag)
    requires pos <= c && CloseAt(text, tag, c)
    requires forall j :: pos <= j < c ==> !Occurs(text, OpenPattern(tag), j)
    requires forall j :: pos <= j < c ==> !CloseAt(text, tag, j)
    ensures Count(text, tag, true, pos, c + |CloseTag(tag)|) == 0
    ensures Count(text, tag, false, pos, c + |CloseTag(tag)|) == 1
  {
    var e := c + |CloseTag(tag)|;
    CloseIsNotOpen(text, tag, c);
    CountSplit(text, tag, true, pos, c, e);
    CountSplit(text, tag, false, pos, c, e);
    CountBefore(text, tag, pos, c, true);
    CountBefore(text, tag, pos, c, false);
    CountInside(text, tag, CloseTag(tag), c, true);
    CountInside(text, tag, CloseTag(tag), c, false);
  }

  /** Moving the scan from `pos` to `next` with the depth adjusted by what lies
      between leaves the level at every later position unchanged. */
  lemma LevelShift(text: string, tag: string, pos: int, next: int, depth: int, depth': int, c: int)
    requires pos <= next <= c
    requires depth' == depth + Count(text, tag, true, pos, next) - Count(text, tag, false, pos, next)
    ensures Level(text, tag, pos, depth, c) == Level(text, tag, next, depth', c)
  {
    CountSplit(text, tag, true, pos, next, c);
    CountSplit(text, tag, false, pos, next, c);
  }

  /** If the scan from `next` meets its outcome, and every closing tag the
      scan stepped over between `pos` and `next` left the depth above zero,
      the scan from `pos` meets its outcome too. */
  lemma OutcomeTransfer(text: string, tag: string, pos: int, next: int, depth: int, depth': int, r: Option<nat>)
    requires pos <= next
    requires depth' == depth + Count(text, tag, true, pos, next) - Count(text, tag, false, pos, next)
    requires forall c :: pos <= c < next && ClosingSite(text, tag, c) ==> Level(text, tag, pos, depth, c) > 1
    requires ScanOutcome(text, tag, next, depth', r)
    ensures ScanOutcome(text, tag, pos, depth, r)
  {
    forall c | next <= c
      ensures Level(text, tag, pos, depth, c) == Level(text, tag, next, depth', c)
    {
      LevelShift(text, tag, pos, next, depth, depth', c);
    }
  }

  /** The round in which an earlier `<tag` is stepped over: what lies
      between the two positions is that `<tag` alone. */
  lemma OpenRound(text: string, tag: string, pos: nat, depth: nat, o: nat, c: nat)
    requires IsTagName(tag)
    requires pos < |text|
    requires o == IndexOf(text, OpenPattern(tag), pos) && c == IndexOf(text, CloseTag(tag), pos)
    requires o < c
    ensures pos <= o
    ensures var after := o + |tag| + 1;
      && DepthAfterOpen(text, tag, o, depth) == depth + Count(text, tag, true, pos, after) - Count(text, tag, false, pos, after)
      && forall c' :: pos <= c' < after && ClosingSite(text, tag, c') ==> Level(text, tag, pos, depth, c') > 1
  {
    IndexOfSpec(text, OpenPattern(tag), pos);
    IndexOfSpec(text, CloseTag(tag), pos);
    OpenStep(text, tag, pos, o, c);
    OpenAtMeansBoundary(text, tag, o);
  }

  lemma OpenAtMeansBoundary(text: string, tag: string, o: nat)
    requires Occurs(text, OpenPattern(tag), o)
    ensures OpenAt(text, tag, o) <==> DepthAfterOpen(text, tag, o, 0) == 1
  {
  }

  /** The round that consumes the closing tag at `c`: the level there is the
      current depth, and no other closing tag lies between the positions. */
  lemma CloseRound(text: string, tag: string, pos: nat, depth: nat, o: int, c: nat)
    requires IsTagName(tag)
    requires pos < |text|
    requires o == IndexOf(text, OpenPattern(tag), pos) && c == IndexOf(text, CloseTag(tag), pos)
    requires o == -1 || c <= o
    ensures pos <= c
    ensures var e := c + |CloseTag(tag)|;
      && ClosingSite(text, tag, c)
      && Level(text, tag, pos, depth, c) == depth
      && depth - 1 == depth + Count(text, tag, true, pos, e) - Count(text, tag, false, pos, e)
      && forall c' :: pos <= c' < e && ClosingSite(text, tag, c') ==> c' == c && Level(text, tag, pos, depth, c') == depth
  {
    var e := c + |CloseTag(tag)|;
    IndexOfSpec(text, OpenPattern(tag), pos);
    IndexOfSpec(text, CloseTag(tag), pos);
    CloseIsNotOpen(text, tag, c);
    CloseStep(text, tag, pos, c);
    CountSplit(text, tag, true, pos, c, e);
    CountSplit(text, tag, false, pos, c, e);
    forall c' | pos <= c' < e && ClosingSite(text, tag, c')
      ensures c' == c
    {
      if c' > c {
        NoLtInside(text, CloseTag(tag), tag, c, c');
        NeedsLt(text, tag, c');
      }
    }
  }

  /** The scan in a round that finds no closing tag. */
  lemma ScanNoClose(text: string, tag: string, pos: nat, depth: nat)
    requires IsTagName(tag) && depth >= 1 && pos < |text|
    requires IndexOf(text, CloseTag(tag), pos) == -1
    ensures Scan(text, tag, pos, depth) == None
  {
    assert ScanRound(text, tag, pos, depth) == Stop(None);
  }

  /** The round that steps over an earlier `<tag`. */
  lemma OpenBranch(text: string, tag: string, pos: nat, depth: nat, o: int, c: int)
    requires IsTagName(tag) && depth >= 1 && pos < |text|
    requires o == IndexOf(text, OpenPattern(tag), pos) && c == IndexOf(text, CloseTag(tag), pos)
    requires c != -1 && o != -1 && o < c
    ensures ScanRound(text, tag, pos, depth) == Continue(o + |tag| + 1, DepthAfterOpen(text, tag, o, depth))
  {
  }

  /** The round that consumes a closing tag. */
  lemma CloseBranch(text: string, tag: string, pos: nat, depth: nat, o: int, c: int)
    requires IsTagName(tag) && depth >= 1 && pos < |text|
    requires o == IndexOf(text, OpenPattern(tag), pos) && c == IndexOf(text, CloseTag(tag), pos)
    requires c != -1 && (o == -1 || c <= o)
    ensures ScanRound(text, tag, pos, depth)
            == if depth == 1 then Stop(Some(c + |CloseTag(tag)|)) else Continue(c + |CloseTag(tag)|, depth - 1)
  {
  }

  /** A round that goes on hands the scan over to the next position. */
  lemma ScanContinues(text: string, tag: string, pos: nat, depth: nat, next: nat, depth': nat)
    requires IsTagName(tag) && depth >= 1 && pos < |text|
    requires ScanRound(text, tag, pos, depth) == Continue(next, depth')
    ensures depth' >= 1
    ensures Scan(text, tag, pos, depth) == Scan(text, tag, next, depth')
  {
  }

  /** An opening tag stepped over: the outcome from after it, at the depth
      it leaves, is the outcome from before it. */
  lemma OpenPassed(text: string, tag: string, pos: nat, next: nat, depth: nat, depth': int, r: Option<nat>)
    requires pos <= next
    requires depth' == depth + Count(text, tag, true, pos, next) - Count(text, tag, false, pos, next)
    requires forall c' :: pos <= c' < next && ClosingSite(text, tag, c') ==> Level(text, tag, pos, depth, c') > 1
    requires ScanOutcome(text, tag, next, depth', r)
    ensures ScanOutcome(text, tag, pos, depth, r)
  {
    OutcomeTransfer(text, tag, pos, next, depth, depth', r);
  }

  /** A closing tag at depth one, the only one since `pos`, is the outcome. */
  lemma CloseLast(text: string, tag: string, pos: nat, c: nat, e: nat)
    requires pos <= c < e && e == c + |CloseTag(tag)|
    requires ClosingSite(text, tag, c) && Level(text, tag, pos, 1, c) == 1
    requires forall c' :: pos <= c' < e && ClosingSite(text, tag, c') ==> c' == c
    ensures ScanOutcome(text, tag, pos, 1, Some(e))
  {
  }

  /** A closing tag that leaves the depth above zero is passed over: the
      outcome from just after it is the outcome from before it. */
  lemma CloseNotLast(text: string, tag: string, pos: nat, depth: nat, c: nat, e: nat, r: Option<nat>)
    requires pos <= e && depth > 1
    requires depth - 1 == depth + Count(text, tag, true, pos, e) - Count(text, tag, false, pos, e)
    requires forall c' :: pos <= c' < e && ClosingSite(text, tag, c') ==> c' == c && Level(text, tag, pos, depth, c') == depth
    requires ScanOutcome(text, tag, e, depth - 1, r)
    ensures ScanOutcome(text, tag, pos, depth, r)
  {
    OutcomeTransfer(text, tag, pos, e, depth, depth - 1, r);
  }

  /** With no closing tag left, the outcome is "none". */
  lemma NoCloseLeft(text: string, tag: string, pos: nat, depth: nat)
    requires pos <= |text|
    requires IndexOf(text, CloseTag(tag), pos) == -1
    ensures ScanOutcome(text, tag, pos, depth, None)
  {
    IndexOfSpec(text, CloseTag(tag), pos);
    assert forall c' :: pos <= c' ==> !ClosingSite(text, tag, c');
  }

  /** The depth scan finds exactly the closing tag its declarative outcome
      describes. */
  lemma {:induction false} ScanMeetsOutcome(text: string, tag: string, pos: nat, depth: nat)
    requires IsTagName(tag)
    requires depth >= 1
    ensures ScanOutcome(text, tag, pos, depth, Scan(text, tag, pos, depth))
    decreases |text| - pos
  {
    if pos >= |text| {
      EndCase(text, tag, pos, depth);
    } else {
      var o := IndexOf(text, OpenPattern(tag), pos);
      var c := IndexOf(text, CloseTag(tag), pos);
      if c == -1 {
        NoCloseCase(text, tag, pos, depth);
      } else if o != -1 && o < c {
        var next: nat, depth': nat := o + |tag| + 1, DepthAfterOpen(text, tag, o, depth);
        ScanMeetsOutcome(text, tag, next, depth');
        OpenCase(text, tag, pos, depth, o, c, next, depth');
      } else if depth == 1 {
        LastCloseCase(text, tag, pos, depth, o, c);
      } else {
        var next: nat, depth': nat := c + |CloseTag(tag)|, depth - 1;
        ScanMeetsOutcome(text, tag, next, depth');
        CloseCase(text, tag, pos, depth, o, c, next, depth');
      }
    }
  }

  /** Past the end of the text the scan finds nothing, as the outcome says. */
  lemma EndCase(text: string, tag: string, pos: nat, depth: nat)
    requires IsTagName(tag) && depth >= 1 && pos >= |text|
    ensures ScanOutcome(text, tag, pos, depth, Scan(text, tag, pos, depth))
  {
    assert forall c :: pos <= c ==> !ClosingSite(text, tag, c);
  }

  /** Stepping over an earlier `<tag` keeps the outcome. */
  lemma OpenCase(text: string, tag: string, pos: nat, depth: nat, o: int, c: int, next: nat, depth': nat)
    requires IsTagName(tag) && depth >= 1 && pos < |text|
    requires o == IndexOf(text, OpenPattern(tag), pos) && c == IndexOf(text, CloseTag(tag), pos)
    requires c != -1 && o != -1 && o < c
    requires next == o + |tag| + 1 && depth' == DepthAfterOpen(text, tag, o, depth)
    requires ScanOutcome(text, tag, next, depth', Scan(text, tag, next, depth'))
    ensures ScanOutcome(text, tag, pos, depth, Scan(text, tag, pos, depth))
  {
    OpenBranch(text, tag, pos, depth, o, c);
    ScanContinues(text, tag, pos, depth, next, depth');
    OpenRound(text, tag, pos, depth, o, c);
    OpenPassed(text, tag, pos, next, depth, depth', Scan(text, tag, next, depth'));
  }

  /** Consuming a closing tag that leaves the depth above zero keeps the
      outcome. */
  lemma CloseCase(text: string, tag: string, pos: nat, depth: nat, o: int, c: int, next: nat, depth': nat)
    requires IsTagName(tag) && depth > 1 && pos < |text|
    requires o == IndexOf(text, OpenPattern(tag), pos) && c == IndexOf(text, CloseTag(tag), pos)
    requires c != -1 && (o == -1 || c <= o)
    requires next == c + |CloseTag(tag)| && depth' == depth - 1
    requires ScanOutcome(text, tag, next, depth', Scan(text, tag, next, depth'))
    ensures ScanOutcome(text, tag, pos, depth, Scan(text, tag, pos, depth))
  {
    CloseBranch(text, tag, pos, depth, o, c);
    ScanContinues(text, tag, pos, depth, next, depth');
    CloseRound(text, tag, pos, depth, o, c);
    CloseNotLast(text, tag, pos, depth, c, next, Scan(text, tag, next, depth'));
  }

  /** No closing tag left: the scan gives up, as the outcome says. */
  lemma NoCloseCase(text: string, tag: string, pos: nat, depth: nat)
    requires IsTagName(tag) && depth >= 1 && pos < |text|
    requires IndexOf(text, CloseTag(tag), pos) == -1
    ensures ScanOutcome(text, tag, pos, depth, Scan(text, tag, pos, depth))
  {
    ScanNoClose(text, tag, pos, depth);
    NoCloseLeft(text, tag, pos, depth);
  }

  /** The closing tag that brings the depth to zero ends the scan, as the
      outcome says. */
  lemma LastCloseCase(text: string, tag: string, pos: nat, depth: nat, o: int, c: nat)
    requires IsTagName(tag) && depth == 1 && pos < |text|
    requires o == IndexOf(text, OpenPattern(tag), pos) && c == IndexOf(text, CloseTag(tag), pos)
    requires o == -1 || c <= o
    ensures ScanOutcome(text, tag, pos, depth, Scan(text, tag, pos, depth))
  {
    CloseBranch(text, tag, pos, depth, o, c);
    CloseRound(text, tag, pos, depth, o, c);
    CloseLast(text, tag, pos, c, c + |CloseTag(tag)|);
  }

  // ---------------------------------------------------------------------------
  // The locator.

  /** What the locator returns once it has found the `<` at `p` and checked
      the tag-name start: the self-closing tag there if the text from `p`
      is one, otherwise the container whose closing tag the depth scan finds
      (searching from just past the opening tag's first `>`). */
  ghost predicate ElementOutcome(text: string, p: nat, r: Option<Span>)
    requires p + 1 < |text| && text[p] == '<' && IsNameStart(text[p + 1])
  {
    var tag := TagAt(text, p);
    var from := ScanStart(text, p);
    if exists e :: SelfClosingAt(text, p, e) then
      r.Some? && r.value.start == p && SelfClosingAt(text, p, r.value.end)
    else
      && (r.Some? ==> r.value.start == p && ScanOutcome(text, tag, from, 1, Some(r.value.end)))
      && (r.None? ==> ScanOutcome(text, tag, from, 1, None))
  }

  /** There is only one nearest `<`. */
  lemma NearestUnique(text: string, offset: nat, p: nat, q: nat)
    requires NearestLt(text, offset, p) && NearestLt(text, offset, q)
    ensures p == q
  {
  }

  /** `findJSXElementRange`, on the document text and a cursor offset. */
  function FindElementRange(text: string, offset: nat): (r: Option<Span>)
    requires offset <= |text|
    ensures r.Some? ==> NearestLt(text, offset, r.value.start) && r.value.start < r.value.end <= |text|
    ensures r.Some? ==> r.value.start + 2 <= offset && IsNameStart(text[r.value.start + 1])
    ensures (forall k :: 0 <= k <= offset && k < |text| ==> text[k] != '<') ==> r.None?
    ensures forall p: nat :: NearestLt(text, offset, p) && !(p + 2 <= offset && IsNameStart(text[p + 1])) ==> r.None?
    ensures forall p: nat :: NearestLt(text, offset, p) && p + 2 <= offset && IsNameStart(text[p + 1]) ==> ElementOutcome(text, p, r)
  {
    var p := BackToLt(text, offset);
    NearestIsBack(text, offset);
    if !(p < |text| && text[p] == '<') then
      None
    else if MatchOpenTag(text[p..offset]).None? then
      assert NearestLt(text, offset, p);
      None
    else
      assert NearestLt(text, offset, p);
      assert text[p..offset][1] == text[p + 1];
      var r := Located(text, p);
      LocatedAtNearest(text, offset, p);
      r
  }

  /** The backward loop from the cursor stops at the nearest `<`, if any. */
  lemma NearestIsBack(text: string, offset: nat)
    requires offset <= |text|
    ensures forall q: nat :: NearestLt(text, offset, q) ==> q == BackToLt(text, offset)
  {
  }

  /** Every nearest `<` is the one at `p`, so the element located there is
      the outcome for each of them. */
  lemma LocatedAtNearest(text: string, offset: nat, p: nat)
    requires offset <= |text|
    requires NearestLt(text, offset, p) && p + 2 <= offset && IsNameStart(text[p + 1])
    ensures forall q: nat :: NearestLt(text, offset, q) && q + 2 <= offset && IsNameStart(text[q + 1]) ==>
              ElementOutcome(text, q, Located(text, p))
  {
    forall q: nat | NearestLt(text, offset, q) ensures q == p {
      NearestUnique(text, offset, p, q);
    }
  }

  /** The element starting at the `<` at `p`, once the tag-name start is known. */
  function Located(text: string, p: nat): (r: Option<Span>)
    requires p + 1 < |text| && text[p] == '<' && IsNameStart(text[p + 1])
    ensures ElementOutcome(text, p, r)
    ensures r.Some? ==> r.value.start == p && p < r.value.end <= |text|
  {
    var e := SelfClosingEnd(text, p);
    if e != -1 then
      Some(Span(p, e))
    else
      ContainerSpan(text, p)
  }

  /** The tag name the opening tag at `p` carries. */
  function TagAt(text: string, p: nat): (tag: string)
    requires p + 1 < |text| && text[p] == '<' && IsNameStart(text[p + 1])
    ensures IsTagName(tag)
  {
    MatchOpenTag(text[p..]).value
  }

  /** Where the forward scan starts: just past the opening tag's first `>`. */
  function ScanStart(text: string, p: nat): nat
    requires p + 1 < |text| && text[p] == '<' && IsNameStart(text[p + 1])
  {
    SkipPastGt(text, p + 1 + |TagAt(text, p)|)
  }

  /** The container element whose opening tag starts at `p`. */
  function ContainerSpan(text: string, p: nat): (r: Option<Span>)
    requires p + 1 < |text| && text[p] == '<' && IsNameStart(text[p + 1])
    ensures r.Some? ==> r.value.start == p && p < r.value.end <= |text|
    ensures r.Some? ==> ScanOutcome(text, TagAt(text, p), ScanStart(text, p), 1, Some(r.value.end))
    ensures r.None? ==> ScanOutcome(text, TagAt(text, p), ScanStart(text, p), 1, None)
  {
    var sc := Scan(text, TagAt(text, p), ScanStart(text, p), 1);
    ScanMeetsOutcome(text, TagAt(text, p), ScanStart(text, p), 1);
    match sc
    case None => None
    case Some(end) => Some(Span(p, end))
  }
}

=== FILE: optional.dfy ===
/** The "value or nothing" result used wherever the extension returns `null`
    or `undefined` for "no applicable element here". */
module Optional {

  datatype Option<+T> = None | Some(value: T) {

    /** Returns the wrapped value, or `default` when there is none. */
    function GetOr(default: T): T {
      match this
      case Some(v) => v
      case None => default
    }
  }
}

=== FILE: reindent.dfy ===
/** Wrapping a selection in a new element: the indentation helpers and
    `wrapContent`, with the line map it shares with the custom-element
    action. */
module Reindent {
  import opened Optional
  import opened Text
  import opened Tags
  import opened Classifier

  /** `getIndentation`: what `/^(\s*)/` captures, i.e. the longest
      all-whitespace prefix of the line. */
  function GetIndentation(line: string): (r: string)
    ensures StartsWith(line, r) && AllWs(r)
    ensures forall n :: |r| < n <= |line| ==> !AllWs(line[..n])
  {
    var r := line[..LeadingWsLen(line)];
    forall n | |r| < n <= |line| ensures !AllWs(line[..n]) {
      assert line[..n][|r|] == line[|r|];
    }
    r
  }

  /** `getTabSize`: one indentation level, `tabSize` spaces when the editor
      inserts spaces and a single tab otherwise. */
  function IndentUnit(insertSpaces: bool, tabSize: nat): (r: string)
    ensures insertSpaces ==> |r| == tabSize && forall i :: 0 <= i < |r| ==> r[i] == ' '
    ensures !insertSpaces ==> r == "\t"
    ensures AllWs(r)
  {
    if insertSpaces then Repeat(' ', tabSize) else "\t"
  }

  /** The per-line callback of the wrap re-indent, with both of its
      branches: the first line is re-indented when it is not blank, and any
      other line when it is not empty. */
  function ReindentLine(line: string, i: nat, childIndent: string): string {
    if i == 0 && Trim(line) != "" then childIndent + TrimStart(line)
    else if line != "" then childIndent + TrimStart(line)
    else line
  }

  /** The two branches collapse: a line is kept when empty and otherwise
      loses its leading whitespace and gains `childIndent`, whatever its
      position. */
  function ReindentLines(lines: seq<string>, childIndent: string): (r: seq<string>)
    ensures |r| == |lines|
    ensures forall i :: 0 <= i < |lines| ==>
      r[i] == if lines[i] == "" then "" else childIndent + TrimStart(lines[i])
  {
    seq(|lines|, i requires 0 <= i < |lines| => ReindentLine(lines[i], i, childIndent))
  }

  /** The selection's lines, re-indented and joined back together. */
  function ReindentContent(content: string, childIndent: string): string {
    Join(ReindentLines(Split(content, '\n'), childIndent), "\n")
  }

  /** The attribute text: a space and the attributes when they are present
      and non-empty (an empty string is falsy), nothing otherwise. */
  function Attrs(attributes: Option<string>): (r: string)
    ensures r == "" || (r[0] == ' ' && attributes.Some? && r[1..] == attributes.value)
    ensures attributes.Some? && attributes.value != "" ==> r != ""
    ensures attributes.None? || attributes.value == "" ==> r == ""
  {
    match attributes
    case Some(a) => if a != "" then " " + a else ""
    case None => ""
  }

  /** The opening tag the wrapper writes. */
  function OpenTagText(name: string, attributes: Option<string>): string {
    "<" + name + Attrs(attributes) + ">"
  }

  /** `wrapContent`. Both branches on `selfClosing` build the same text:
      the opening-tag line, the re-indented content and the closing-tag
      line. */
  function WrapContent(content: string, name: string, indent: string, childIndent: string,
                       attributes: Option<string>, selfClosing: Option<bool>): (r: string)
    ensures StartsWith(r, indent + OpenTagText(name, attributes) + "\n")
    ensures EndsWith(r, "\n" + indent + CloseTag(name))
    ensures |r| == |indent| + |indent| + |OpenTagText(name, attributes)| + |ReindentContent(content, childIndent)|
                   + |CloseTag(name)| + 2
  {
    var reindented := ReindentContent(content, childIndent);
    var openLine := indent + OpenTagText(name, attributes);
    var closeLine := indent + CloseTag(name);
    Framed(openLine, reindented, closeLine);
    assert "\n" + closeLine == "\n" + indent + CloseTag(name);
    openLine + "\n" + reindented + "\n" + closeLine
  }

  /** Between the opening-tag line and the closing-tag line, the wrapped
      text holds exactly the re-indented selection. */
  lemma WrapMiddle(content: string, name: string, indent: string, childIndent: string,
                   attributes: Option<string>, selfClosing: Option<bool>)
    ensures var r := WrapContent(content, name, indent, childIndent, attributes, selfClosing);
            var a := |indent| + |OpenTagText(name, attributes)| + 1;
            a <= |r| - |indent| - |CloseTag(name)| - 1
            && r[a..|r| - |indent| - |CloseTag(name)| - 1] == ReindentContent(content, childIndent)
  {
    Framed(indent + OpenTagText(name, attributes), ReindentContent(content, childIndent), indent + CloseTag(name));
  }

  /** Three lines joined by line feeds start with the first line and its
      line feed, end with a line feed and the last line, and hold the
      middle one between those. */
  lemma Framed(first: string, body: string, last: string)
    ensures var r := first + "\n" + body + "\n" + last;
            && StartsWith(r, first + "\n")
            && EndsWith(r, "\n" + last)
            && |r| == |first| + |body| + |last| + 2
            && r[|first| + 1..|first| + 1 + |body|] == body
  {
    var r := first + "\n" + body + "\n" + last;
    assert r[..|first| + 1] == first + "\n";
    assert r[|r| - |last| - 1..] == "\n" + last;
    assert r[|first| + 1..|first| + 1 + |body|] == body;
  }

  /** A suffix of a newline-free string is newline-free. */
  lemma TrimStartNoNewline(line: string)
    requires '\n' !in line
    ensures '\n' !in TrimStart(line)
  {
    var r := TrimStart(line);
    forall k | 0 <= k < |r| ensures r[k] != '\n' {
      assert r[k] == line[|line| - |r| + k];
    }
  }

  /** Re-indenting newline-free lines with a newline-free indent yields
      newline-free lines. */
  lemma ReindentLinesNoNewline(lines: seq<string>, childIndent: string)
    requires forall i :: 0 <= i < |lines| ==> '\n' !in lines[i]
    requires '\n' !in childIndent
    ensures forall i :: 0 <= i < |lines| ==> '\n' !in ReindentLines(lines, childIndent)[i]
  {
    forall i | 0 <= i < |lines| ensures '\n' !in ReindentLines(lines, childIndent)[i] {
      TrimStartNoNewline(lines[i]);
    }
  }

  /** The re-indented content has exactly the selection's lines, each
      re-indented. */
  lemma ReindentContentLines(content: string, childIndent: string)
    requires '\n' !in childIndent
    ensures Split(ReindentContent(content, childIndent), '\n') == ReindentLines(Split(content, '\n'), childIndent)
  {
    var lines := Split(content, '\n');
    ReindentLinesNoNewline(lines, childIndent);
    SplitJoin(ReindentLines(lines, childIndent), '\n');
  }

  /** The wrapped text is the opening-tag line, the re-indented content and
      the closing-tag line, joined by newlines. */
  lemma WrapShape(content: string, name: string, indent: string, childIndent: string,
                  attributes: Option<string>, selfClosing: Option<bool>)
    ensures WrapContent(content, name, indent, childIndent, attributes, selfClosing)
            == (indent + OpenTagText(name, attributes)) + "\n" + ReindentContent(content, childIndent)
               + "\n" + (indent + CloseTag(name))
  {
  }

  /** Line structure of the wrapped text: the opening-tag line, one line per
      line of the selection, and the closing-tag line. The `selfClosing`
      flag changes nothing. */
  lemma WrapLines(content: string, name: string, indent: string, childIndent: string,
                  attributes: Option<string>, selfClosing: Option<bool>)
    requires '\n' !in indent && '\n' !in name && '\n' !in childIndent
    requires attributes.Some? ==> '\n' !in attributes.value
    ensures Split(WrapContent(content, name, indent, childIndent, attributes, selfClosing), '\n')
            == [indent + OpenTagText(name, attributes)]
               + ReindentLines(Split(content, '\n'), childIndent)
               + [indent + CloseTag(name)]
    ensures WrapContent(content, name, indent, childIndent, attributes, selfClosing)
            == WrapContent(content, name, indent, childIndent, attributes, None)
  {
    var head := indent + OpenTagText(name, attributes);
    var tail := indent + CloseTag(name);
    var body := ReindentContent(content, childIndent);
    WrapShape(content, name, indent, childIndent, attributes, selfClosing);
    WrapShape(content, name, indent, childIndent, attributes, None);
    TagLinesFree(name, indent, attributes);
    SplitLines3(head, body, tail, '\n');
    ReindentContentLines(content, childIndent);
  }

  /** The opening-tag and closing-tag lines hold no line feed when the
      indent, the name and the attributes hold none. */
  lemma TagLinesFree(name: string, indent: string, attributes: Option<string>)
    requires '\n' !in indent && '\n' !in name
    requires attributes.Some? ==> '\n' !in attributes.value
    ensures '\n' !in indent + OpenTagText(name, attributes)
    ensures '\n' !in indent + CloseTag(name)
  {
    assert '\n' !in Attrs(attributes);
    assert indent + OpenTagText(name, attributes) == indent + "<" + name + Attrs(attributes) + ">";
    assert indent + CloseTag(name) == indent + "</" + name + ">";
  }

  /** A re-indented line is blank exactly when the original line is. */
  lemma ReindentLineBlank(line: string, childIndent: string)
    requires AllWs(childIndent)
    ensures AllWs(if line == "" then "" else childIndent + TrimStart(line)) <==> AllWs(line)
  {
    if line != "" {
      var t := TrimStart(line);
      assert line == line[..|line| - |t|] + t;
      AllWsConcat(line[..|line| - |t|], t);
      AllWsConcat(childIndent, t);
    }
  }

  /** The re-indented content is blank exactly when the selection is. */
  lemma ReindentContentBlank(content: string, childIndent: string)
    requires AllWs(childIndent)
    ensures AllWs(ReindentContent(content, childIndent)) <==> AllWs(content)
  {
    var lines := Split(content, '\n');
    var out := ReindentLines(lines, childIndent);
    JoinSplit(content, '\n');
    AllWsJoin(lines, "\n");
    AllWsJoin(out, "\n");
    forall i | 0 <= i < |lines| ensures AllWs(out[i]) <==> AllWs(lines[i]) {
      ReindentLineBlank(lines[i], childIndent);
    }
  }

  /** The wrapped element without its leading indentation. */
  function Element(content: string, name: string, indent: string, childIndent: string,
                   attributes: Option<string>): string
  {
    OpenTagText(name, attributes) + "\n" + ReindentContent(content, childIndent) + "\n" + indent + CloseTag(name)
  }

  /** Trimming the wrapped text removes exactly the leading indentation. */
  lemma WrapTrim(content: string, name: string, indent: string, childIndent: string,
                 attributes: Option<string>, selfClosing: Option<bool>)
    requires AllWs(indent)
    ensures Trim(WrapContent(content, name, indent, childIndent, attributes, selfClosing))
            == Element(content, name, indent, childIndent, attributes)
  {
    var o := OpenTagText(name, attributes);
    var c := CloseTag(name);
    var b := Element(content, name, indent, childIndent, attributes);
    WrapShape(content, name, indent, childIndent, attributes, selfClosing);
    RegroupLines(indent, o, ReindentContent(content, childIndent), c);
    assert b[0] == o[0] == '<';
    assert b[|b| - 1] == c[|c| - 1] == '>';
    TrimPadded(indent, b, "");
  }

  /** Moving the leading indentation of the opening line out front. */
  lemma RegroupLines(indent: string, o: string, body: string, c: string)
    ensures (indent + o) + "\n" + body + "\n" + (indent + c) == indent + (o + "\n" + body + "\n" + indent + c) + ""
  {
  }

  /** The classifier reads a wrapped selection back as a container element
      named after the wrapper. */
  lemma WrapThenParse(content: string, name: string, indent: string, childIndent: string,
                      attributes: Option<string>, selfClosing: Option<bool>)
    requires IsTagName(name) && AllWs(indent)
    ensures var p := Parse(WrapContent(content, name, indent, childIndent, attributes, selfClosing));
            p.Some? && p.value.tagName == name && !p.value.isSelfClosing
  {
    var r := WrapContent(content, name, indent, childIndent, attributes, selfClosing);
    var b := Element(content, name, indent, childIndent, attributes);
    var rest := "\n" + ReindentContent(content, childIndent) + "\n" + indent + CloseTag(name);
    WrapTrim(content, name, indent, childIndent, attributes, selfClosing);
    ElementParts(content, name, indent, childIndent, attributes);
    BuiltOpening(b, name, attributes, rest);
    ParseContainer(r, name);
  }

  /** When neither the name nor the attributes hold a `>`, the classifier
      reports children for a wrapped selection exactly when the selection
      holds something other than whitespace. */
  lemma WrapChildren(content: string, name: string, indent: string, childIndent: string,
                     attributes: Option<string>, selfClosing: Option<bool>)
    requires IsTagName(name) && AllWs(indent) && AllWs(childIndent)
    requires attributes.Some? ==> '>' !in attributes.value
    ensures var p := Parse(WrapContent(content, name, indent, childIndent, attributes, selfClosing));
            p.Some? && (p.value.hasChildren <==> !AllWs(content))
  {
    var b := Element(content, name, indent, childIndent, attributes);
    var rest := "\n" + ReindentContent(content, childIndent) + "\n" + indent + CloseTag(name);
    WrapThenParse(content, name, indent, childIndent, attributes, selfClosing);
    WrapTrim(content, name, indent, childIndent, attributes, selfClosing);
    ElementParts(content, name, indent, childIndent, attributes);
    BuiltOpeningEnd(b, name, attributes, rest);
    ElementChildren(content, name, indent, childIndent, attributes);
    ContainerChildren(WrapContent(content, name, indent, childIndent, attributes, selfClosing));
  }

  /** The element is its opening tag, the rest, and ends with the closing tag. */
  lemma ElementParts(content: string, name: string, indent: string, childIndent: string,
                     attributes: Option<string>)
    ensures var b := Element(content, name, indent, childIndent, attributes);
            && b == OpenTagText(name, attributes) + ("\n" + ReindentContent(content, childIndent) + "\n" + indent + CloseTag(name))
            && EndsWith(b, CloseTag(name))
  {
    FramedParts(OpenTagText(name, attributes), ReindentContent(content, childIndent), indent, CloseTag(name));
  }

  lemma FramedParts(o: string, body: string, indent: string, c: string)
    ensures var b := o + "\n" + body + "\n" + indent + c;
            b == o + ("\n" + body + "\n" + indent + c) && EndsWith(b, c)
  {
    var b := o + "\n" + body + "\n" + indent + c;
    assert b[|b| - |c|..] == c;
  }

  /** Between the opening tag and the closing tag of the element lie the
      re-indented content and whitespace; it is blank exactly when the
      selection is. */
  lemma ElementChildren(content: string, name: string, indent: string, childIndent: string,
                        attributes: Option<string>)
    requires AllWs(indent) && AllWs(childIndent)
    requires OpenTagEnd(Element(content, name, indent, childIndent, attributes)) == |OpenTagText(name, attributes)|
    ensures var b := Element(content, name, indent, childIndent, attributes);
            var a := OpenTagEnd(b);
            var e := |b| - |CloseTag(name)|;
            a <= e && ((exists k :: a <= k < e && !IsWs(b[k])) <==> !AllWs(content))
  {
    MidBlank(OpenTagText(name, attributes), ReindentContent(content, childIndent), indent, CloseTag(name));
    ReindentContentBlank(content, childIndent);
  }

  /** In `open + "\n" + body + "\n" + indent + close` with a whitespace
      `indent`, the text between `open` and `close` is blank exactly when
      `body` is. */
  lemma MidBlank(open: string, body: string, indent: string, close: string)
    requires AllWs(indent)
    ensures var b := open + "\n" + body + "\n" + indent + close;
            var a := |open|;
            var e := |b| - |close|;
            a <= e && ((exists k :: a <= k < e && !IsWs(b[k])) <==> !AllWs(body))
  {
    var b := open + "\n" + body + "\n" + indent + close;
    var a := |open|;
    var e := |b| - |close|;
    forall j | a + 2 + |body| <= j < e ensures IsWs(b[j]) {
      assert b[j] == indent[j - a - 2 - |body|];
    }
    if exists k :: a <= k < e && !IsWs(b[k]) {
      var k :| a <= k < e && !IsWs(b[k]);
      assert b[k] == body[k - a - 1];
    }
    if !AllWs(body) {
      var k :| 0 <= k < |body| && !IsWs(body[k]);
      assert b[a + 1 + k] == body[k];
    }
  }

  /** Text that begins with the written opening tag opens with its name. */
  lemma BuiltOpening(b: string, name: string, attributes: Option<string>, rest: string)
    requires IsTagName(name) && b == OpenTagText(name, attributes) + rest
    ensures OpensWith(b, name)
  {
    assert b == "<" + name + (Attrs(attributes) + ">" + rest);
    assert b[..1 + |name|] == "<" + name;
    assert b[1 + |name|] == (Attrs(attributes) + ">")[0];
  }

  /** Without a `>` in the attributes the first `>` closes the opening tag. */
  lemma BuiltOpeningEnd(b: string, name: string, attributes: Option<string>, rest: string)
    requires IsTagName(name) && b == OpenTagText(name, attributes) + rest
    requires attributes.Some? ==> '>' !in attributes.value
    ensures OpenTagEnd(b) == |OpenTagText(name, attributes)|
  {
    var open := OpenTagText(name, attributes);
    var g := |open| - 1;
    IndexOfSpec(b, ">", 0);
    assert b[g] == '>';
    OccursChar(b, '>', g);
    forall j | 0 <= j < g ensures !Occurs(b, ">", j) {
      OccursChar(b, '>', j);
      assert b[j] == open[j];
      if j > |name| {
        assert open[j] == Attrs(attributes)[j - 1 - |name|];
      }
    }
  }

  /** The attributes of the `Pressable` and `TouchableOpacity` defaults,
      and of React's `button`, keep the `>` of their arrow function inside
      braces. */
  lemma ArrowAttributesShielded()
    ensures Shielded("onPress={() => {}}")
    ensures Shielded("onClick={() => {}}")
  {
    var press, click := "onPress=", "onClick=";
    assert forall k :: 0 <= k < |press| ==> press[k] != '{' && press[k] != '}' && press[k] != '>';
    assert forall k :: 0 <= k < |click| ==> click[k] != '{' && click[k] != '}' && click[k] != '>';
    ArrowShielded(press);
    ArrowShielded(click);
    assert press + "{() => {}}" == "onPress={() => {}}";
    assert click + "{() => {}}" == "onClick={() => {}}";
  }

  /** One character of the scan. */
  lemma ScanChar(c: char, d: nat)
    ensures TopGt([c], d) == (if c == '>' && d == 0 then 0 else -1)
    ensures DepthAfter([c], d) == BraceStep(d, c)
  {
    assert [c][1..] == [];
  }

  /** `key` followed by an arrow-function expression `{() => {}}`. */
  lemma ArrowShielded(key: string)
    requires forall k :: 0 <= k < |key| ==> key[k] != '{' && key[k] != '}' && key[k] != '>'
    ensures Shielded(key + "{() => {}}")
  {
    ArrowExpressionShielded();
    BraceFree(key, 0);
    TopGtConcat(key, "{() => {}}", 0);
  }

  /** The arrow-function expression `{() => {}}` opens and closes its
      braces, with its `>` inside them. The scan is followed backwards over
      the suffixes, each at the depth the scan has reached there. */
  lemma ArrowExpressionShielded()
    ensures Shielded("{() => {}}")
  {
    var e := "{() => {}}";
    assert |e| == 10;
    assert TopGt(e[10..], 0) == -1 && DepthAfter(e[10..], 0) == 0;
    assert e[9] == '}' && e[9..][1..] == e[10..];
    assert TopGt(e[9..], 1) == -1 && DepthAfter(e[9..], 1) == 0;
    assert e[8] == '}' && e[8..][1..] == e[9..];
    assert TopGt(e[8..], 2) == -1 && DepthAfter(e[8..], 2) == 0;
    assert e[7] == '{' && e[7..][1..] == e[8..];
    assert TopGt(e[7..], 1) == -1 && DepthAfter(e[7..], 1) == 0;
    forall i | 1 <= i <= 6
      ensures e[i] != '{' && e[i] != '}' && e[i..][1..] == e[i + 1..]
    {
    }
    assert TopGt(e[6..], 1) == -1 && DepthAfter(e[6..], 1) == 0;
    assert TopGt(e[5..], 1) == -1 && DepthAfter(e[5..], 1) == 0;
    assert TopGt(e[4..], 1) == -1 && DepthAfter(e[4..], 1) == 0;
    assert TopGt(e[3..], 1) == -1 && DepthAfter(e[3..], 1) == 0;
    assert TopGt(e[2..], 1) == -1 && DepthAfter(e[2..], 1) == 0;
    assert TopGt(e[1..], 1) == -1 && DepthAfter(e[1..], 1) == 0;
    assert e[0] == '{';
  }

  /** With the opening tag's end found outside attribute braces, the end
      falls right after the opening tag the wrapper wrote, whatever `>` the
      shielded attributes hold. */
  lemma BracedEndOfElement(content: string, name: string, indent: string, childIndent: string,
                           attributes: Option<string>)
    requires IsTagName(name)
    requires attributes.Some? && attributes.value != "" ==> Shielded(attributes.value)
    ensures BracedOpenTagEnd(Element(content, name, indent, childIndent, attributes))
            == |OpenTagText(name, attributes)|
  {
    var head := "<" + name + Attrs(attributes);
    var x := "\n" + ReindentContent(content, childIndent) + "\n" + indent + CloseTag(name);
    OpeningHeadScan(name, attributes);
    assert TopGt(">" + x, 0) == 0;
    TopGtConcat(head, ">" + x, 0);
    ElementParts(content, name, indent, childIndent, attributes);
    ConcatAssoc(head, ">", x);
  }

  /** The opening tag up to its `>` holds no `>` outside braces and leaves
      every brace closed. */
  lemma OpeningHeadScan(name: string, attributes: Option<string>)
    requires IsTagName(name)
    requires attributes.Some? && attributes.value != "" ==> Shielded(attributes.value)
    ensures TopGt("<" + name + Attrs(attributes), 0) == -1
    ensures DepthAfter("<" + name + Attrs(attributes), 0) == 0
  {
    var head := "<" + name;
    forall k | 1 <= k < |head| ensures head[k] != '>' && head[k] != '{' && head[k] != '}' {
      assert head[k] == name[k - 1];
      assert IsNameChar(name[k - 1]);
    }
    BraceFree(head, 0);
    AttrsScan(attributes);
    TopGtConcat(head, Attrs(attributes), 0);
  }

  /** The attribute text keeps the scan outside braces. */
  lemma AttrsScan(attributes: Option<string>)
    requires attributes.Some? && attributes.value != "" ==> Shielded(attributes.value)
    ensures TopGt(Attrs(attributes), 0) == -1 && DepthAfter(Attrs(attributes), 0) == 0
  {
    if Attrs(attributes) != "" {
      ScanChar(' ', 0);
      TopGtConcat(" ", attributes.value, 0);
    }
  }

  /** With the corrected end, the children test of a wrapped selection
      reads exactly the line break, the re-indented selection, the line
      break and the indentation before the closing tag. */
  lemma BracedChildrenOfElement(content: string, name: string, indent: string, childIndent: string,
                                attributes: Option<string>)
    requires IsTagName(name)
    requires attributes.Some? && attributes.value != "" ==> Shielded(attributes.value)
    ensures var b := Element(content, name, indent, childIndent, attributes);
            var a := BracedOpenTagEnd(b);
            && a <= |b| - |CloseTag(name)|
            && b[a..|b| - |CloseTag(name)|] == "\n" + ReindentContent(content, childIndent) + "\n" + indent
  {
    BracedEndOfElement(content, name, indent, childIndent, attributes);
    ElementParts(content, name, indent, childIndent, attributes);
    MiddleOf(OpenTagText(name, attributes), "\n" + ReindentContent(content, childIndent) + "\n" + indent,
             CloseTag(name));
  }

  /** What lies between the first and the last part of a concatenation. */
  lemma MiddleOf(o: string, m: string, c: string)
    ensures var b := o + (m + c);
            |b| - |c| == |o| + |m| && b[|o|..|b| - |c|] == m
  {
    var b := o + (m + c);
    assert b[|o|..|b| - |c|] == (m + c)[..|m|];
  }

  /** With the corrected end of the opening tag, the classifier reports
      children for a wrapped selection exactly when the selection is not
      blank, whatever `>` the shielded attributes hold. */
  lemma BracedWrapChildren(content: string, name: string, indent: string, childIndent: string,
                           attributes: Option<string>, selfClosing: Option<bool>)
    requires IsTagName(name) && AllWs(indent) && AllWs(childIndent)
    requires attributes.Some? && attributes.value != "" ==> Shielded(attributes.value)
    ensures var t := Trim(WrapContent(content, name, indent, childIndent, attributes, selfClosing));
            EndsWith(t, CloseTag(name)) && (BracedHasChildren(t, name) <==> !AllWs(content))
  {
    WrapTrim(content, name, indent, childIndent, attributes, selfClosing);
    ElementParts(content, name, indent, childIndent, attributes);
    BracedEndOfElement(content, name, indent, childIndent, attributes);
    MidBlank(OpenTagText(name, attributes), ReindentContent(content, childIndent), indent, CloseTag(name));
    ReindentContentBlank(content, childIndent);
  }

  /** The quoted attribute defaults hold no brace and no `>`. */
  lemma QuotedAttributesShielded()
    ensures Shielded("className=\"\"") && Shielded("onclick=\"\"")
  {
    ClassNameShielded();
    OnclickShielded();
  }

  lemma ClassNameShielded()
    ensures Shielded("className=\"\"")
  {
    var a := "className=\"\"";
    assert forall k :: 0 <= k < |a| ==> a[k] != '{' && a[k] != '}' && a[k] != '>';
    BraceFree(a, 0);
  }

  lemma OnclickShielded()
    ensures Shielded("onclick=\"\"")
  {
    var a := "onclick=\"\"";
    assert forall k :: 0 <= k < |a| ==> a[k] != '{' && a[k] != '}' && a[k] != '>';
    BraceFree(a, 0);
  }
}

=== FILE: tags.dfy ===
/** The tag-name pattern `[a-zA-Z_$][\w.$]*` the extension uses to recognise
    the start of an element, and the closing tag `</name>` built from it. */
module Tags {
  import opened Optional
  import opened Text

  /** `[a-zA-Z_$]`: a character that may begin a tag name. */
  predicate IsNameStart(c: char) {
    ('a' <= c <= 'z') || ('A' <= c <= 'Z') || c == '_' || c == '$'
  }

  /** `[\w.$]`: a character that may continue a tag name (dotted names allowed). */
  predicate IsNameChar(c: char) {
    IsNameStart(c) || ('0' <= c <= '9') || c == '.'
  }

  predicate IsTagName(n: string) {
    |n| >= 1 && IsNameStart(n[0]) && forall k :: 1 <= k < |n| ==> IsNameChar(n[k])
  }

  function CloseTag(name: string): string {
    "</" + name + ">"
  }

  /** End of the longest run of name characters of `s` starting at `i`. */
  function NameRunEnd(s: string, i: nat): (e: nat)
    requires i <= |s|
    ensures i <= e <= |s|
    ensures forall k :: i <= k < e ==> IsNameChar(s[k])
    ensures e < |s| ==> !IsNameChar(s[e])
    decreases |s| - i
  {
    if i < |s| && IsNameChar(s[i]) then NameRunEnd(s, i + 1) else i
  }

  /** `t` begins with `<name` and the name cannot be extended: `name` is what
      a greedy `^<([a-zA-Z_$][\w.$]*)` captures. */
  predicate OpensWith(t: string, name: string) {
    && IsTagName(name)
    && StartsWith(t, "<" + name)
    && (|t| == 1 + |name| || !IsNameChar(t[1 + |name|]))
  }

  /** `t.match(/^<([a-zA-Z_$][\w.$]*)/)`, returning the captured tag name. */
  function MatchOpenTag(t: string): (r: Option<string>)
    ensures r.Some? <==> |t| >= 2 && t[0] == '<' && IsNameStart(t[1])
    ensures r.Some? ==> OpensWith(t, r.value)
  {
    if |t| >= 2 && t[0] == '<' && IsNameStart(t[1]) then
      var e := NameRunEnd(t, 1);
      assert t[..1 + |t[1..e]|] == "<" + t[1..e];
      Some(t[1..e])
    else None
  }

  /** The captured name is the only one `t` opens with. */
  lemma OpenTagUnique(t: string, name: string)
    requires OpensWith(t, name)
    ensures MatchOpenTag(t) == Some(name)
  {
    assert t[1] == ("<" + name)[1] == name[0];
    var n' := MatchOpenTag(t).value;
    assert |n'| == |name|;
    assert n' == t[1..1 + |name|] == name;
  }
}

=== FILE: text.dfy ===
/** The JavaScript string primitives the extension relies on (`trim`,
    `trimStart`, `split`, `join`, `indexOf`, `lastIndexOf`, `substring`,
    `startsWith`, `endsWith`), written over `string` = `seq<char>`. Indices
    that JavaScript lets go negative (`indexOf` returning -1) stay `int`. */
module Text {

  /** The characters JavaScript's `\s` matches and `String.prototype.trim`
      removes (WhiteSpace and LineTerminator). */
  predicate IsWs(c: char) {
    || c == ' ' || c == '\t' || c == '\n' || c == '\r' || c == '\U{000B}' || c == '\U{000C}'
    || c == '\U{00A0}' || c == '\U{1680}' || ('\U{2000}' <= c <= '\U{200A}')
    || c == '\U{2028}' || c == '\U{2029}' || c == '\U{202F}' || c == '\U{205F}'
    || c == '\U{3000}' || c == '\U{FEFF}'
  }

  predicate AllWs(s: string) {
    forall i :: 0 <= i < |s| ==> IsWs(s[i])
  }

  predicate StartsWith(s: string, prefix: string) {
    |prefix| <= |s| && s[..|prefix|] == prefix
  }

  predicate EndsWith(s: string, suffix: string) {
    |suffix| <= |s| && s[|s| - |suffix|..] == suffix
  }

  /** `pat` occurs in `s` starting at index `i`. */
  predicate Occurs(s: string, pat: string, i: int) {
    0 <= i && i + |pat| <= |s| && s[i..i + |pat|] == pat
  }

  /** A one-character pattern occurs exactly where that character is. */
  lemma OccursChar(s: string, c: char, i: int)
    requires 0 <= i < |s|
    ensures Occurs(s, [c], i) <==> s[i] == c
  {
    assert s[i..i + 1] == [s[i]];
  }

  /** JavaScript's clamping of a position argument into `[0, n]`. */
  function Clamp(x: int, n: nat): (r: nat)
    ensures r <= n
    ensures 0 <= x <= n ==> r == x
  {
    if x < 0 then 0 else if x > n then n else x
  }

  /** Length of the longest all-whitespace prefix of `s`. */
  function LeadingWsLen(s: string): (n: nat)
    ensures n <= |s|
    ensures AllWs(s[..n])
    ensures n < |s| ==> !IsWs(s[n])
  {
    if |s| == 0 || !IsWs(s[0]) then 0
    else
      var n := 1 + LeadingWsLen(s[1..]);
      assert s[..n] == [s[0]] + s[1..][..n - 1];
      n
  }

  /** Start of the longest all-whitespace suffix of `s`. */
  function TrailingWsStart(s: string): (t: nat)
    ensures t <= |s|
    ensures AllWs(s[t..])
    ensures t > 0 ==> !IsWs(s[t - 1])
  {
    if |s| == 0 || !IsWs(s[|s| - 1]) then |s|
    else
      var t := TrailingWsStart(s[..|s| - 1]);
      assert s[t..] == s[..|s| - 1][t..] + [s[|s| - 1]];
      t
  }

  /** `String.prototype.trimStart`. */
  function TrimStart(s: string): (r: string)
    ensures |r| <= |s| && r == s[|s| - |r|..]
    ensures AllWs(s[..|s| - |r|])
    ensures r == [] || !IsWs(r[0])
  {
    s[LeadingWsLen(s)..]
  }

  /** `String.prototype.trim`: `s` is some whitespace, then `r`, then some
      whitespace, and `r` neither starts nor ends with whitespace. */
  function Trim(s: string): (r: string)
    ensures var k := LeadingWsLen(s); k + |r| <= |s| && r == s[k..k + |r|]
    ensures AllWs(s[..LeadingWsLen(s)]) && AllWs(s[LeadingWsLen(s) + |r|..])
    ensures r == [] || (!IsWs(r[0]) && !IsWs(r[|r| - 1]))
    ensures r == [] <==> AllWs(s)
  {
    var k := LeadingWsLen(s);
    var u := s[k..];
    var t := TrailingWsStart(u);
    assert s[k + t..] == u[t..];
    if t == 0 then
      assert k == |s|;
      assert s == s[..k];
      u[..t]
    else
      assert !IsWs(s[k + t - 1]);
      u[..t]
  }

  /** First index of character `c` in `s`, or `|s|` when `c` does not occur. */
  function IndexOfChar(s: string, c: char): (i: nat)
    ensures i <= |s|
    ensures i < |s| ==> s[i] == c
    ensures c !in s[..i]
  {
    if |s| == 0 then 0
    else if s[0] == c then 0
    else
      var i := 1 + IndexOfChar(s[1..], c);
      assert s[..i] == [s[0]] + s[1..][..i - 1];
      i
  }

  /** `String.prototype.split` with a one-character separator. */
  function Split(s: string, sep: char): (parts: seq<string>)
    ensures |parts| >= 1
    ensures forall i :: 0 <= i < |parts| ==> sep !in parts[i]
    decreases |s|
  {
    var i := IndexOfChar(s, sep);
    if i == |s| then
      assert s[..i] == s;
      [s]
    else [s[..i]] + Split(s[i + 1..], sep)
  }

  /** `Array.prototype.join` with separator `sep`. */
  function Join(parts: seq<string>, sep: string): string {
    if |parts| == 0 then ""
    else if |parts| == 1 then parts[0]
    else parts[0] + sep + Join(parts[1..], sep)
  }

  /** Joining the pieces of a split gives back the text. */
  lemma {:induction false} JoinSplit(s: string, sep: char)
    ensures Join(Split(s, sep), [sep]) == s
    decreases |s|
  {
    var i := IndexOfChar(s, sep);
    if i == |s| {
      assert s[..i] == s;
      assert Split(s, sep) == [s];
    } else {
      var rest := Split(s[i + 1..], sep);
      assert Split(s, sep) == [s[..i]] + rest;
      JoinSplit(s[i + 1..], sep);
      JoinCons(s[..i], rest, [sep]);
      assert s == s[..i] + [sep] + s[i + 1..];
    }
  }

  /** Joining a non-empty tail after a head puts one separator between them. */
  lemma JoinCons(head: string, tail: seq<string>, sep: string)
    requires |tail| >= 1
    ensures Join([head] + tail, sep) == head + sep + Join(tail, sep)
  {
    assert ([head] + tail)[1..] == tail;
  }

  /** Splitting a join of separator-free pieces gives back the pieces. */
  lemma {:induction false} SplitJoin(parts: seq<string>, sep: char)
    requires |parts| >= 1
    requires forall i :: 0 <= i < |parts| ==> sep !in parts[i]
    ensures Split(Join(parts, [sep]), sep) == parts
    decreases |parts|
  {
    if |parts| == 1 {
      SplitFree(parts[0], sep);
    } else {
      var rest := Join(parts[1..], [sep]);
      assert Join(parts, [sep]) == parts[0] + [sep] + rest;
      SplitCons(parts[0], rest, sep);
      SplitJoin(parts[1..], sep);
      assert parts == [parts[0]] + parts[1..];
    }
  }

  /** A separator-free first piece splits off on its own. */
  lemma SplitCons(p: string, rest: string, sep: char)
    requires sep !in p
    ensures Split(p + [sep] + rest, sep) == [p] + Split(rest, sep)
  {
    var s := p + [sep] + rest;
    assert s == p + ([sep] + rest);
    IndexOfAfterFree(p, [sep] + rest, sep);
    assert s[..|p|] == p;
    assert s[|p| + 1..] == rest;
  }

  /** If `a` has no `c` and `b` starts with `c`, the first `c` of `a + b` is at `|a|`. */
  lemma {:induction false} IndexOfAfterFree(a: string, b: string, c: char)
    requires c !in a
    requires |b| > 0 && b[0] == c
    ensures IndexOfChar(a + b, c) == |a|
    decreases |a|
  {
    if |a| > 0 {
      assert (a + b)[1..] == a[1..] + b;
      IndexOfAfterFree(a[1..], b, c);
    }
  }

  /** `s.indexOf(pat, from)`: the search from the clamped `from`, one
      position at a time, giving -1 when it runs off the end. What it finds
      is stated by `IndexOfSpec`. */
  function IndexOf(s: string, pat: string, from: int): (r: int)
    ensures r == -1 || (Clamp(from, |s|) <= r && r + |pat| <= |s|)
    decreases |s| - Clamp(from, |s|)
  {
    var k := Clamp(from, |s|);
    if k + |pat| > |s| then -1
    else if s[k..k + |pat|] == pat then k
    else IndexOf(s, pat, k + 1)
  }

  /** `indexOf` finds the first occurrence at or after the clamped `from`,
      and gives -1 only when there is none. */
  lemma {:induction false} IndexOfSpec(s: string, pat: string, from: int)
    ensures var r := IndexOf(s, pat, from);
            && (r == -1 || Occurs(s, pat, r))
            && forall j :: Clamp(from, |s|) <= j && (r == -1 || j < r) ==> !Occurs(s, pat, j)
    decreases |s| - Clamp(from, |s|)
  {
    var k := Clamp(from, |s|);
    if k + |pat| > |s| {
      assert IndexOf(s, pat, from) == -1;
    } else if s[k..k + |pat|] == pat {
      assert IndexOf(s, pat, from) == k;
    } else {
      assert IndexOf(s, pat, from) == IndexOf(s, pat, k + 1);
      assert Clamp(k + 1, |s|) == k + 1;
      IndexOfSpec(s, pat, k + 1);
      assert !Occurs(s, pat, k);
    }
  }

  /** `s.lastIndexOf(pat)`: the last occurrence, or -1. */
  function LastIndexOf(s: string, pat: string): (r: int)
    ensures r == -1 || Occurs(s, pat, r)
    ensures forall j :: r < j ==> !Occurs(s, pat, j)
  {
    LastIndexAtOrBefore(s, pat, |s| - |pat|)
  }

  /** A suffix's last occurrence is the suffix itself. */
  lemma LastIndexOfSuffix(s: string, pat: string)
    requires EndsWith(s, pat)
    ensures LastIndexOf(s, pat) == |s| - |pat|
  {
    assert Occurs(s, pat, |s| - |pat|);
  }

  function LastIndexAtOrBefore(s: string, pat: string, k: int): (r: int)
    requires k <= |s| - |pat|
    ensures r == -1 || (r <= k && Occurs(s, pat, r))
    ensures forall j :: r < j <= k ==> !Occurs(s, pat, j)
    decreases k + 1
  {
    if k < 0 then -1
    else if s[k..k + |pat|] == pat then k
    else LastIndexAtOrBefore(s, pat, k - 1)
  }

  /** `s.substring(a, b)`: both ends clamped into `[0, |s|]`, then swapped
      when the start lies past the end. */
  function Substring(s: string, a: int, b: int): (r: string)
    ensures var lo := if Clamp(a, |s|) <= Clamp(b, |s|) then Clamp(a, |s|) else Clamp(b, |s|);
            var hi := if Clamp(a, |s|) <= Clamp(b, |s|) then Clamp(b, |s|) else Clamp(a, |s|);
            r == s[lo..hi]
  {
    var x, y := Clamp(a, |s|), Clamp(b, |s|);
    if x <= y then s[x..y] else s[y..x]
  }

  /** `" ".repeat(n)`-style repetition of one character. */
  function Repeat(c: char, n: nat): (r: string)
    ensures |r| == n
    ensures forall i :: 0 <= i < n ==> r[i] == c
  {
    if n == 0 then "" else [c] + Repeat(c, n - 1)
  }

  /** The leading whitespace run is the only all-whitespace prefix followed
      by a non-whitespace character (or the end). */
  lemma LeadingWsLenUnique(s: string, n: nat)
    requires n <= |s| && AllWs(s[..n]) && (n < |s| ==> !IsWs(s[n]))
    ensures LeadingWsLen(s) == n
  {
    var k := LeadingWsLen(s);
    WsPrefixAt(s, n);
    WsPrefixAt(s, k);
  }

  /** Every all-whitespace prefix lies within the leading whitespace run. */
  lemma LeadingWsMaximal(s: string, n: nat)
    requires n <= |s| && AllWs(s[..n])
    ensures n <= LeadingWsLen(s)
  {
    WsPrefixAt(s, n);
  }

  /** An all-whitespace prefix, read index by index. */
  lemma WsPrefixAt(s: string, n: nat)
    requires n <= |s| && AllWs(s[..n])
    ensures forall j :: 0 <= j < n ==> IsWs(s[j])
  {
    forall j | 0 <= j < n ensures IsWs(s[j]) {
      assert s[..n][j] == s[j];
    }
  }

  /** An all-whitespace suffix, read index by index. */
  lemma WsSuffixAt(s: string, t: nat)
    requires t <= |s| && AllWs(s[t..])
    ensures forall j :: t <= j < |s| ==> IsWs(s[j])
  {
    forall j | t <= j < |s| ensures IsWs(s[j]) {
      assert s[t..][j - t] == s[j];
    }
  }

  /** The trailing whitespace run is the only all-whitespace suffix preceded
      by a non-whitespace character (or the start). */
  lemma TrailingWsStartUnique(s: string, t: nat)
    requires t <= |s| && AllWs(s[t..]) && (t > 0 ==> !IsWs(s[t - 1]))
    ensures TrailingWsStart(s) == t
  {
    var k := TrailingWsStart(s);
    WsSuffixAt(s, t);
    WsSuffixAt(s, k);
  }

  /** Every all-whitespace suffix lies within the trailing whitespace run. */
  lemma TrailingWsMaximal(s: string, t: nat)
    requires t <= |s| && AllWs(s[t..])
    ensures TrailingWsStart(s) <= t
  {
    WsSuffixAt(s, t);
  }

  /** Whitespace around a text that neither starts nor ends with whitespace
      is exactly what `trim` removes. */
  lemma TrimPadded(a: string, b: string, c: string)
    requires AllWs(a) && AllWs(c)
    requires |b| > 0 && !IsWs(b[0]) && !IsWs(b[|b| - 1])
    ensures Trim(a + b + c) == b
  {
    var s := a + b + c;
    assert s[..|a|] == a;
    assert s[|a|] == b[0];
    LeadingWsLenUnique(s, |a|);
    var r := Trim(s);
    assert r == s[|a|..|a| + |r|];
    assert s[|a| + |b| - 1] == b[|b| - 1];
    assert |r| == |b|;
    assert r == s[|a|..|a| + |b|] == b;
  }

  /** Splitting around a separator splits each side. */
  lemma {:induction false} SplitConcat(a: string, b: string, sep: char)
    ensures Split(a + [sep] + b, sep) == Split(a, sep) + Split(b, sep)
    decreases |a|
  {
    var i := IndexOfChar(a, sep);
    if i == |a| {
      assert a[..i] == a;
      SplitCons(a, b, sep);
      SplitFree(a, sep);
    } else {
      var p, q := a[..i], a[i + 1..];
      assert a == p + [sep] + q;
      SplitConcat(q, b, sep);
      SplitConcatStep(p, q, b, sep);
    }
  }

  /** The inductive step of `SplitConcat`, for a separator-free first piece. */
  lemma SplitConcatStep(p: string, q: string, b: string, sep: char)
    requires sep !in p
    requires Split(q + [sep] + b, sep) == Split(q, sep) + Split(b, sep)
    ensures Split(p + [sep] + q + [sep] + b, sep) == Split(p + [sep] + q, sep) + Split(b, sep)
  {
    var x := q + [sep] + b;
    Regroup(p, q, b, sep);
    SplitCons(p, x, sep);
    SplitCons(p, q, sep);
    ConcatAssoc([p], Split(q, sep), Split(b, sep));
  }

  lemma Regroup(p: string, q: string, b: string, sep: char)
    ensures p + [sep] + q + [sep] + b == p + [sep] + (q + [sep] + b)
  {
  }

  lemma ConcatAssoc<T>(a: seq<T>, b: seq<T>, c: seq<T>)
    ensures a + (b + c) == a + b + c
  {
  }

  /** A text without the separator splits into itself alone. */
  lemma SplitFree(s: string, sep: char)
    requires sep !in s
    ensures Split(s, sep) == [s]
  {
    assert IndexOfChar(s, sep) == |s|;
    assert s[..|s|] == s;
  }

  /** Splitting a text framed by two separator-free lines. */
  lemma SplitLines3(head: string, body: string, tail: string, sep: char)
    requires sep !in head && sep !in tail
    ensures Split(head + [sep] + body + [sep] + tail, sep) == [head] + Split(body, sep) + [tail]
  {
    var x := body + [sep] + tail;
    assert head + [sep] + body + [sep] + tail == head + [sep] + x;
    SplitConcat(head, x, sep);
    SplitConcat(body, tail, sep);
    SplitFree(head, sep);
    SplitFree(tail, sep);
  }

  lemma AllWsConcat(a: string, b: string)
    ensures AllWs(a + b) <==> AllWs(a) && AllWs(b)
  {
    if AllWs(a) && AllWs(b) {
      forall k | 0 <= k < |a + b| ensures IsWs((a + b)[k]) {
        if k >= |a| {
          assert (a + b)[k] == b[k - |a|];
        }
      }
    }
    if AllWs(a + b) {
      forall k | 0 <= k < |a| ensures IsWs(a[k]) {
        assert (a + b)[k] == a[k];
      }
      forall k | 0 <= k < |b| ensures IsWs(b[k]) {
        assert (a + b)[|a| + k] == b[k];
      }
    }
  }

  /** With a whitespace separator, a join is all whitespace exactly when
      every piece is. */
  lemma {:induction false} AllWsJoin(parts: seq<string>, sep: string)
    requires AllWs(sep)
    ensures AllWs(Join(parts, sep)) <==> forall i :: 0 <= i < |parts| ==> AllWs(parts[i])
    decreases |parts|
  {
    if |parts| > 1 {
      var rest := Join(parts[1..], sep);
      AllWsJoin(parts[1..], sep);
      AllWsConcat(parts[0], sep);
      AllWsConcat(parts[0] + sep, rest);
      assert forall i :: 1 <= i < |parts| ==> parts[i] == parts[1..][i - 1];
    }
  }

  /** A slice is all whitespace exactly when each index it covers is. */
  lemma AllWsSlice(s: string, lo: int, hi: int)
    requires 0 <= lo <= hi <= |s|
    ensures AllWs(s[lo..hi]) <==> forall k :: lo <= k < hi ==> IsWs(s[k])
  {
    if AllWs(s[lo..hi]) {
      forall k | lo <= k < hi ensures IsWs(s[k]) {
        assert s[lo..hi][k - lo] == s[k];
      }
    }
  }
}

=== FILE: unwrap.dfy ===
/** Removing an element: the edit `createUnwrapAction` makes, and the
    children text it keeps, with the two edge-stripping regular
    expressions and the dedent that follows them. */
module Unwrap {
  import opened Optional
  import opened Text
  import opened Tags
  import opened Classifier
  import opened Reindent

  // ---------------------------------------------------------------------
  // The edge strips
  // ---------------------------------------------------------------------

  /** The anchored `/^\s*\n/` can match the first `n` characters: they are
      all whitespace and the last of them is a line feed. */
  predicate LeadingBlankMatch(s: string, n: int) {
    1 <= n <= |s| && AllWs(s[..n]) && s[n - 1] == '\n'
  }

  /** `replace(/^\s*\n/, "")`. The greedy `\s*` backtracks from the end of
      the leading whitespace run to its last line feed, so the longest
      match is the one removed; without a match the text is unchanged. */
  function StripLeadingBlankLines(s: string): (r: string)
    ensures |r| <= |s| && r == s[|s| - |r|..]
    ensures r == s <==> forall n :: !LeadingBlankMatch(s, n)
    ensures r != s ==> LeadingBlankMatch(s, |s| - |r|)
    ensures forall n :: LeadingBlankMatch(s, n) ==> n <= |s| - |r|
  {
    var k := LeadingWsLen(s);
    var j := LastIndexOf(s[..k], "\n");
    LastNewlineInRun(s, k, j);
    if j == -1 then s else s[j + 1..]
  }

  /** The last line feed of the leading whitespace run ends the longest
      match of `/^\s*\n/`. */
  lemma LastNewlineInRun(s: string, k: nat, j: int)
    requires k == LeadingWsLen(s) && j == LastIndexOf(s[..k], "\n")
    ensures j == -1 ==> forall n :: !LeadingBlankMatch(s, n)
    ensures j != -1 ==> 0 <= j < k && LeadingBlankMatch(s, j + 1)
    ensures forall n :: LeadingBlankMatch(s, n) ==> n <= j + 1
  {
    forall n | LeadingBlankMatch(s, n) ensures n <= j + 1 {
      LeadingWsMaximal(s, n);
      assert s[..k][n - 1] == '\n';
      OccursChar(s[..k], '\n', n - 1);
    }
    if j != -1 {
      OccursChar(s[..k], '\n', j);
      WsPrefixAt(s, k);
      assert s[..j + 1][j] == '\n';
    }
  }

  /** The anchored `/\n\s*$/` can match from index `i`: a line feed
      followed only by whitespace up to the end. */
  predicate TrailingBlankMatch(s: string, i: int) {
    0 <= i < |s| && s[i] == '\n' && AllWs(s[i..])
  }

  /** `replace(/\n\s*$/, "")`. The leftmost match wins: the first line feed
      inside the trailing whitespace run, and everything after it, go. */
  function StripTrailingBlankLines(s: string): (r: string)
    ensures |r| <= |s| && r == s[..|r|]
    ensures r == s <==> forall i :: !TrailingBlankMatch(s, i)
    ensures r != s ==> TrailingBlankMatch(s, |r|)
    ensures forall i :: TrailingBlankMatch(s, i) ==> |r| <= i
  {
    var t := TrailingWsStart(s);
    var i := IndexOf(s, "\n", t);
    FirstNewlineInRun(s, t, i);
    if i == -1 then s else s[..i]
  }

  /** The first line feed of the trailing whitespace run starts the
      leftmost match of `/\n\s*$/`. */
  lemma FirstNewlineInRun(s: string, t: nat, i: int)
    requires t == TrailingWsStart(s) && i == IndexOf(s, "\n", t)
    ensures i == -1 ==> forall i' :: !TrailingBlankMatch(s, i')
    ensures i != -1 ==> TrailingBlankMatch(s, i)
    ensures forall i' :: TrailingBlankMatch(s, i') ==> i != -1 && i <= i'
  {
    IndexOfSpec(s, "\n", t);
    assert Clamp(t, |s|) == t;
    forall i' | TrailingBlankMatch(s, i') ensures i != -1 && i <= i' {
      TrailingWsMaximal(s, i');
      OccursChar(s, '\n', i');
    }
    if i != -1 {
      OccursChar(s, '\n', i);
      WsSuffixAt(s, t);
      assert forall q :: 0 <= q < |s[i..]| ==> s[i..][q] == s[i + q];
    }
  }

  /** After the leading strip, the leading whitespace run holds no line
      feed: one there would make a longer match. */
  lemma LeadingRunNoNewline(s: string)
    ensures var r := StripLeadingBlankLines(s);
            forall p :: 0 <= p < LeadingWsLen(r) ==> r[p] != '\n'
  {
    var r := StripLeadingBlankLines(s);
    var d := |s| - |r|;
    assert AllWs(s[..d]) by {
      if r != s {
        assert LeadingBlankMatch(s, d);
      }
    }
    forall p | 0 <= p < LeadingWsLen(r) ensures r[p] != '\n' {
      LeadingRunExtends(s, r, d, p);
      assert !LeadingBlankMatch(s, d + p + 1);
    }
  }

  /** Whitespace up to `d`, then the leading run of the rest: everything
      up to and including position `d + p` is whitespace. */
  lemma LeadingRunExtends(s: string, r: string, d: nat, p: nat)
    requires d <= |s| && r == s[d..] && AllWs(s[..d]) && p < LeadingWsLen(r)
    ensures d + p < |s| && r[p] == s[d + p] && AllWs(s[..d + p + 1])
  {
    var l := LeadingWsLen(r);
    WsPrefixAt(r, l);
    WsPrefixAt(s, d);
    var n := d + p + 1;
    forall q | 0 <= q < n ensures IsWs(s[..n][q]) {
      if q >= d {
        assert s[q] == r[q - d];
      }
    }
  }

  /** After the trailing strip, the trailing whitespace run holds no line
      feed: one there would be an earlier match. */
  lemma TrailingRunNoNewline(s: string)
    ensures var r := StripTrailingBlankLines(s);
            forall p :: TrailingWsStart(r) <= p < |r| ==> r[p] != '\n'
  {
    var r := StripTrailingBlankLines(s);
    assert AllWs(s[|r|..]) by {
      if r != s {
        assert TrailingBlankMatch(s, |r|);
      }
    }
    forall p | TrailingWsStart(r) <= p < |r| ensures r[p] != '\n' {
      TrailingRunExtends(s, r, p);
      assert !TrailingBlankMatch(s, p);
    }
  }

  /** The trailing run of a prefix, then whitespace to the end: everything
      from position `p` on is whitespace. */
  lemma TrailingRunExtends(s: string, r: string, p: nat)
    requires |r| <= |s| && r == s[..|r|] && AllWs(s[|r|..]) && TrailingWsStart(r) <= p < |r|
    ensures r[p] == s[p] && AllWs(s[p..])
  {
    var t := TrailingWsStart(r);
    WsSuffixAt(r, t);
    WsSuffixAt(s, |r|);
    forall q | 0 <= q < |s| - p ensures IsWs(s[p..][q]) {
      if p + q < |r| {
        assert s[p + q] == r[p + q];
      }
    }
  }

  /** The leading strip removes only whitespace, so it does not change
      whether the text is blank. */
  lemma LeadingStripKeepsBlankness(s: string)
    ensures AllWs(StripLeadingBlankLines(s)) <==> AllWs(s)
  {
    var u := StripLeadingBlankLines(s);
    if u != s {
      var d := |s| - |u|;
      assert LeadingBlankMatch(s, d);
      assert s == s[..d] + u;
      WsAround(s[..d], u, s);
    }
  }

  /** The trailing strip removes only whitespace, so it does not change
      whether the text is blank. */
  lemma TrailingStripKeepsBlankness(s: string)
    ensures AllWs(StripTrailingBlankLines(s)) <==> AllWs(s)
  {
    var v := StripTrailingBlankLines(s);
    if v != s {
      assert TrailingBlankMatch(s, |v|);
      assert s == v + s[|v|..];
      WsAround(v, s[|v|..], s);
    }
  }

  /** Gluing whitespace to either side of a text keeps it blank or not. */
  lemma WsAround(x: string, y: string, s: string)
    requires s == x + y
    ensures AllWs(x) ==> (AllWs(s) <==> AllWs(y))
    ensures AllWs(y) ==> (AllWs(s) <==> AllWs(x))
  {
    AllWsConcat(x, y);
  }

  /** A prefix's leading whitespace run is a prefix of the whole text's. */
  lemma PrefixLeadingRun(u: string, r: string)
    requires |r| <= |u| && r == u[..|r|]
    ensures LeadingWsLen(r) <= LeadingWsLen(u)
    ensures r[..LeadingWsLen(r)] == u[..LeadingWsLen(r)]
  {
    var l := LeadingWsLen(r);
    assert u[..l] == r[..l];
    LeadingWsMaximal(u, l);
  }

  // ---------------------------------------------------------------------
  // The children text
  // ---------------------------------------------------------------------

  /** The text between the first `>` and the last `</tagName>` of the
      trimmed selection, with `substring`'s clamping and argument swap. */
  function RawChildren(selectedText: string, tagName: string): string {
    var t := Trim(selectedText);
    Substring(t, OpenTagEnd(t), LastIndexOf(t, CloseTag(tagName)))
  }

  /** Both edge strips, leading first: neither edge's whitespace run holds
      a line feed any more, and blankness is unchanged. */
  function StripEdges(raw: string): (r: string)
    ensures forall p :: 0 <= p < LeadingWsLen(r) ==> r[p] != '\n'
    ensures forall p :: TrailingWsStart(r) <= p < |r| ==> r[p] != '\n'
    ensures AllWs(r) <==> AllWs(raw)
  {
    var u := StripLeadingBlankLines(raw);
    var r := StripTrailingBlankLines(u);
    StripEdgesFacts(raw, u, r);
    r
  }

  /** The facts `StripEdges` states, about the two strips in turn. */
  lemma StripEdgesFacts(raw: string, u: string, r: string)
    requires u == StripLeadingBlankLines(raw) && r == StripTrailingBlankLines(u)
    ensures forall p :: 0 <= p < LeadingWsLen(r) ==> r[p] != '\n'
    ensures forall p :: TrailingWsStart(r) <= p < |r| ==> r[p] != '\n'
    ensures AllWs(r) <==> AllWs(raw)
  {
    LeadingRunNoNewline(raw);
    LeadingRunOfPrefix(u, r);
    TrailingRunNoNewline(u);
    LeadingStripKeepsBlankness(raw);
    TrailingStripKeepsBlankness(u);
  }

  /** A prefix keeps the property that the leading whitespace run holds no
      line feed. */
  lemma LeadingRunOfPrefix(u: string, r: string)
    requires |r| <= |u| && r == u[..|r|]
    requires forall p :: 0 <= p < LeadingWsLen(u) ==> u[p] != '\n'
    ensures forall p :: 0 <= p < LeadingWsLen(r) ==> r[p] != '\n'
  {
    PrefixLeadingRun(u, r);
    assert forall p :: 0 <= p < LeadingWsLen(r) ==> r[p] == u[p];
  }

  /** The children text the unwrap keeps. */
  function Children(selectedText: string, tagName: string): string {
    StripEdges(RawChildren(selectedText, tagName))
  }

  // ---------------------------------------------------------------------
  // The dedent
  // ---------------------------------------------------------------------

  /** The line is empty or all whitespace; `BlankIsTrimEmpty` shows this is
      the source's `!line.trim()`. */
  predicate IsBlank(line: string) {
    AllWs(line)
  }

  /** `trim` leaves nothing of exactly the blank lines. */
  lemma BlankIsTrimEmpty(line: string)
    ensures IsBlank(line) <==> Trim(line) == ""
  {
    var r := Trim(line);
    assert r == [] <==> AllWs(line);
  }

  /** One step of the `minIndent` loop: blank lines are skipped, any other
      line lowers the minimum to its leading whitespace length. */
  function MinStep(acc: Option<nat>, line: string): Option<nat> {
    if IsBlank(line) then acc
    else
      var n := LeadingWsLen(line);
      match acc
      case None => Some(n)
      case Some(m) => Some(if n < m then n else m)
  }

  /** `m` is the smallest leading whitespace length over the non-blank
      lines, and `None` exactly when there is no non-blank line. */
  predicate IsMinIndent(lines: seq<string>, m: Option<nat>) {
    && (m.None? <==> forall i :: 0 <= i < |lines| ==> IsBlank(lines[i]))
    && (m.Some? ==>
          forall i :: 0 <= i < |lines| && !IsBlank(lines[i]) ==> m.value <= LeadingWsLen(lines[i]))
    && (m.Some? ==>
          exists i :: 0 <= i < |lines| && !IsBlank(lines[i]) && LeadingWsLen(lines[i]) == m.value)
  }

  /** `minIndent` after the loop, with `None` for `Infinity`. */
  function MinIndent(lines: seq<string>): (m: Option<nat>)
    ensures IsMinIndent(lines, m)
    decreases |lines|
  {
    if |lines| == 0 then None
    else
      var init := lines[..|lines| - 1];
      var acc := MinIndent(init);
      MinStepKeeps(init, acc, lines[|lines| - 1]);
      assert init + [lines[|lines| - 1]] == lines;
      MinStep(acc, lines[|lines| - 1])
  }

  /** The loop invariant: one more step keeps the accumulator the minimum
      over the lines seen so far. */
  lemma MinStepKeeps(init: seq<string>, acc: Option<nat>, last: string)
    requires IsMinIndent(init, acc)
    ensures IsMinIndent(init + [last], MinStep(acc, last))
  {
    var lines := init + [last];
    var r := MinStep(acc, last);
    assert forall i :: 0 <= i < |init| ==> lines[i] == init[i];
    assert lines[|init|] == last;
    if !IsBlank(last) {
      var n := LeadingWsLen(last);
      if acc.Some? && acc.value <= n {
        var w :| 0 <= w < |init| && !IsBlank(init[w]) && LeadingWsLen(init[w]) == acc.value;
        assert lines[w] == init[w];
      } else {
        assert lines[|init|] == last;
      }
    } else if acc.Some? {
      var w :| 0 <= w < |init| && !IsBlank(init[w]) && LeadingWsLen(init[w]) == acc.value;
      assert lines[w] == init[w];
    }
  }

  /** One line of the dedent map: blank lines become empty, others lose
      `minIndent` leading characters (none when every line is blank) and
      gain `baseIndent`. */
  function DedentLine(line: string, minIndent: Option<nat>, baseIndent: string): string {
    if IsBlank(line) then ""
    else baseIndent + Substring(line, minIndent.GetOr(0), |line|)
  }

  /** The dedent map over all child lines. What a non-blank line loses is
      whitespace, and something is left of it. */
  function Dedent(lines: seq<string>, baseIndent: string): (r: seq<string>)
    ensures |r| == |lines|
    ensures forall i :: 0 <= i < |lines| && IsBlank(lines[i]) ==> r[i] == ""
    ensures forall i :: 0 <= i < |lines| && !IsBlank(lines[i]) ==>
      var m := MinIndent(lines).value;
      && m < |lines[i]| && AllWs(lines[i][..m])
      && r[i] == baseIndent + lines[i][m..]
  {
    var m := MinIndent(lines);
    forall i | 0 <= i < |lines| && !IsBlank(lines[i])
      ensures m.value < |lines[i]| && AllWs(lines[i][..m.value])
      ensures DedentLine(lines[i], m, baseIndent) == baseIndent + lines[i][m.value..]
    {
      DedentableLine(lines[i], m.value);
    }
    var r := seq(|lines|, i requires 0 <= i < |lines| => DedentLine(lines[i], m, baseIndent));
    assert forall i :: 0 <= i < |lines| ==> r[i] == DedentLine(lines[i], m, baseIndent);
    r
  }

  /** A non-blank line is longer than its leading whitespace run, and any
      shorter prefix of that run is whitespace too. */
  lemma DedentableLine(line: string, m: nat)
    requires !IsBlank(line) && m <= LeadingWsLen(line)
    ensures m < |line| && AllWs(line[..m])
  {
    var l := LeadingWsLen(line);
    assert l < |line| by {
      assert line[..|line|] == line;
    }
    assert AllWs(line[..m]) by {
      WsPrefixAt(line, l);
      assert forall q :: 0 <= q < m ==> line[..m][q] == line[q];
    }
  }

  /** Some non-blank line loses exactly its leading whitespace, so its
      output has a non-whitespace character right after `baseIndent`. */
  lemma DedentKeepsOneEdge(lines: seq<string>, baseIndent: string)
    requires exists i :: 0 <= i < |lines| && !IsBlank(lines[i])
    ensures var r := Dedent(lines, baseIndent);
            exists i :: 0 <= i < |r| && |baseIndent| < |r[i]| && !IsWs(r[i][|baseIndent|])
  {
    var r := Dedent(lines, baseIndent);
    var m := MinIndent(lines).value;
    var i :| 0 <= i < |lines| && !IsBlank(lines[i]) && LeadingWsLen(lines[i]) == m;
    assert r[i] == baseIndent + lines[i][m..];
    assert r[i][|baseIndent|] == lines[i][m];
  }

  /** The re-indented children, `childLines.map(...).join("\n")`. The
      output has one line per child line, each the dedented child line,
      as long as `baseIndent` is a single line. */
  function UnwrapChildren(selectedText: string, tagName: string, baseIndent: string): (r: string)
    ensures '\n' !in baseIndent ==>
              Split(r, '\n') == Dedent(Split(Children(selectedText, tagName), '\n'), baseIndent)
  {
    var lines := Split(Children(selectedText, tagName), '\n');
    var r := Join(Dedent(lines, baseIndent), "\n");
    assert '\n' !in baseIndent ==> Split(r, '\n') == Dedent(lines, baseIndent) by {
      if '\n' !in baseIndent {
        DedentLinesRoundTrip(lines, baseIndent);
      }
    }
    r
  }

  /** Dedented single lines joined with line feeds split back into the
      same lines. */
  lemma DedentLinesRoundTrip(lines: seq<string>, baseIndent: string)
    requires |lines| >= 1
    requires '\n' !in baseIndent
    requires forall i :: 0 <= i < |lines| ==> '\n' !in lines[i]
    ensures Split(Join(Dedent(lines, baseIndent), "\n"), '\n') == Dedent(lines, baseIndent)
  {
    var r := Dedent(lines, baseIndent);
    forall i | 0 <= i < |r| ensures '\n' !in r[i] {
      if !IsBlank(lines[i]) {
        var m := MinIndent(lines).value;
        assert forall q :: 0 <= q < |lines[i]| - m ==> lines[i][m..][q] == lines[i][m + q];
      }
    }
    SplitJoin(r, '\n');
  }

  // ---------------------------------------------------------------------
  // The edit
  // ---------------------------------------------------------------------

  /** What the removal action does to the selected range. */
  datatype Edit = Delete | Replace(text: string)

  /** `createUnwrapAction`'s edit. No edit when the selection does not
      classify; the whole range is deleted when children are to go or the
      element is self-closing; otherwise the range is replaced by the
      re-indented children. `startLine` is the text of the document line
      the selection starts on, whose indentation becomes `baseIndent`. */
  function UnwrapEdit(selectedText: string, removeChildren: bool, startLine: string): (r: Option<Edit>)
    ensures r.None? <==> Parse(selectedText).None?
    ensures r == Some(Delete) <==>
      Parse(selectedText).Some? && (removeChildren || Parse(selectedText).value.isSelfClosing)
    ensures r.Some? && r.value.Replace? ==>
      r.value.text == UnwrapChildren(selectedText, Parse(selectedText).value.tagName, GetIndentation(startLine))
  {
    match Parse(selectedText)
    case None => None
    case Some(info) =>
      if removeChildren || info.isSelfClosing then Some(Delete)
      else Some(Replace(UnwrapChildren(selectedText, info.tagName, GetIndentation(startLine))))
  }

  /** For a container, the raw children are the text between its first `>`
      and its closing tag, so they are blank exactly when the classifier
      says the element has no children. */
  lemma RawChildrenBlank(s: string)
    ensures Parse(s).Some? && !Parse(s).value.isSelfClosing ==>
              (AllWs(RawChildren(s, Parse(s).value.tagName)) <==> !Parse(s).value.hasChildren)
  {
    if Parse(s).None? || Parse(s).value.isSelfClosing { return; }
    var t := Trim(s);
    var c := CloseTag(Parse(s).value.tagName);
    assert EndsWith(t, c) && 1 <= OpenTagEnd(t) <= |t|;
    LastIndexOfSuffix(t, c);
    ChildrenTest(t, OpenTagEnd(t), |t| - |c|);
  }

  /** A text is blank exactly when each of its lines is. */
  lemma BlankLines(c: string)
    ensures AllWs(c) <==> forall i :: 0 <= i < |Split(c, '\n')| ==> IsBlank(Split(c, '\n')[i])
  {
    JoinSplit(c, '\n');
    AllWsJoin(Split(c, '\n'), "\n");
  }

  /** Keeping the children of a container leaves some non-empty line
      exactly when the classifier says it has children. */
  lemma UnwrapKeepsChildren(s: string, baseIndent: string)
    ensures Parse(s).Some? && !Parse(s).value.isSelfClosing ==>
              var lines := Dedent(Split(Children(s, Parse(s).value.tagName), '\n'), baseIndent);
              (Parse(s).value.hasChildren <==> exists i :: 0 <= i < |lines| && lines[i] != "")
  {
    if Parse(s).None? || Parse(s).value.isSelfClosing { return; }
    var raw := RawChildren(s, Parse(s).value.tagName);
    RawChildrenBlank(s);
    assert AllWs(StripEdges(raw)) <==> AllWs(raw);
    DedentBlankIff(StripEdges(raw), baseIndent);
  }

  /** The dedent of a text's lines leaves some non-empty line exactly when
      the text is not blank. */
  lemma DedentBlankIff(c: string, baseIndent: string)
    ensures var lines := Dedent(Split(c, '\n'), baseIndent);
            !AllWs(c) <==> exists i :: 0 <= i < |lines| && lines[i] != ""
  {
    var parts := Split(c, '\n');
    var lines := Dedent(parts, baseIndent);
    BlankLines(c);
    if !AllWs(c) {
      var i :| 0 <= i < |parts| && !IsBlank(parts[i]);
      assert |lines[i]| > 0;
    }
  }

  // ---------------------------------------------------------------------
  // An attribute holding `>`
  // ---------------------------------------------------------------------

  /** The opening tag the `Pressable` default writes, and where its first
      `>` is: inside the arrow function, at index 24. */
  lemma PressableOpening()
    ensures var o := OpenTagText("Pressable", Some("onPress={() => {}}"));
            && |o| == 30 && o[24] == '>' && (forall j :: 0 <= j < 24 ==> o[j] != '>')
            && o[26] == '{' && o[25..30] == " {}}>"
  {
    var name := "Pressable";
    var at := "onPress={() => {}}";
    var a := Attrs(Some(at));
    assert a == " " + at;
    var o := OpenTagText(name, Some(at));
    assert |o| == 30;
    forall j | 0 <= j < 24 ensures o[j] != '>' {
      if 1 <= j < 10 {
        assert o[j] == name[j - 1];
      } else if 11 <= j {
        assert o[j] == at[j - 11];
      }
    }
    assert o[24] == at[13] && o[26] == at[15];
    assert forall k :: 0 <= k < 5 ==> o[25..30][k] == (at[14..] + ">")[k];
  }

  /** As the text is written, an opening tag whose attributes hold a `>`
      is cut short when its wrap is read back: `indexOf(">")` stops at that
      `>`, the rest of the opening tag is counted as children, and "keep
      children" starts its text with that rest. */
  lemma EarlyGtMisread(content: string, name: string, indent: string, childIndent: string,
                       attributes: Option<string>, g: nat)
    requires IsTagName(name) && AllWs(indent)
    requires var o := OpenTagText(name, attributes);
             g + 1 < |o| && o[g] == '>' && (forall j :: 0 <= j < g ==> o[j] != '>')
    ensures var w := WrapContent(content, name, indent, childIndent, attributes, None);
            var o := OpenTagText(name, attributes);
            && OpenTagEnd(Trim(w)) == g + 1
            && Parse(w).Some? && !Parse(w).value.isSelfClosing
            && ((exists k :: g < k < |o| && !IsWs(o[k])) ==> Parse(w).value.hasChildren)
            && |RawChildren(w, name)| >= |o| - g - 1
            && RawChildren(w, name)[..|o| - g - 1] == o[g + 1..]
  {
    var w := WrapContent(content, name, indent, childIndent, attributes, None);
    var o := OpenTagText(name, attributes);
    WrapFrame(content, name, indent, childIndent, attributes);
    WrapThenParse(content, name, indent, childIndent, attributes, None);
    MisreadFromParts(w, name, o, g);
  }

  /** A trimmed wrap starts with its opening tag and ends with its closing
      tag, with at least the two line feeds between them. */
  lemma WrapFrame(content: string, name: string, indent: string, childIndent: string,
                  attributes: Option<string>)
    requires AllWs(indent)
    ensures var t := Trim(WrapContent(content, name, indent, childIndent, attributes, None));
            var o := OpenTagText(name, attributes);
            |t| >= |o| + |CloseTag(name)| + 2 && t[..|o|] == o && EndsWith(t, CloseTag(name))
  {
    var o := OpenTagText(name, attributes);
    var t := Element(content, name, indent, childIndent, attributes);
    WrapTrim(content, name, indent, childIndent, attributes, None);
    ElementParts(content, name, indent, childIndent, attributes);
    assert t[..|o|] == o;
  }

  /** The reading of `EarlyGtMisread` on any text whose trimmed form starts
      with the opening tag `o` and ends with `name`'s closing tag. */
  lemma MisreadFromParts(w: string, name: string, o: string, g: nat)
    requires var t := Trim(w);
             |t| >= |o| + |CloseTag(name)| + 2 && t[..|o|] == o && EndsWith(t, CloseTag(name))
    requires g + 1 < |o| && o[g] == '>' && (forall j :: 0 <= j < g ==> o[j] != '>')
    requires Parse(w).Some? && Parse(w).value.tagName == name && !Parse(w).value.isSelfClosing
    ensures OpenTagEnd(Trim(w)) == g + 1
    ensures (exists k :: g < k < |o| && !IsWs(o[k])) ==> Parse(w).value.hasChildren
    ensures |RawChildren(w, name)| >= |o| - g - 1 && RawChildren(w, name)[..|o| - g - 1] == o[g + 1..]
  {
    FirstGtAt(Trim(w), o, g);
    ChildrenInOpening(w, name, o, g + 1);
    RawChildrenStartsWith(w, name, o, g + 1);
  }

  /** When the first `>` lies inside the opening tag `o`, a non-blank
      character of `o` after it is enough for the classifier to report
      children. */
  lemma ChildrenInOpening(w: string, name: string, o: string, a: nat)
    requires var t := Trim(w);
             |t| >= |o| + |CloseTag(name)| && t[..|o|] == o
    requires a <= |o| && OpenTagEnd(Trim(w)) == a
    requires Parse(w).Some? && Parse(w).value.tagName == name && !Parse(w).value.isSelfClosing
    ensures (exists k :: a <= k < |o| && !IsWs(o[k])) ==> Parse(w).value.hasChildren
  {
    if exists k :: a <= k < |o| && !IsWs(o[k]) {
      var k :| a <= k < |o| && !IsWs(o[k]);
      assert Trim(w)[k] == o[k];
    }
  }

  /** The raw children of a text whose trimmed form starts with `o` and
      whose first `>` lies at `a - 1` inside `o` start with the rest of `o`. */
  lemma RawChildrenStartsWith(w: string, name: string, o: string, a: nat)
    requires var t := Trim(w);
             |t| >= |o| + |CloseTag(name)| && t[..|o|] == o && EndsWith(t, CloseTag(name))
    requires a <= |o| && OpenTagEnd(Trim(w)) == a
    ensures |RawChildren(w, name)| >= |o| - a && RawChildren(w, name)[..|o| - a] == o[a..]
  {
    var t := Trim(w);
    var c := CloseTag(name);
    RawChildrenSlice(w, name);
    PrefixOfSlice(t, o, a, |t| - |c|, RawChildren(w, name));
  }

  /** A slice of `t` from `a` that reaches past the prefix `o` starts with
      the rest of `o`. */
  lemma PrefixOfSlice(t: string, o: string, a: nat, e: nat, r: string)
    requires a <= |o| <= e <= |t| && t[..|o|] == o && r == t[a..e]
    ensures |r| >= |o| - a && r[..|o| - a] == o[a..]
  {
    assert forall i :: 0 <= i < |o| - a ==> r[i] == t[..|o|][a + i];
  }

  /** The `Pressable` default `onPress={() => {}}`: wrapping any selection
      with it, even a blank one, reads back as an element with children, and
      "keep children" starts its text with ` {}}>`. */
  lemma ArrowAttributeMisread(content: string, indent: string, childIndent: string)
    requires AllWs(indent)
    ensures var w := WrapContent(content, "Pressable", indent, childIndent, Some("onPress={() => {}}"), None);
            && OpenTagEnd(Trim(w)) == 25
            && Parse(w).Some? && Parse(w).value.hasChildren
            && |RawChildren(w, "Pressable")| >= 5 && RawChildren(w, "Pressable")[..5] == " {}}>"
  {
    var o := OpenTagText("Pressable", Some("onPress={() => {}}"));
    PressableOpening();
    PressableIsTagName();
    assert 24 < 26 < |o| && !IsWs(o[26]);
    EarlyGtMisread(content, "Pressable", indent, childIndent, Some("onPress={() => {}}"), 24);
    var rc := RawChildren(WrapContent(content, "Pressable", indent, childIndent, Some("onPress={() => {}}"), None), "Pressable");
    assert o[25..] == o[25..30];
    assert rc[..5] == o[25..30];
  }

  /** What "keep children" writes for a blank selection wrapped with the
      `Pressable` default: not nothing, but the start line's indentation
      followed by `{}}>`, the rest of the opening tag. */
  lemma ArrowKeepChildrenText(content: string, indent: string, childIndent: string, startLine: string)
    requires AllWs(indent) && AllWs(childIndent) && AllWs(content)
    ensures var w := WrapContent(content, "Pressable", indent, childIndent, Some("onPress={() => {}}"), None);
            UnwrapEdit(w, false, startLine) == Some(Replace(GetIndentation(startLine) + "{}}>"))
  {
    PressableOpening();
    PressableIsTagName();
    PressableRest();
    EarlyGtKeepText(content, "Pressable", indent, childIndent, Some("onPress={() => {}}"), 24, startLine);
  }

  /** As written, "keep children" on a blank selection wrapped in an
      opening tag `o` with an early `>` writes the start line's indentation
      and the rest of `o` after that `>`, less its leading whitespace, as
      long as that rest is one line ending in a non-blank character. */
  lemma EarlyGtKeepText(content: string, name: string, indent: string, childIndent: string,
                        attributes: Option<string>, g: nat, startLine: string)
    requires IsTagName(name) && AllWs(indent) && AllWs(childIndent) && AllWs(content)
    requires var o := OpenTagText(name, attributes);
             && g + 1 < |o| && o[g] == '>' && (forall j :: 0 <= j < g ==> o[j] != '>')
             && '\n' !in o[g + 1..] && !IsWs(o[|o| - 1])
    ensures var w := WrapContent(content, name, indent, childIndent, attributes, None);
            var x := OpenTagText(name, attributes)[g + 1..];
            UnwrapEdit(w, false, startLine) == Some(Replace(GetIndentation(startLine) + x[LeadingWsLen(x)..]))
  {
    var w := WrapContent(content, name, indent, childIndent, attributes, None);
    var o := OpenTagText(name, attributes);
    var x := o[g + 1..];
    var y := "\n" + ReindentContent(content, childIndent) + "\n" + indent;
    WrapThenParse(content, name, indent, childIndent, attributes, None);
    EarlyGtRaw(content, name, indent, childIndent, attributes, g);
    ReindentContentBlank(content, childIndent);
    BlankFrame(ReindentContent(content, childIndent), indent);
    assert x[|x| - 1] == o[|o| - 1];
    StripKeepsHead(x, y);
    assert !AllWs(x);
    DedentSingle(x, GetIndentation(startLine));
  }

  /** The rest of the `Pressable` opening tag after its first `>`. */
  lemma PressableRest()
    ensures var o := OpenTagText("Pressable", Some("onPress={() => {}}"));
            var x := o[25..];
            && '\n' !in x && !IsWs(o[|o| - 1]) && x[LeadingWsLen(x)..] == "{}}>"
  {
    PressableOpening();
    var x := " {}}>";
    assert !IsWs(x[1]);
    assert LeadingWsLen(x) == 1;
  }

  /** A line feed, whitespace, a line feed and whitespace are whitespace. */
  lemma BlankFrame(body: string, indent: string)
    requires AllWs(body) && AllWs(indent)
    ensures var y := "\n" + body + "\n" + indent;
            AllWs(y) && |y| > 0 && y[0] == '\n'
  {
    var y := "\n" + body + "\n" + indent;
    forall k | 0 <= k < |y| ensures IsWs(y[k]) {
      if 1 <= k < 1 + |body| {
        assert y[k] == body[k - 1];
      } else if k >= 2 + |body| {
        assert y[k] == indent[k - 2 - |body|];
      }
    }
  }

  /** As written, the raw children of a wrap whose opening tag holds an
      early `>` are the rest of the opening tag, then everything between the
      two tag lines. */
  lemma EarlyGtRaw(content: string, name: string, indent: string, childIndent: string,
                   attributes: Option<string>, g: nat)
    requires AllWs(indent)
    requires var o := OpenTagText(name, attributes);
             g + 1 < |o| && o[g] == '>' && (forall j :: 0 <= j < g ==> o[j] != '>')
    ensures var w := WrapContent(content, name, indent, childIndent, attributes, None);
            RawChildren(w, name)
            == OpenTagText(name, attributes)[g + 1..] + ("\n" + ReindentContent(content, childIndent) + "\n" + indent)
  {
    var w := WrapContent(content, name, indent, childIndent, attributes, None);
    var o := OpenTagText(name, attributes);
    var m := "\n" + ReindentContent(content, childIndent) + "\n" + indent;
    var c := CloseTag(name);
    WrapTrim(content, name, indent, childIndent, attributes, None);
    ElementParts(content, name, indent, childIndent, attributes);
    var t := Trim(w);
    assert t == o + (m + c);
    assert t[..|o|] == o;
    FirstGtAt(t, o, g);
    MiddleOf(o, m, c);
    RawChildrenSlice(w, name);
    SliceFromHead(o, m, c, g + 1);
  }

  /** A slice that starts inside the head `o` and ends before `c`. */
  lemma SliceFromHead(o: string, m: string, c: string, a: nat)
    requires a <= |o|
    ensures var b := o + (m + c);
            |b| - |c| == |o| + |m| && b[a..|b| - |c|] == o[a..] + m
  {
    var b := o + (m + c);
    assert forall i :: 0 <= i < |o| - a + |m| ==> b[a..|b| - |c|][i] == (o[a..] + m)[i];
  }

  /** Stripping the edges of a line without line feeds that ends in a
      non-blank character, followed by whitespace that starts a new line,
      leaves just that line. */
  lemma StripKeepsHead(x: string, y: string)
    requires '\n' !in x && |x| > 0 && !IsWs(x[|x| - 1])
    requires AllWs(y) && |y| > 0 && y[0] == '\n'
    ensures StripEdges(x + y) == x
  {
    var s := x + y;
    assert forall j :: 0 <= j < |x| ==> s[j] != '\n' by {
      forall j | 0 <= j < |x| ensures s[j] != '\n' {
        assert s[j] == x[j] && x[j] in x;
      }
    }
    forall n ensures !LeadingBlankMatch(s, n) {
      if |x| <= n <= |s| {
        assert s[..n][|x| - 1] == x[|x| - 1];
      }
    }
    assert StripLeadingBlankLines(s) == s;
    assert s[|x|..] == y;
    assert TrailingBlankMatch(s, |x|);
    var r := StripTrailingBlankLines(s);
    assert |r| == |x|;
    assert r == s[..|x|] == x;
  }

  /** The dedent of a single non-blank line drops its leading whitespace
      and puts `baseIndent` in its place. */
  lemma DedentSingle(x: string, baseIndent: string)
    requires '\n' !in x && !AllWs(x)
    ensures Join(Dedent(Split(x, '\n'), baseIndent), "\n") == baseIndent + x[LeadingWsLen(x)..]
  {
    SplitFree(x, '\n');
    var lines := [x];
    assert lines[0] == x;
    var m := MinIndent(lines);
    assert m.Some? && m.value == LeadingWsLen(x);
    var r := Dedent(lines, baseIndent);
    assert r[0] == baseIndent + x[LeadingWsLen(x)..];
  }

  lemma PressableIsTagName()
    ensures IsTagName("Pressable")
  {
    var name := "Pressable";
    assert forall k :: 1 <= k < |name| ==> IsNameChar(name[k]);
  }

  /** When the trimmed text ends with the closing tag, the raw children are
      exactly what lies between the first `>` and that closing tag. */
  lemma RawChildrenSlice(s: string, tagName: string)
    requires var t := Trim(s);
             EndsWith(t, CloseTag(tagName)) && OpenTagEnd(t) <= |t| - |CloseTag(tagName)|
    ensures var t := Trim(s);
            RawChildren(s, tagName) == t[OpenTagEnd(t)..|t| - |CloseTag(tagName)|]
  {
    LastIndexOfSuffix(Trim(s), CloseTag(tagName));
  }

  /** The first `>` of a text that begins with `o` is the first `>` of `o`. */
  lemma FirstGtAt(t: string, o: string, g: nat)
    requires g < |o| <= |t| && t[..|o|] == o
    requires o[g] == '>' && (forall j :: 0 <= j < g ==> o[j] != '>')
    ensures OpenTagEnd(t) == g + 1
  {
    IndexOfSpec(t, ">", 0);
    assert t[g] == o[g];
    OccursChar(t, '>', g);
    forall j | 0 <= j < g ensures !Occurs(t, ">", j) {
      assert t[j] == o[j];
      OccursChar(t, '>', j);
    }
  }
}
